=== FILE: README.md ===
# reserve-meet booking core, modelled in Dafny

reserve-meet is a Django REST backend. Users book meeting rooms at office
locations. The project models the rule-bearing parts of that backend:

- **Overlap rules and conflict detection.** Two bookings of a room overlap
  when `a.start < b.end && a.end > b.start`. The serializers and the
  availability check use that test. The PostgreSQL exclusion constraint
  `without_overlaps_booking` guards the stored rows. It is kept here as an
  invariant of the booking table (`BookingModels.BookingTable`), and every
  save is checked against it.
- **Alternative-slot suggester.** A cursor walk over the room's bookings of
  the day, from 08:00, proposing slots of the requested length. It is a
  `while` loop proved equal to a recursive definition. Lemmas about that
  definition give duration, order, non-overlap and the cap of three.
- **Booking life cycle.** `confirm`, `cancel` and `complete` on a `Booking`
  instance (a class whose methods assign fields and save), the view guards
  in front of them, and the admin bulk actions (loops over the table).
- **Input validation.**
  - `HH:MM` times, `YYYY-MM-DD` dates and the end-after-start rule of the
    availability query.
  - The CEP and Brazilian state validators.
  - Registration and password-change cleaning, on top of the field rules
    DRF `CharField` applies (strip, refuse missing, null and blank values,
    then `min_length`).
- **Access and scoping.**
  - `IsManagerOrAdmin`.
  - The querysets each user may see.
  - The booking filter set, with its case-insensitive search.
  - The writable fields of the user serializers.
- **Session bookkeeping.**
  - `UserSession.is_active` and `revoke`.
  - The "one current session" update after a login.
  - The guarded revoke view and the admin revoke loop (classes
    `CoreModels.UserSession` and `CoreModels.SessionTable`).
- **Request helpers.** Client IP behind a proxy, device type and name, and
  the stub location lookup.

How the model represents the system:

- Times are integer seconds. `date_booking` is the proleptic Gregorian day
  number (`date.toordinal()`), and a datetime of day `d` at minute `m` is
  `d*86400 + m*60`.
- These come in as parameters: "now", the requesting principal, the
  parsed user agent, password hashing, `check_password`,
  `normalize_email`, the email syntax check and the JWT blacklist call.
- Module files follow the source files: `booking_models.dfy` models
  `booking/models.py`, `core_views.dfy` models `core/views.py`, and so on.
- Shared helpers live in these files:
  - `results.dfy`: `Option`, `Result` and `Outcome`.
  - `lists.dfy`: filtering, searching and insertion sort over sequences.
  - `text.dfy`: Python's `strip`, ASCII `upper`/`lower`, substring search
    and `split(...)[0]`.
  - `fields.dfy`: DRF `CharField` cleaning.
  - `http.dfy`: the requester, the responses and DRF's two permissions.

## Model

| member | source | states |
|---|---|---|
| BookingModels.StatusCodeInjective | booking/choices.py:6-10 | Distinct statuses are stored under distinct codes, so comparing codes compares statuses. |
| BookingModels.NewBooking | booking/models.py:165-253 | A booking built from its required columns starts pending and active, with no coffee break, a headcount of 1 and no confirmation or cancellation data. The `MinValueValidator(1)` checks then hold exactly when the room's capacity is at least 1. |
| BookingModels.ConfirmedRow | booking/models.py:257-263 | Confirming sets status confirmed, `confirmed_by` to the actor and `confirmed_at` to now. Room, manager, day and times are kept, and no other modelled column changes. |
| BookingModels.CancelledRow | booking/models.py:265-273 | Cancelling sets status, `cancelled_by` and `cancelled_at`. The reason replaces the stored one only when it is truthy, otherwise the old reason stays. The slot columns and every other column are kept. |
| BookingModels.CompletedRow | booking/models.py:275-278 | Completing changes the status to completed and no other modelled column. |
| BookingModels.OverlapAgreement | booking/models.py:296-316 | On non-empty intervals, the application's strict overlap test and PostgreSQL's `&&` on `[)` ranges agree. A database overlap always implies an application overlap. The test is symmetric. |
| BookingModels.EmptyIntervalDisagreement | booking/models.py:296-316 | A zero-length booking inside another is a conflict for the application but not for the database, whose empty range overlaps nothing. |
| BookingModels.BackToBack | booking/serializers.py:79-86 | Bookings that meet end to start never overlap, by either test. |
| BookingModels.ReleasedRowAlwaysSaves | booking/models.py:311-314 | A row outside the constraint's condition (inactive, cancelled or completed) is always accepted by the exclusion constraint. |
| BookingModels.StatusChangeSaves | booking/models.py:257-278 | Re-saving a stored row with the same room and times never violates the constraint, provided it holds its slot only if it held it before. |
| BookingModels.ConfirmPendingSaves | booking/models.py:257-263 | Confirming a stored pending booking always passes the exclusion constraint. |
| BookingModels.ConfirmCancelledCanFail | booking/models.py:257-263 | `confirm` checks nothing itself. Confirming a cancelled booking whose slot another booking has since taken is refused by the database. |
| BookingModels.BookingTable.Save | booking/models.py:296-316 | A save succeeds exactly when the row passes the constraint, and then inserts or replaces that key. A refusal leaves the table unchanged and names the cause: a start after the end, or a clashing stored row. The no-overlap invariant is preserved. |
| BookingModels.Booking.AtMostOneStatus | booking/models.py:280-290 | At most one of `is_confirmed`, `is_pending` and `is_cancelled` holds. None holds exactly when the booking is completed. |
| BookingModels.Booking.Confirm | booking/models.py:257-263 | The instance becomes `ConfirmedRow` of its old row. The table then holds that row, or is unchanged if the constraint refuses it. |
| BookingModels.Booking.Cancel | booking/models.py:265-273 | The instance becomes `CancelledRow` of its old row. Its save always succeeds, because a cancelled row holds no slot. |
| BookingModels.Booking.Complete | booking/models.py:275-278 | The instance becomes `CompletedRow` of its old row. Its save always succeeds. |
| BookingModels.CleanedState | booking/models.py:74-87 | The cleaned state is the state upper-cased character by character, so it has the same length and no lower-case ASCII letter. An empty state stays empty. |
| BookingModels.CleanIdempotent | booking/models.py:74-87 | Cleaning the state twice is the same as cleaning it once. |
| BookingModels.Location.Clean | booking/models.py:74-87 | `clean()` changes `state` to its cleaned form and touches no other modelled field. |
| BookingSerializers.Conflicts | booking/serializers.py:79-90 | Reports exactly the stored rows of the same room that hold their slot, overlap the period and are not the instance being updated. |
| BookingSerializers.AdjacentNoConflict | booking/serializers.py:79-82 | A booking ending when the new one starts, or starting when it ends, is never a conflict. |
| BookingSerializers.ConflictOf | booking/serializers.py:92-111 | The error carries the conflicting row's id, start, end and manager username. |
| BookingSerializers.FirstInMetaOrder | booking/models.py:295 | `.first()` on a booking queryset: a row of the queryset that sorts no later, by date then start, than any other. |
| BookingSerializers.ValidateBooking | booking/serializers.py:67-111 | Returns `attrs` unchanged exactly when there is no conflict. Otherwise it fails with the conflict `.first()` picks: a genuine conflict, not the instance itself, and no other conflict comes before it by date and start, whatever order the rows are listed in. A payload without times fails in the ORM lookup. |
| BookingSerializers.CheckedRowSaves | booking/serializers.py:67-111 | A row that passed the application check, with a well-formed range, is accepted by the exclusion constraint. |
| BookingSerializers.RenderedTimeParses | booking/serializers.py:322-345 | Every `HH:MM` or `H:MM` rendering of a clock time matches the pattern and parses back to `h*60+m`. |
| BookingSerializers.ValidTimeIsRendered | booking/serializers.py:322-334 | Every value the pattern accepts is the rendering of an hour 0-23 and a minute 0-59. So the pattern accepts exactly those times. |
| BookingSerializers.TimeExamples | booking/serializers.py:322-334 | The pattern refuses "24:00", "12:60", "9:5" and "123:00". It accepts "9:05", "23:59" and "00:00", with their minute values. |
| BookingSerializers.FormatClock | booking/views.py:192-205 | `strftime('%H:%M')` of an instant is a valid five-character time naming that instant's minute of the day. |
| BookingSerializers.ParseDate | booking/serializers.py:313-320 | The captured fields are a month 1-12, a day 1-31 and a year up to 9999. |
| BookingSerializers.Ordinal | booking/views.py:102 | The day number of a date is at least its day of the month. |
| BookingSerializers.OrdinalExamples | booking/views.py:102 | Day numbers agree with `toordinal()` and run on across month and year ends, leap days included. |
| BookingSerializers.DaysInYear | booking/views.py:102 | A year holds 366 days when it is a leap year and 365 otherwise. |
| BookingSerializers.LeapCountStep | booking/views.py:102 | The days before year `y + 1` are those before `y` plus the length of year `y`. |
| BookingSerializers.YearEndOrdinal | booking/views.py:102 | New Year's Day has the number after the previous 31 December. |
| BookingSerializers.NextDayOrdinal | booking/views.py:102 | The day after any real date has the next day number, so `toordinal()` counts days. |
| BookingSerializers.DateExamples | booking/serializers.py:313-320 | `strptime` accepts "2024-02-29" and "2024-1-5". It refuses "2023-02-29", month 13, year 0 and a two-digit year. |
| BookingSerializers.CleanDate | booking/serializers.py:301-320 | A date is accepted exactly when the char-field rules pass and the stripped value names a real day, and then the stripped value is kept. A missing or blank value keeps its char-field error. A clean value that is not a date is refused as malformed. |
| BookingSerializers.CleanTime | booking/serializers.py:305-334 | A time is accepted exactly when the char-field rules pass and the stripped value matches the `HH:MM` pattern, and then the stripped value is kept. A missing or blank value keeps its char-field error. A clean value that does not match is refused as malformed. |
| BookingSerializers.FieldErrors | booking/serializers.py:296-334 | Each field that fails reports its own error under its own name, and only those fields. |
| BookingSerializers.ValidateAvailabilityInput | booking/serializers.py:336-353 | The query is accepted exactly when all three fields are clean and the end minute is after the start minute. Field errors are collected together. An end not after a valid start is reported under `end_time` alone. |
| BookingSerializers.EqualTimesRefused | booking/serializers.py:336-353 | With a clean date and a clean time, an end equal to the start is refused under `end_time` alone. |
| BookingSerializers.StrippedTimeAccepted | booking/serializers.py:305-334 | " 9:00 " is stripped and accepted as "9:00". |
| BookingSerializers.MissingAndBlankReported | booking/serializers.py:296-334 | A missing date and a blank end time are both reported, as required and blank. |
| BookingSerializers.DurationMinutes | booking/serializers.py:161-166 | The duration is the whole number of minutes of the span, truncated toward zero for a negative span too. |
| BookingSerializers.DurationTruncates | booking/serializers.py:161-166 | A negative 90-second span is -1 minute, not the floored -2. 3599 seconds is 59 minutes. |
| BookingSerializers.DisplayName | booking/serializers.py:140-159 | No user gives no name. A full name that is blank once stripped falls back to the username; any other gives that stripped full name, so a padded first or last name keeps its inner spaces. Any result other than the username is trimmed. |
| BookingSerializers.DisplayNameFull | booking/serializers.py:140-145 | With both names trimmed, the display name is "first last". |
| BookingSerializers.DisplayNameFirstOnly | booking/serializers.py:140-145 | With only a first name, it is that name, without the joining space. |
| BookingSerializers.DisplayNameLastOnly | booking/serializers.py:140-145 | With only a last name, it is that name, without the joining space. |
| BookingSerializers.DisplayNameFallback | booking/serializers.py:140-145 | With blank names, it is the username. |
| BookingValidators.FullMatchPositions | booking/validators.py:6-10 | An anchored pattern of single-character atoms matches exactly the strings of its length that match position by position. |
| BookingValidators.CepValidator | booking/validators.py:6-10 | A CEP is accepted exactly when it is five digits, a hyphen and three digits. A refusal carries code `invalid_cep` and its message. |
| BookingValidators.StatesShape | booking/validators.py:17-21 | The list holds 27 distinct two-letter upper-case codes. |
| BookingValidators.StateMessage | booking/validators.py:24-28 | The refusal message starts with the offending value. |
| BookingValidators.ValidateBrazilianState | booking/validators.py:13-28 | A value is accepted exactly when its upper-cased form is one of the 27 listed codes, so an accepted value has two non-space characters. A refusal carries code `invalid_state` and a message containing the value. |
| BookingValidators.StateCaseInsensitive | booking/validators.py:23 | A value, its upper-case and its lower-case forms are accepted alike. |
| BookingValidators.AcceptedCeps | booking/validators.py:6-10 | "12345-678" and "00000-000" are accepted. |
| BookingValidators.RefusedCeps | booking/validators.py:6-10 | "12345678", "1234-678", "12345 678", "12.345-678" and "" are refused. |
| BookingValidators.AcceptedStates | booking/validators.py:13-28 | "SP" and "sp" are accepted. |
| BookingValidators.RefusedStates | booking/validators.py:13-28 | "SP ", " SP", "ABC" and "" are refused. |
| BookingValidators.UnknownStateMessage | booking/validators.py:24-28 | "XX" is refused with `invalid_state` and a message naming it. |
| BookingPermissions.ManagerOrAdminCases | booking/permissions.py:10-17 | An anonymous request is always denied. A superuser or staff account is always allowed. Otherwise access is allowed exactly for the manager and admin roles, so a plain `user` is denied. |
| BookingPermissions.AdminUserIsManagerOrAdmin | booking/permissions.py:10-17 | Every request `IsAdminUser` allows, `IsManagerOrAdmin` allows too. Every request it allows is authenticated. |
| BookingPermissions.NewUserRefused | booking/permissions.py:17 | A freshly created account is refused. |
| BookingFilters.CharValue | booking/filters.py:25-30 | A text parameter is used exactly when it has a non-space character, and then stripped. |
| BookingFilters.ApplyFilters | booking/filters.py:9-93 | Keeps exactly the bookings every given parameter accepts, and no more bookings than it was given. |
| BookingFilters.NoParamsKeepsAll | booking/filters.py:9-93 | Without parameters nothing is filtered out. |
| BookingFilters.BlankTextIgnored | booking/filters.py:25-80 | A whitespace-only `status` is ignored whatever `search` holds, and a whitespace-only `search` is ignored whatever `status` holds. |
| BookingFilters.StatusFilterExact | booking/filters.py:25-30 | Filtering on a status code keeps exactly the bookings in that status. |
| BookingFilters.DateRangeInclusive | booking/filters.py:53-63 | `date_from` and `date_to` are inclusive bounds on `date_booking`. |
| BookingFilters.LocationThroughRoom | booking/filters.py:39-44 | `location` keeps exactly the bookings whose room is at that location. |
| BookingFilters.SearchIgnoresCase | booking/filters.py:78-93 | Searching for a value, its upper-case or its lower-case form finds the same bookings. |
| BookingFilters.SearchFindsRoomNamePart | booking/filters.py:78-93 | Any substring of the room name finds the booking. |
| BookingFilters.SearchHitIsOccurrence | booking/filters.py:78-93 | A search hit is an occurrence of the value, ignoring case, in one of the five names. |
| BookingFilters.FiltersChain | booking/filters.py:73-93 | The combined filter equals the other filters followed by the search filter, as chained querysets give. |
| BookingViews.CandidatesShape | booking/views.py:186-205 | The walk yields at most one slot per booking plus a trailing one. Each slot lasts the requested duration and starts at or after the cursor. |
| BookingViews.CandidatesOrdered | booking/views.py:186-205 | Slots come out in order, each ending by the start of the next. |
| BookingViews.CandidatesAvoidBookings | booking/views.py:179-205 | Over bookings sorted by start, no slot overlaps any booking. |
| BookingViews.CandidatesWithinDay | booking/views.py:200-205 | When every booking starts by 18:00, no slot ends after 18:00. |
| BookingViews.LateBookingLetsSlotPassDayEnd | booking/views.py:188-196 | In-loop slots are not checked against 18:00. A booking after hours lets a slot run to 18:30. |
| BookingViews.OneBookingExample | booking/views.py:164-207 | One booking 10:00-11:00 and a one-hour request give exactly 08:00-09:00 and 11:00-12:00. |
| BookingViews.DayBookings | booking/views.py:179-185 | The walk's input is exactly the room's rows of that day that hold their slot, sorted by start. |
| BookingViews.Walk | booking/views.py:186-205 | The loop computes the recursive candidate list. |
| BookingViews.AlternativeTimes | booking/views.py:164-207 | The suggestions are the first three slots of the walk from 08:00 over the room's bookings of that day, in start order. |
| BookingViews.FirstThreeCandidates | booking/views.py:179-207 | Over bookings sorted by start, the first three slots number at most three. Each has the requested length, starts at or after the cursor and overlaps none of the bookings. |
| BookingViews.ConflictItems | booking/views.py:123-130 | One entry per conflict, with its id, times, manager username and status code. |
| BookingViews.Render | booking/views.py:192-205 | Each suggestion is a pair of valid `HH:MM` strings naming the slot's times of day. |
| BookingViews.FindRoom | booking/views.py:92 | Finds an active room with that key, or reports that none exists. |
| BookingViews.AvailabilityReportMeaning | booking/views.py:114-162 | The room is "available" exactly when no stored booking conflicts, and then the message is present. Otherwise every conflict is listed, with at most three suggestions. |
| BookingViews.CheckAvailability | booking/views.py:54-162 | Non-staff requests are refused. Then a missing room gives 404, then an invalid query gives its field errors. Otherwise the result is the availability report. |
| BookingViews.BuildReport | booking/views.py:114-162 | The report built with the loop-based suggester equals the report's definition. |
| BookingViews.AvailabilityAgreesWithValidate | booking/views.py:114-121 | A period is reported free exactly when a new booking of it passes `BookingSerializer.validate`. |
| BookingViews.VisibleBookings | booking/views.py:294-314 | Staff and superusers see every active booking. Anyone else sees only the active bookings they manage. |
| BookingViews.ListBookings | booking/views.py:301-303 | Anonymous requests get 401. Otherwise the filter set runs over the visible bookings. |
| BookingViews.ListShowsOnlyOwn | booking/views.py:307-314 | Whatever the parameters, an ordinary user lists only their own active bookings. |
| BookingViews.StaffListAll | booking/views.py:307-314 | Staff with no parameters list exactly the active bookings. |
| BookingViews.PendingBookings | booking/views.py:384-389 | `pending` returns exactly the visible bookings that are pending. |
| BookingViews.PendingOfOwnScope | booking/views.py:384-389 | For an ordinary user, `pending` holds exactly their active pending bookings. |
| BookingViews.ConfirmAction | booking/views.py:337-354 | Non-staff requests are refused. A missing booking gives 404 and a non-pending one gives 400, each leaving the table unchanged. A pending booking is confirmed by the actor at now. |
| BookingViews.CleanReason | booking/serializers.py:292-293 | An absent reason is none. A null or blank reason is refused. Any other reason is kept stripped, and is truthy. |
| BookingViews.CancelAction | booking/views.py:356-378 | Non-staff requests are refused. A missing booking gives 404 and a cancelled one gives 400. A bad reason is refused. Otherwise the booking is cancelled, completed ones included, with the cleaned reason. |
| BookingViews.CountRooms | booking/views.py:227-240 | The total counts the active rooms. The occupied count lies between 0 and the total, and available is the difference. |
| BookingViews.AvailableAreUnoccupied | booking/views.py:228-240 | `available_rooms` is exactly the number of active rooms no confirmed booking occupies now. |
| BookingViews.OccupancyCases | booking/views.py:231-236 | Occupancy is a closed interval: a booking occupies its room at its end instant. Inactive confirmed bookings count. Unconfirmed ones never do. |
| BookingViews.RoomsAt | booking/views.py:247 | The rooms of a location are exactly those whose location it is. |
| BookingViews.LocationStatsOf | booking/views.py:246-266 | A location's entry names it and counts its rooms. |
| BookingViews.ByLocation | booking/views.py:244-266 | The `by_location` loop yields one entry per active location, in order. |
| BookingViews.RoomStats | booking/views.py:209-271 | Only `IsManagerOrAdmin` passes. The global counts and the per-location entries are returned. |
| BookingViews.LocationRoomStats | booking/views.py:432-479 | Only staff pass. An unknown or inactive location gives 404. Otherwise the location's counts add up. |
| BookingViews.ManagerStatsAccess | booking/views.py:432-440 | A manager without staff rights may read the global statistics but gets 403 for a location's. |
| BookingViews.LocationStatsAgree | booking/views.py:442-479 | `rooms_stats` reports the same numbers as the location's entry of `stats`. |
| BookingAdmin.ConfirmAllMeaning | booking/admin.py:108-117 | Only selected pending rows change, and they become confirmed by the actor at now, keeping room, manager and times. A second run changes nothing. |
| BookingAdmin.CancelAllMeaning | booking/admin.py:119-128 | Only selected rows not yet cancelled change, completed ones included. The cancellation reason is never touched. A second run changes nothing. |
| BookingAdmin.ConfirmStep | booking/admin.py:108-117 | Adding one id to the processed selection changes at most that row, and adds it to the count exactly when it is eligible. |
| BookingAdmin.CancelStep | booking/admin.py:119-128 | The same for the cancel action. |
| BookingAdmin.ConfirmOne | booking/admin.py:110-114 | The update of one row: it changes exactly when the row is active and pending, and the constraint never refuses it. |
| BookingAdmin.CancelOne | booking/admin.py:121-125 | The update of one row: it changes exactly when the row is active and not cancelled, and the constraint never refuses it. |
| BookingAdmin.ConfirmBookings | booking/admin.py:108-117 | The table becomes the confirm-all of the selection. The count is the number of selected active pending rows. The invariant is kept. |
| BookingAdmin.CancelBookings | booking/admin.py:119-128 | The table becomes the cancel-all of the selection. The count is the number of selected active rows not yet cancelled. The invariant is kept. |
| CoreModels.NewUser | core/models.py:54-101 | A new user is active, with role `user`, no staff or superuser rights and empty names and phone. |
| CoreModels.NewSession | core/models.py:112-177 | A new session is neither current nor revoked. It is active at creation exactly when it expires later. |
| CoreModels.Revoked | core/models.py:188-191 | A revoked session is never active again, and otherwise stays the same session. |
| CoreModels.RevokeIdempotent | core/models.py:188-191 | Revoking twice is revoking once. Revoking a revoked session changes nothing. |
| CoreModels.UserSession.Revoke | core/models.py:188-191 | The instance becomes its revoked row, and `is_active` is false at every time. |
| CoreManagers.ActiveOnly | core/managers.py:14-15 | Keeps exactly the records whose `is_active` is set, in order. |
| CoreManagers.ActiveOnlyIdempotent | core/managers.py:14-15 | Filtering on `is_active` again changes nothing. |
| CoreManagers.SetDefault | core/managers.py:34-36 | A value the caller gave is kept; otherwise the default is used. |
| CoreManagers.CreateUserCore | core/managers.py:20-31 | Refuses exactly a missing or empty email (`ValueError`). With an email, a missing username breaks NOT NULL, and a normalised email or username already stored breaks the unique indexes (core/models.py:55-63). Otherwise it succeeds: the user has the normalised email, the username, the hashed password and the given flags over the model defaults. |
| CoreManagers.CreateUser | core/managers.py:33-37 | `create_user` is `_create_user` with role `user` and both flags off unless given. |
| CoreManagers.CreateUserDefaults | core/managers.py:33-37 | With an email and a username not yet stored, and without extras, the result is an ordinary active user. Caller-supplied values win. |
| CoreManagers.CreateSuperuser | core/managers.py:39-48 | A role outside the choices is refused, and so is `is_superuser` other than true. A created account is a superuser with an allowed role, staff and active unless told otherwise. |
| CoreManagers.SuperuserDefaults | core/managers.py:39-48 | With an email and a username not yet stored, and without extras, the result is an active staff superuser with role `admin`. |
| CoreManagers.SuperuserCheckOrder | core/managers.py:39-48 | The role check comes before the email check. |
| CoreManagers.SuperuserWithoutStaff | core/managers.py:39-48 | `is_staff=False` is not checked, so such a superuser can be created. |
| Fields.CleanChar | core/serializers.py:41-53 | A required `CharField` refuses missing, null and blank values, and values too short once stripped. What it accepts is the stripped value. |
| Fields.CleanOptionalChar | core/serializers.py:55-67 | An optional model text field keeps its default when absent, refuses null and strips a given value. |
| Fields.CleanIgnoresPadding | core/serializers.py:41-53 | A value and its stripped form are cleaned alike. |
| Fields.CleanCharField | booking/serializers.py:300-311 | A required query-string field: absent is refused, blank is refused, and the accepted value is stripped and non-empty. |
| CoreSerializers.CleanEmailAsWritten | core/serializers.py:69-75 | The email as written: refused exactly when an identical email is stored, and accepted values are lower-cased. |
| CoreSerializers.EmailCaseSlipsThrough | core/serializers.py:69-75 | An email not stored as typed, but stored once lower-cased, passes. The value handed on is that stored email (see Findings). |
| CoreSerializers.EmailCaseExample | core/serializers.py:69-75 | "Ana@x.com" meets those conditions while "ana@x.com" is stored. |
| CoreSerializers.CleanEmail | core/serializers.py:69-75 | The corrected email check: refused exactly when the email is stored up to case. Accepted values are lower-cased. |
| CoreSerializers.CleanEmailNeverTaken | core/serializers.py:69-75 | What the corrected check accepts differs from every stored email. |
| CoreSerializers.EmailCorrectionRefinesAsWritten | core/serializers.py:69-75 | The correction only refuses more, and exactly the emails that match a stored one up to case. |
| CoreSerializers.CleanUsername | core/serializers.py:77-83 | A username is accepted exactly when it is clean and no stored user has it. |
| CoreSerializers.RegistrationErrors | core/serializers.py:38-91 | Each failing registration field reports its own error under its own name, and only those fields. |
| CoreSerializers.ValidateFields | core/serializers.py:38-91 | Given the email field's outcome, registration is valid exactly when every field is clean and the passwords agree. A mismatch is reported under `password_confirm` alone. `ValidateRegistration` feeds it `validate_email` as written; `ValidateRegistrationCorrected` feeds it the corrected check. |
| CoreSerializers.CreateRegistered | core/serializers.py:93-107 | The created user has role `user`, no staff or superuser rights, is active, and has the given data and the hashed password. |
| CoreSerializers.SaveRegistration | core/serializers.py:93-107 | `save()` after `is_valid()`: invalid data gives the field errors (400). Valid data whose email is already stored, exactly as it is, breaks the unique index on `email` (a 500). Otherwise the created account is `CreateRegistered` of the data, and no stored user has its email. `Register` is this after `ValidateRegistration`, as `register` does it (core/views.py:121-138). |
| CoreSerializers.RegisterMeaning | core/serializers.py:38-107 | A registered account is an ordinary active user. The email as typed (stripped) is not stored, and the lower-cased email the account gets is not stored either; the username is unused. Its password has at least 8 characters and equals its confirmation. |
| CoreSerializers.RegisterCaseVariantFails | core/serializers.py:69-107 | An email not stored as typed, but stored once lower-cased, with otherwise valid data: `register` as written fails on the unique index, while the corrected check refuses it as a field error. |
| CoreSerializers.RegisterCorrectedNeverFails | core/serializers.py:69-107 | With the corrected email check, registration never reaches the unique-index failure. |
| CoreSerializers.ShortPasswordRefused | core/serializers.py:41-47 | A password under 8 characters is refused under `password`, with a 400 and no account. |
| CoreSerializers.MismatchUnderConfirm | core/serializers.py:85-91 | Differing clean passwords are refused under `password_confirm` alone. |
| CoreSerializers.CleanOldPassword | core/serializers.py:156-178 | The old password is accepted exactly when it is clean and `check_password` accepts it. Otherwise it is incorrect or unclean. |
| CoreSerializers.ValidatePasswordChange | core/serializers.py:153-186 | Valid exactly when the old password is right, the new one has at least 8 characters and the confirmation matches. A mismatch is reported under `new_password_confirm`. |
| CoreSerializers.ChangePassword | core/serializers.py:188-193 | A valid change stores the hash of the new password. |
| CoreSerializers.ChangePasswordMeaning | core/serializers.py:153-193 | A successful change needs the right old password and a confirmed new one of at least 8 characters. Among the modelled columns it changes only the hash. A wrong old password is reported. |
| CoreSerializers.Written | core/serializers.py:110-150 | A column takes the given value only when the serializer accepts that field. |
| CoreSerializers.UserSerializerKeepsRole | core/serializers.py:110-138 | `UserSerializer` writes only email, username, names and phone. It never changes role, flags or password. |
| CoreSerializers.UpdateProfile | core/serializers.py:141-150 | A profile update is refused exactly when a profile field is null, and then only those fields are reported. |
| CoreSerializers.ProfileUpdateOnlyNames | core/serializers.py:141-150 | A profile update changes at most first name, last name and phone, each to the stripped given value. A name or phone the payload does not give keeps its value. |
| CoreUtils.ClientIp | core/utils.py:8-19 | With a non-empty `X-Forwarded-For`, the IP is its first comma-free field, stripped. Otherwise it is `REMOTE_ADDR`. |
| CoreUtils.ClientIpFirstHop | core/utils.py:8-19 | A header whose first hop is a non-blank, comma-free, space-free address yields exactly that address. This holds whatever follows the first comma and whatever `REMOTE_ADDR` is. A lone hop is taken as it is. |
| CoreUtils.DeviceType | core/utils.py:48-57 | The device type is the first of mobile, tablet and PC that holds, else "Unknown". |
| CoreUtils.DeviceNameShape | core/utils.py:59-62 | The name starts with "browser no os", plus " (Mobile)" or " (Tablet)" for those devices only. |
| CoreUtils.ParseUserAgent | core/utils.py:22-71 | The summary passes browser and OS through, with the computed type and name. |
| CoreUtils.GetDeviceInfo | core/utils.py:74-98 | The client IP, the raw user agent (empty when absent) and the parser's summary of that same string. |
| CoreUtils.LocationFromIp | core/utils.py:101-133 | "Local" exactly for a missing, empty or loopback address; "Unknown" otherwise. |
| CoreUtils.BlankFirstHopIsLocal | core/utils.py:14-19 | A blank first proxy hop yields an empty address, which counts as local. |
| CoreViews.NextSessionId | core/views.py:54-63 | The new session key exceeds every stored key. |
| CoreViews.StoredIp | core/views.py:54-63 | The address column gets NULL for a missing or empty address, and the address itself otherwise. |
| CoreViews.BlankFirstHopStoredAsNull | core/views.py:43-63 | A forwarded-for header starting with a comma stores no address. |
| CoreViews.LoginSession | core/views.py:43-63 | The new session is current and not revoked, with the request's device details, the stored form of its address and the location of the address as read. |
| CoreViews.NotCurrentExcept | core/views.py:66 | Only `is_current` changes, and only on the user's sessions with another token. |
| CoreViews.LoginLeavesOneCurrent | core/views.py:54-66 | After a login the new session is the user's only current one. Other users' sessions are untouched, and keys and tokens stay unique. |
| CoreViews.RecordLogin | core/views.py:54-66 | A session is saved exactly when its token is new and the `inet` column accepts its address (NULL, or text that parses as an address). Otherwise nothing changes. When saved, the table becomes the new row appended, with other sessions uncurrented, and stays valid. |
| CoreViews.ListUsers | core/views.py:110-118 | Anonymous requests get 401. Staff and superusers list everyone but themselves, and others list only themselves. |
| CoreViews.OwnSessions | core/views.py:237-247 | Exactly the user's sessions, newest first. |
| CoreViews.ActiveSessions | core/views.py:282-293 | Exactly the user's sessions that are not revoked and not expired at now. |
| CoreViews.FindNewest | core/views.py:298 | `.first()` over sessions listed newest first returns the newest one the filter accepts. |
| CoreViews.CurrentSession | core/views.py:295-304 | An own session marked current, at least as new as every other own current session; none exactly when no own session is current. |
| CoreViews.CurrentAction | core/views.py:295-307 | 401 without credentials, 404 without a current session, else that session. |
| CoreViews.CurrentAfterLogin | core/views.py:54-66 | Right after a login, `current` returns the new session. |
| CoreViews.OwnSessionIndex | core/views.py:252 | Finds the user's own session with that key, or reports that none exists. |
| CoreViews.RevokeAction | core/views.py:249-280 | 401 without credentials, 404 for another user's or an unknown session, 400 if it is already revoked. Otherwise exactly that session is revoked. |
| CoreViews.RevokedLeavesActive | core/views.py:282-293 | After a revoke, that session leaves `active` and every other active session stays. |
| CoreViews.Logout | core/views.py:196-221 | 401 without credentials. A missing, null or empty token gives 400. A 205 only follows a successful blacklist call. |
| CoreAdmin.RevokeAllMeaning | core/admin.py:85-95 | Every selected session ends revoked and the others are unchanged. Among the modelled columns only `is_revoked` changes, and a second run changes nothing. |
| CoreAdmin.TargetCount | core/admin.py:87-90 | Counts the selected sessions not yet revoked: it is zero exactly when the action leaves every row as it was, and at most the number of sessions. |
| CoreAdmin.NoTargetsNoChange | core/admin.py:85-90 | The action changes nothing exactly when no selected session is still unrevoked. |
| CoreAdmin.AdminSessionsReadOnly | core/admin.py:75-81 | No account may add or edit a session in the admin. |
| CoreAdmin.RevokeSessions | core/admin.py:85-95 | The table becomes the revoke-all of the selection. The count is the number of selected sessions not revoked before. The table stays valid. |

## Left out

- JWT issuing, refreshing and blacklisting, and the token claims of
  `CustomTokenObtainPairSerializer`. A login arrives with its token id and
  expiry, and the blacklist call of `LogoutView` is a function parameter.
- The blacklisting inside `revoke` (its failures are swallowed) and
  `LogoutAllView`. Both are calls into the JWT library.
- Password hashing, `check_password`, `normalize_email`, the `EmailField`
  syntax check and `user_agents.parse` are function parameters, or their
  answers are inputs.
- Login notification email, the `clean_expired_tokens` command, and the
  `availability` action, which returns a queryset instead of a response.
- Time zones, microseconds and ISO rendering. Times are integer seconds in
  one zone.
- Ordering and pagination options of the list views, except the
  `-created_at` order of sessions and the `.first()` of
  `BookingSerializers.ValidateBooking`. Swagger, URLs and admin display
  configuration are also left out.
- BookingViews.ConflictItems: the conflict list of the availability check
  keeps the order the rows are given in. The queryset returns it in
  `Booking.Meta.ordering` (date, start, then the room's primary key, as
  `Room` declares no ordering of its own), so the model fixes the list's
  contents, not its order.
- BookingViews.ByLocation: the per-location statistics follow the order of
  the locations given. The source lists them by `name` under the
  database's collation, which the model does not represent.
- A filter parameter that fails to parse (a non-numeric `room`, say) is
  refused by the filter form before any filter runs. The model takes the
  parameters already parsed.
- Text case mapping is ASCII only: `upper`, `lower` and the `icontains`
  search ignore non-ASCII letters. Digits are ASCII `0`-`9`: the CEP
  validator's `\d` and `strptime`'s date fields also accept other Unicode
  decimal digits, which the model refuses. Whitespace (`Text.IsSpace`)
  is Python's full `str.isspace()` set, not only ASCII.
- Python's regex `$`, which also matches before a trailing newline, is
  modelled as end of string.
- `max_length` validators on model columns, and DRF's
  non-string-to-string coercion of JSON numbers.
- Fields.CleanChar: a field reports one error code. DRF can list several
  messages for one field.
- The view wrappers `register`, `me` and `change_password` are modelled
  through the serializers they call. `ChangePassword` and `UpdateProfile`
  work on the `User` value rather than on an instance in place.
- BookingAdmin.ConfirmBookings: the single `UPDATE ... WHERE` is modelled
  as one constraint-checked save per selected row, in an unspecified
  order. The same goes for BookingAdmin.CancelBookings and for the
  `update(is_current=False)` of a login.
- The concurrency guarantee of the exclusion constraint. Only the
  invariant it keeps over the stored rows is modelled.
- CoreViews.RecordLogin: a duplicate token id, or an address the `inet`
  column cannot parse, makes the database raise (an HTTP 500 after the
  tokens were issued). The model reports that nothing was saved. Whether
  text parses as an address is the parameter `isIp`. Django's storing of
  IPv6 addresses in canonical form is not modelled. Session keys are chosen
  by `NextSessionId` rather than by a database sequence.
- The automatic timestamps `BaseModel.updated_at` (`auto_now`) and
  `UserSession.last_activity` (`auto_now`) are not columns of the model.
  Every `save()` sets them to the current time: `confirm`, `cancel`,
  `complete`, `UserSession.revoke` and the saves of the booking table.
  Queryset `update()` calls leave them alone: the admin bulk actions and
the `is_current` update of a login. Where a row of the Model table says no other
  column changes, it means no other modelled column.
- The `device_type` of `UserSessionSerializer` and the read-only session
  list and detail endpoints beyond `get_queryset`, `active` and `current`.
- `get_duration_minutes` divides with floating point. The model's exact
  truncation differs only for spans beyond float precision.
- A booking's `start_datetime` and `end_datetime` are non-null columns, so
  the `None` branch of `get_duration_minutes` is not modelled.

Behaviour of the code worth knowing, each fact stated by a member:

- `cancel` refuses only bookings that are already cancelled, so a
  completed booking can be cancelled, and the admin action cancels
  completed ones too (`BookingViews.CancelAction`,
  `BookingAdmin.CancelAllMeaning`).
- The model method `confirm` checks nothing; only the `confirm` view
  refuses a booking that is not pending (`BookingModels.ConfirmCancelledCanFail`,
  `BookingViews.ConfirmAction`).
- One booking 10:00-11:00 and a one-hour request yield exactly two
  suggestions, 08:00 and 11:00 (`BookingViews.OneBookingExample`).
- Slots found inside the walk are not checked against 18:00, so a
  suggestion can run past the end of the day
  (`BookingViews.LateBookingLetsSlotPassDayEnd`).
- `check_availability` and `rooms_stats` declare `IsAuthenticated` and
  `IsManagerOrAdmin` in their decorators. Their view sets'
  `get_permissions` return `IsAdminUser` for them, so staff rights are
  required.
- Room occupancy in `stats` does not look at the booking's `is_active`.

## Findings

| source | as written | input that shows it | evidently intended | confidence | as-written member | corrected member |
|---|---|---|---|---|---|---|
| core/serializers.py:69-75 | `validate_email` looks up the email exactly as typed, then returns it lower-cased | "ana@x.com" is stored and "Ana@x.com" registers: the check passes, and the insert of "ana@x.com" breaks the unique constraint, a server error instead of a 400 | refuse an email that a stored one matches up to case, so the lower-cased value is always free | high (not executed) | CoreSerializers.RegisterCaseVariantFails | CoreSerializers.RegisterCorrectedNeverFails |

=== FILE: booking_admin.dfy ===
/** booking/admin.py: the bulk actions of `BookingAdmin`. The admin lists
    the active bookings; an action updates the selected ones that pass its
    status test, in one `UPDATE`, and reports how many it changed. Each
    updated row is still checked by the exclusion constraint, so the update
    is modelled as one constraint-checked save per row; none of them can be
    refused. */
module BookingAdmin {
  import opened Results
  import opened CoreModels
  import opened BookingModels

  /** `queryset.filter(status='pending')` over the selection. */
  predicate ConfirmEligible(b: BookingRow, selected: set<Id>)
  {
    b.id in selected && b.isActive && b.status == Pending
  }

  /** `queryset.exclude(status='cancelled')` over the selection. */
  predicate CancelEligible(b: BookingRow, selected: set<Id>)
  {
    b.id in selected && b.isActive && b.status != Cancelled
  }

  function ConfirmTargets(rows: map<Id, BookingRow>, selected: set<Id>): set<Id>
  {
    set id | id in selected && id in rows && ConfirmEligible(rows[id], selected)
  }

  function CancelTargets(rows: map<Id, BookingRow>, selected: set<Id>): set<Id>
  {
    set id | id in selected && id in rows && CancelEligible(rows[id], selected)
  }

  /** The rows after `confirm_bookings`: the selected active pending rows
      confirmed by `actor` at `now`, all others as they were. */
  function ConfirmAll(rows: map<Id, BookingRow>, selected: set<Id>, actor: User, now: int): map<Id, BookingRow>
  {
    map id | id in rows :: if ConfirmEligible(rows[id], selected) then ConfirmedRow(rows[id], actor, now) else rows[id]
  }

  /** The rows after `cancel_bookings`: the selected active rows not yet
      cancelled, cancelled by `actor` at `now` with no new reason, all others
      as they were. */
  function CancelAll(rows: map<Id, BookingRow>, selected: set<Id>, actor: User, now: int): map<Id, BookingRow>
  {
    map id | id in rows :: if CancelEligible(rows[id], selected) then CancelledRow(rows[id], actor, now, None) else rows[id]
  }

  /** What `confirm_bookings` changes: only selected rows, only pending ones,
      and those get status, actor and time and keep room, manager and
      times; run again, it changes nothing. */
  lemma ConfirmAllMeaning(rows: map<Id, BookingRow>, selected: set<Id>, actor: User, now: int)
    requires KeysMatch(rows)
    ensures var after := ConfirmAll(rows, selected, actor, now);
            && after.Keys == rows.Keys
            && (forall id :: id in rows && (id !in selected || rows[id].status != Pending) ==> after[id] == rows[id])
            && (forall id :: id in rows && after[id] != rows[id] ==>
                  id in selected && rows[id].status == Pending && after[id].status == Confirmed
                  && after[id].confirmedBy == Some(actor) && after[id].confirmedAt == Some(now) && SameSlot(rows[id], after[id]))
            && ConfirmTargets(after, selected) == {}
            && ConfirmAll(after, selected, actor, now) == after
  {
    var after := ConfirmAll(rows, selected, actor, now);
    assert forall id :: id in after ==> !ConfirmEligible(after[id], selected);
  }

  /** What `cancel_bookings` changes: only selected rows not yet cancelled,
      completed ones included; the reason is kept; run again, it changes
      nothing. */
  lemma CancelAllMeaning(rows: map<Id, BookingRow>, selected: set<Id>, actor: User, now: int)
    requires KeysMatch(rows)
    ensures var after := CancelAll(rows, selected, actor, now);
            && after.Keys == rows.Keys
            && (forall id :: id in rows ==> after[id].cancellationReason == rows[id].cancellationReason)
            && (forall id :: id in rows && (id !in selected || rows[id].status == Cancelled) ==> after[id] == rows[id])
            && (forall id :: id in rows && id in selected && rows[id].isActive && rows[id].status == Completed ==>
                  after[id].status == Cancelled && after[id].cancelledBy == Some(actor))
            && CancelTargets(after, selected) == {}
            && CancelAll(after, selected, actor, now) == after
  {
    var after := CancelAll(rows, selected, actor, now);
    assert forall id :: id in after ==> !CancelEligible(after[id], selected);
  }

  /** Before any id is processed, nothing is changed and nothing counted. */
  lemma ConfirmNothing(rows: map<Id, BookingRow>, actor: User, now: int)
    ensures ConfirmAll(rows, {}, actor, now) == rows && ConfirmTargets(rows, {}) == {}
  {
  }

  lemma CancelNothing(rows: map<Id, BookingRow>, actor: User, now: int)
    ensures CancelAll(rows, {}, actor, now) == rows && CancelTargets(rows, {}) == {}
  {
  }

  /** Adding one id to the processed selection changes at most that row and
      adds it to the targets exactly when it is one. */
  lemma {:induction false} ConfirmStep(rows: map<Id, BookingRow>, done: set<Id>, id: Id, actor: User, now: int)
    requires KeysMatch(rows) && id !in done
    ensures var hit := id in rows && rows[id].isActive && rows[id].status == Pending;
            && (id in rows ==> ConfirmAll(rows, done, actor, now)[id] == rows[id])
            && ConfirmAll(rows, done + {id}, actor, now)
               == (if hit then ConfirmAll(rows, done, actor, now)[id := ConfirmedRow(rows[id], actor, now)]
                   else ConfirmAll(rows, done, actor, now))
            && ConfirmTargets(rows, done + {id}) == ConfirmTargets(rows, done) + (if hit then {id} else {})
            && id !in ConfirmTargets(rows, done)
  {
  }

  lemma {:induction false} CancelStep(rows: map<Id, BookingRow>, done: set<Id>, id: Id, actor: User, now: int)
    requires KeysMatch(rows) && id !in done
    ensures var hit := id in rows && rows[id].isActive && rows[id].status != Cancelled;
            && (id in rows ==> CancelAll(rows, done, actor, now)[id] == rows[id])
            && CancelAll(rows, done + {id}, actor, now)
               == (if hit then CancelAll(rows, done, actor, now)[id := CancelledRow(rows[id], actor, now, None)]
                   else CancelAll(rows, done, actor, now))
            && CancelTargets(rows, done + {id}) == CancelTargets(rows, done) + (if hit then {id} else {})
            && id !in CancelTargets(rows, done)
  {
  }

  /** Updating row `id` of the rows processed so far gives the rows with
      `id` processed too, and counts it exactly when it is a target. */
  lemma ConfirmAdvance(rows: map<Id, BookingRow>, done: set<Id>, id: Id, actor: User, now: int,
                       before: map<Id, BookingRow>, after: map<Id, BookingRow>, changed: bool)
    requires KeysMatch(rows) && id !in done
    requires before == ConfirmAll(rows, done, actor, now)
    requires changed <==> id in before && before[id].isActive && before[id].status == Pending
    requires after == if changed then before[id := ConfirmedRow(before[id], actor, now)] else before
    ensures after == ConfirmAll(rows, done + {id}, actor, now)
    ensures |ConfirmTargets(rows, done + {id})| == |ConfirmTargets(rows, done)| + (if changed then 1 else 0)
  {
    ConfirmStep(rows, done, id, actor, now);
  }

  /** The update of one row by `confirm_bookings`. */
  method ConfirmOne(t: BookingTable, id: Id, actor: User, now: int) returns (changed: bool)
    requires t.Valid()
    modifies t`rows
    ensures t.Valid()
    ensures changed <==> id in old(t.rows) && old(t.rows)[id].isActive && old(t.rows)[id].status == Pending
    ensures t.rows == if changed then old(t.rows)[id := ConfirmedRow(old(t.rows)[id], actor, now)] else old(t.rows)
  {
    changed := id in t.rows && t.rows[id].isActive && t.rows[id].status == Pending;
    if changed {
      ConfirmPendingSaves(t.rows, t.rows[id], actor, now);
      var res := t.Save(ConfirmedRow(t.rows[id], actor, now));
    }
  }

  /** Updating row `id` of the rows processed so far gives the rows with
      `id` processed too, and counts it exactly when it is a target. */
  lemma CancelAdvance(rows: map<Id, BookingRow>, done: set<Id>, id: Id, actor: User, now: int,
                       before: map<Id, BookingRow>, after: map<Id, BookingRow>, changed: bool)
    requires KeysMatch(rows) && id !in done
    requires before == CancelAll(rows, done, actor, now)
    requires changed <==> id in before && before[id].isActive && before[id].status != Cancelled
    requires after == if changed then before[id := CancelledRow(before[id], actor, now, None)] else before
    ensures after == CancelAll(rows, done + {id}, actor, now)
    ensures |CancelTargets(rows, done + {id})| == |CancelTargets(rows, done)| + (if changed then 1 else 0)
  {
    CancelStep(rows, done, id, actor, now);
  }

  /** The update of one row by `cancel_bookings`. */
  method CancelOne(t: BookingTable, id: Id, actor: User, now: int) returns (changed: bool)
    requires t.Valid()
    modifies t`rows
    ensures t.Valid()
    ensures changed <==> id in old(t.rows) && old(t.rows)[id].isActive && old(t.rows)[id].status != Cancelled
    ensures t.rows == if changed then old(t.rows)[id := CancelledRow(old(t.rows)[id], actor, now, None)] else old(t.rows)
  {
    changed := id in t.rows && t.rows[id].isActive && t.rows[id].status != Cancelled;
    if changed {
      ReleasedRowAlwaysSaves(t.rows, CancelledRow(t.rows[id], actor, now, None));
      var res := t.Save(CancelledRow(t.rows[id], actor, now, None));
    }
  }

  /** `confirm_bookings`: the table becomes `ConfirmAll` of the selection,
      and the count is the number of rows it changed. */
  method ConfirmBookings(t: BookingTable, selected: set<Id>, actor: User, now: int) returns (updated: nat)
    requires t.Valid()
    modifies t`rows
    ensures t.Valid()
    ensures t.rows == ConfirmAll(old(t.rows), selected, actor, now)
    ensures updated == |ConfirmTargets(old(t.rows), selected)|
  {
    ghost var rows0 := t.rows;
    var remaining := selected;
    ghost var done: set<Id> := {};
    ConfirmNothing(rows0, actor, now);
    updated := 0;
    while remaining != {}
      invariant t.Valid() && KeysMatch(rows0)
      invariant remaining <= selected && done == selected - remaining
      invariant t.rows == ConfirmAll(rows0, done, actor, now)
      invariant updated == |ConfirmTargets(rows0, done)|
      decreases remaining
    {
      var id :| id in remaining;
      ghost var before := t.rows;
      var changed := ConfirmOne(t, id, actor, now);
      ConfirmAdvance(rows0, done, id, actor, now, before, t.rows, changed);
      if changed {
        updated := updated + 1;
      }
      remaining := remaining - {id};
      done := done + {id};
    }
    assert done == selected;
  }

  /** `cancel_bookings`: the table becomes `CancelAll` of the selection, and
      the count is the number of rows it changed. */
  method CancelBookings(t: BookingTable, selected: set<Id>, actor: User, now: int) returns (updated: nat)
    requires t.Valid()
    modifies t`rows
    ensures t.Valid()
    ensures t.rows == CancelAll(old(t.rows), selected, actor, now)
    ensures updated == |CancelTargets(old(t.rows), selected)|
  {
    ghost var rows0 := t.rows;
    var remaining := selected;
    ghost var done: set<Id> := {};
    CancelNothing(rows0, actor, now);
    updated := 0;
    while remaining != {}
      invariant t.Valid() && KeysMatch(rows0)
      invariant remaining <= selected && done == selected - remaining
      invariant t.rows == CancelAll(rows0, done, actor, now)
      invariant updated == |CancelTargets(rows0, done)|
      decreases remaining
    {
      var id :| id in remaining;
      ghost var before := t.rows;
      var changed := CancelOne(t, id, actor, now);
      CancelAdvance(rows0, done, id, actor, now, before, t.rows, changed);
      if changed {
        updated := updated + 1;
      }
      remaining := remaining - {id};
      done := done + {id};
    }
    assert done == selected;
  }
}

=== FILE: booking_filters.dfy ===
/** booking/filters.py: `BookingFilterSet`. Every query parameter given
    narrows the bookings; `search` is a disjunction of case-insensitive
    substring tests over the room, location and manager names. Numbers and
    dates arrive already parsed (a malformed one is refused before any
    filter runs); text parameters are stripped, and one left empty is
    ignored, as the form fields behind `CharFilter` do. */
module BookingFilters {
  import opened Results
  import opened Lists
  import opened Text
  import opened BookingModels

  datatype FilterParams = FilterParams(
    status: Option<string>,
    room: Option<int>,
    location: Option<int>,
    dateBooking: Option<int>,
    dateFrom: Option<int>,
    dateTo: Option<int>,
    manager: Option<int>,
    search: Option<string>)

  const NoParams := FilterParams(None, None, None, None, None, None, None, None)

  /** A `CharFilter` value once cleaned: stripped, and absent when nothing
      but whitespace was given. */
  function CharValue(v: Option<string>): (r: Option<string>)
    ensures r.Some? <==> v.Some? && exists k :: 0 <= k < |v.value| && !IsSpace(v.value[k])
    ensures r.Some? ==> r.value == Strip(v.value) && Trimmed(r.value)
  {
    if v.Some? && Strip(v.value) != [] then Some(Strip(v.value)) else None
  }

  /** A `NumberFilter`/`DateFilter` with `lookup_expr='exact'`. */
  predicate Exact(v: Option<int>, x: int)
  {
    v.Some? ==> x == v.value
  }

  /** `filter_search`: the value occurs, ignoring case, in the room name, the
      location name, or the manager's username, first name or last name. */
  predicate SearchMatches(b: BookingRow, value: string)
  {
    IContains(b.room.name, value) || IContains(b.room.location.name, value)
    || IContains(b.manager.username, value) || IContains(b.manager.firstName, value)
    || IContains(b.manager.lastName, value)
  }

  /** The conjunction of every filter whose parameter was given. */
  predicate Accepts(p: FilterParams, b: BookingRow)
  {
    (CharValue(p.status).Some? ==> StatusCode(b.status) == CharValue(p.status).value)
    && Exact(p.room, b.room.id)
    && Exact(p.location, b.room.location.id)
    && Exact(p.dateBooking, b.dateBooking)
    && (p.dateFrom.Some? ==> b.dateBooking >= p.dateFrom.value)
    && (p.dateTo.Some? ==> b.dateBooking <= p.dateTo.value)
    && Exact(p.manager, b.manager.id)
    && (CharValue(p.search).Some? ==> SearchMatches(b, CharValue(p.search).value))
  }

  /** The filtered queryset: the accepted bookings, in their order. */
  function ApplyFilters(rows: seq<BookingRow>, p: FilterParams): (r: seq<BookingRow>)
    ensures forall b :: b in r <==> b in rows && Accepts(p, b)
    ensures |r| <= |rows|
  {
    Filter(rows, b => Accepts(p, b))
  }

  /** Without parameters nothing is filtered out. */
  lemma NoParamsKeepsAll(rows: seq<BookingRow>)
    ensures ApplyFilters(rows, NoParams) == rows
  {
    FilterAll(rows, b => Accepts(NoParams, b));
  }

  /** A `status` or `search` made only of whitespace is ignored. */
  lemma BlankTextIgnored(rows: seq<BookingRow>, p: FilterParams)
    ensures p.status.Some? && (forall k :: 0 <= k < |p.status.value| ==> IsSpace(p.status.value[k])) ==>
              ApplyFilters(rows, p) == ApplyFilters(rows, p.(status := None))
    ensures p.search.Some? && (forall k :: 0 <= k < |p.search.value| ==> IsSpace(p.search.value[k])) ==>
              ApplyFilters(rows, p) == ApplyFilters(rows, p.(search := None))
  {
    if p.status.Some? && forall k :: 0 <= k < |p.status.value| ==> IsSpace(p.status.value[k]) {
      var q := p.(status := None);
      FilterSame(rows, b => Accepts(p, b), b => Accepts(q, b));
    }
    if p.search.Some? && forall k :: 0 <= k < |p.search.value| ==> IsSpace(p.search.value[k]) {
      var q := p.(search := None);
      FilterSame(rows, b => Accepts(p, b), b => Accepts(q, b));
    }
  }

  /** The status filter compares stored codes: with the code of a status it
      keeps exactly the bookings in that status. */
  lemma StatusFilterExact(rows: seq<BookingRow>, st: Status, b: BookingRow)
    requires b in rows
    ensures b in ApplyFilters(rows, NoParams.(status := Some(StatusCode(st)))) <==> b.status == st
  {
    var c := StatusCode(st);
    forall k | 0 <= k < |c| ensures !IsSpace(c[k]) {
      assert 'a' <= c[k] <= 'z';
    }
    StripNoSpace(c);
    StatusCodeInjective(b.status, st);
  }

  /** `date_from` and `date_to` are inclusive: the range from a day to the
      same day keeps exactly that day's bookings. */
  lemma DateRangeInclusive(rows: seq<BookingRow>, day: int, b: BookingRow)
    requires b in rows
    ensures b in ApplyFilters(rows, NoParams.(dateFrom := Some(day), dateTo := Some(day))) <==> b.dateBooking == day
    ensures b in ApplyFilters(rows, NoParams.(dateFrom := Some(day))) <==> b.dateBooking >= day
    ensures b in ApplyFilters(rows, NoParams.(dateTo := Some(day))) <==> b.dateBooking <= day
  {
  }

  /** `location` matches through the room: the bookings kept are exactly
      those of rooms at that location. */
  lemma LocationThroughRoom(rows: seq<BookingRow>, loc: int, b: BookingRow)
    requires b in rows
    ensures b in ApplyFilters(rows, NoParams.(location := Some(loc))) <==> b.room.location.id == loc
  {
  }

  /** Case does not matter: searching for the upper- or the lower-case form
      of a value finds the same bookings as the value itself. */
  lemma SearchIgnoresCase(b: BookingRow, value: string)
    ensures SearchMatches(b, Upper(value)) <==> SearchMatches(b, value)
    ensures SearchMatches(b, Lower(value)) <==> SearchMatches(b, value)
  {
    UpperIdempotent(value);
    assert Upper(Lower(value)) == Upper(value);
  }

  /** Any piece of the room name finds the booking. */
  lemma SearchFindsRoomNamePart(b: BookingRow, i: nat, j: nat)
    requires i <= j <= |b.room.name|
    ensures SearchMatches(b, b.room.name[i..j])
  {
    var h := Upper(b.room.name);
    var n := Upper(b.room.name[i..j]);
    assert h[i..i + |n|] == n;
    ContainsAt(h, n, i);
  }

  /** A search hit is a real occurrence: the value, upper-cased, sits at
      some offset of one of the five upper-cased names. */
  lemma SearchHitIsOccurrence(b: BookingRow, value: string) returns (hay: string, i: nat)
    requires SearchMatches(b, value)
    ensures hay in [b.room.name, b.room.location.name, b.manager.username, b.manager.firstName, b.manager.lastName]
    ensures i + |value| <= |hay| && Upper(hay)[i..i + |value|] == Upper(value)
  {
    hay := if IContains(b.room.name, value) then b.room.name
           else if IContains(b.room.location.name, value) then b.room.location.name
           else if IContains(b.manager.username, value) then b.manager.username
           else if IContains(b.manager.firstName, value) then b.manager.firstName
           else b.manager.lastName;
    i := ContainsWitness(Upper(hay), Upper(value));
  }

  /** Giving several parameters is the same as applying their filters one
      after the other, as the filter set chains them on the queryset. */
  lemma FiltersChain(rows: seq<BookingRow>, p: FilterParams)
    ensures ApplyFilters(rows, p)
            == Filter(ApplyFilters(rows, p.(search := None)),
                      b => CharValue(p.search).Some? ==> SearchMatches(b, CharValue(p.search).value))
  {
    var q := p.(search := None);
    var s := (b: BookingRow) => CharValue(p.search).Some? ==> SearchMatches(b, CharValue(p.search).value);
    FilterChain(rows, b => Accepts(q, b), s, b => Accepts(p, b));
  }
}

=== FILE: booking_models.dfy ===
/** booking/models.py: locations, rooms and bookings; the booking life cycle
    (`confirm`, `cancel`, `complete`, each of which assigns fields in place
    and saves); and the `without_overlaps_booking` exclusion constraint, kept
    as an invariant of the stored bookings. Times are integer seconds;
    `date_booking` is a day number. */
module BookingModels {
  import opened Results
  import opened Text
  import opened CoreModels

  /** `BookingStatus` of booking/choices.py. */
  datatype Status = Pending | Confirmed | Cancelled | Completed

  /** The code stored in the `status` column. */
  function StatusCode(s: Status): (c: string)
  {
    match s
    case Pending => "pending"
    case Confirmed => "confirmed"
    case Cancelled => "cancelled"
    case Completed => "completed"
  }

  /** Distinct statuses are stored under distinct codes, so comparing codes
      compares statuses. */
  lemma StatusCodeInjective(a: Status, b: Status)
    ensures StatusCode(a) == StatusCode(b) <==> a == b
  {
  }

  datatype LocationRow = LocationRow(
    id: Id,
    name: string,
    address: string,
    city: string,
    state: string,
    cep: string,
    description: string,
    isActive: bool)

  datatype Room = Room(
    id: Id,
    name: string,
    location: LocationRow,
    capacity: int,
    isActive: bool)

  /** A stored booking. `manager` and the room are carried whole, as the
      serializers and filters read their fields through the foreign keys. */
  datatype BookingRow = BookingRow(
    id: Id,
    manager: User,
    room: Room,
    dateBooking: int,
    start: int,
    end: int,
    hasCoffeeBreak: bool,
    coffeeBreakHeadcount: int,
    status: Status,
    confirmedBy: Option<User>,
    confirmedAt: Option<int>,
    cancelledBy: Option<User>,
    cancelledAt: Option<int>,
    cancellationReason: Option<string>,
    notes: Option<string>,
    isActive: bool)

  /** The `MinValueValidator(1)` checks on `coffee_break_headcount` and on
      the room's `capacity`. */
  predicate MinValuesHold(b: BookingRow)
  {
    b.coffeeBreakHeadcount >= 1 && b.room.capacity >= 1
  }

  /** A booking built from its required columns, every other column at its
      declared default. */
  function NewBooking(id: Id, manager: User, room: Room, day: int, start: int, end: int): (b: BookingRow)
    ensures b.status == Pending && b.isActive
    ensures !b.hasCoffeeBreak && b.coffeeBreakHeadcount == 1
    ensures b.confirmedBy == None && b.confirmedAt == None
    ensures b.cancelledBy == None && b.cancelledAt == None && b.cancellationReason == None
    ensures b.room == room && b.manager == manager && b.dateBooking == day
    ensures b.start == start && b.end == end
    ensures MinValuesHold(b) <==> room.capacity >= 1
  {
    BookingRow(id, manager, room, day, start, end, false, 1, Pending,
               None, None, None, None, None, None, true)
  }

  /** The columns no life-cycle step touches: who booked which room, when. */
  predicate SameSlot(a: BookingRow, b: BookingRow)
  {
    a.id == b.id && a.manager == b.manager && a.room == b.room
    && a.dateBooking == b.dateBooking && a.start == b.start && a.end == b.end
  }

  /** The row `confirm(user)` saves. */
  function ConfirmedRow(b: BookingRow, actor: User, now: int): (r: BookingRow)
    ensures r.status == Confirmed && r.confirmedBy == Some(actor) && r.confirmedAt == Some(now)
    ensures SameSlot(b, r)
    ensures r.(status := b.status, confirmedBy := b.confirmedBy, confirmedAt := b.confirmedAt) == b
  {
    b.(status := Confirmed, confirmedBy := Some(actor), confirmedAt := Some(now))
  }

  /** Python truthiness of an optional string: present and non-empty. */
  predicate Truthy(s: Option<string>)
  {
    s.Some? && s.value != ""
  }

  /** The row `cancel(user, reason)` saves: the reason replaces the stored one
      only when it is truthy. */
  function CancelledRow(b: BookingRow, actor: User, now: int, reason: Option<string>): (r: BookingRow)
    ensures r.status == Cancelled && r.cancelledBy == Some(actor) && r.cancelledAt == Some(now)
    ensures Truthy(reason) ==> r.cancellationReason == reason
    ensures !Truthy(reason) ==> r.cancellationReason == b.cancellationReason
    ensures SameSlot(b, r)
    ensures r.(status := b.status, cancelledBy := b.cancelledBy, cancelledAt := b.cancelledAt,
               cancellationReason := b.cancellationReason) == b
  {
    var r := b.(status := Cancelled, cancelledBy := Some(actor), cancelledAt := Some(now));
    if Truthy(reason) then r.(cancellationReason := reason) else r
  }

  /** The row `complete()` saves: only the status changes. */
  function CompletedRow(b: BookingRow): (r: BookingRow)
    ensures r.status == Completed
    ensures SameSlot(b, r)
    ensures r.(status := b.status) == b
  {
    b.(status := Completed)
  }

  /** The partial condition of the exclusion constraint: the row is active
      and neither cancelled nor completed, so it holds its room. */
  predicate HoldsSlot(b: BookingRow)
  {
    b.isActive && b.status != Cancelled && b.status != Completed
  }

  /** The overlap test of the application code, on the stored datetimes:
      `start < other.end and end > other.start`. */
  predicate Overlaps(s1: int, e1: int, s2: int, e2: int)
  {
    s1 < e2 && e1 > s2
  }

  /** The PostgreSQL `&&` on `tstzrange(start, end)` with the default `[)`
      bounds: both ranges are non-empty and they share an instant. */
  predicate RangesOverlap(s1: int, e1: int, s2: int, e2: int)
  {
    s1 < e1 && s2 < e2 && s1 < e2 && s2 < e1
  }

  /** On non-empty intervals the application's test and the database's
      agree; on an empty interval the application's test is the stricter. */
  lemma OverlapAgreement(s1: int, e1: int, s2: int, e2: int)
    ensures s1 < e1 && s2 < e2 ==> (Overlaps(s1, e1, s2, e2) <==> RangesOverlap(s1, e1, s2, e2))
    ensures RangesOverlap(s1, e1, s2, e2) ==> Overlaps(s1, e1, s2, e2)
    ensures Overlaps(s1, e1, s2, e2) == Overlaps(s2, e2, s1, e1)
  {
  }

  /** A zero-length booking at 10:00 inside another booking of 09:00-11:00:
      the application reports a conflict, the database sees none. */
  lemma EmptyIntervalDisagreement()
    ensures Overlaps(36000, 36000, 32400, 39600)
    ensures !RangesOverlap(36000, 36000, 32400, 39600)
  {
  }

  /** Back-to-back bookings never overlap, by either test. */
  lemma BackToBack(s1: int, m: int, e2: int)
    ensures !Overlaps(s1, m, m, e2) && !RangesOverlap(s1, m, m, e2)
  {
  }

  /** Two rows the exclusion constraint forbids together. */
  predicate Clash(a: BookingRow, b: BookingRow)
  {
    a.room.id == b.room.id && HoldsSlot(a) && HoldsSlot(b)
    && RangesOverlap(a.start, a.end, b.start, b.end)
  }

  /** The stored bookings, keyed by primary key. */
  ghost predicate KeysMatch(rows: map<Id, BookingRow>)
  {
    forall id :: id in rows ==> rows[id].id == id
  }

  /** `tstzrange(start, end)` raises when start is after end, and it is
      evaluated for every row the partial condition covers, so no such row
      is ever stored. */
  ghost predicate RangesWellFormed(rows: map<Id, BookingRow>)
  {
    forall id :: id in rows && HoldsSlot(rows[id]) ==> rows[id].start <= rows[id].end
  }

  /** The exclusion constraint: no two distinct stored bookings clash. */
  ghost predicate NoOverlap(rows: map<Id, BookingRow>)
  {
    forall i, j :: i in rows && j in rows && i != j ==> !Clash(rows[i], rows[j])
  }

  /** The database refuses to store `r` when it builds an invalid range or
      clashes with another stored row. */
  datatype SaveError = InvalidRange | ExclusionViolation(other: Id)

  /** Whether saving `r` (an insert or an update of the row with its key)
      passes the constraint. */
  predicate SaveAllowed(rows: map<Id, BookingRow>, r: BookingRow)
  {
    (HoldsSlot(r) ==> r.start <= r.end)
    && forall id :: id in rows && id != r.id ==> !Clash(rows[id], r)
  }

  /** Saving a row that holds no slot never violates the constraint. */
  lemma ReleasedRowAlwaysSaves(rows: map<Id, BookingRow>, r: BookingRow)
    requires !HoldsSlot(r)
    ensures SaveAllowed(rows, r)
  {
  }

  /** Re-saving a stored row with the same room and times, whose slot it
      held already, never violates the constraint. */
  lemma StatusChangeSaves(rows: map<Id, BookingRow>, b: BookingRow, r: BookingRow)
    requires NoOverlap(rows) && RangesWellFormed(rows) && KeysMatch(rows)
    requires b.id in rows && rows[b.id] == b
    requires SameSlot(b, r)
    requires HoldsSlot(r) ==> HoldsSlot(b)
    ensures SaveAllowed(rows, r)
  {
    forall id | id in rows && id != r.id
      ensures !Clash(rows[id], r)
    {
      assert !Clash(rows[id], rows[b.id]);
    }
  }

  /** A stored pending booking can always be confirmed; a confirmation never
      needs a free slot it did not hold. */
  lemma ConfirmPendingSaves(rows: map<Id, BookingRow>, b: BookingRow, actor: User, now: int)
    requires NoOverlap(rows) && RangesWellFormed(rows) && KeysMatch(rows)
    requires b.id in rows && rows[b.id] == b && b.status == Pending
    ensures SaveAllowed(rows, ConfirmedRow(b, actor, now))
  {
    StatusChangeSaves(rows, b, ConfirmedRow(b, actor, now));
  }

  /** The model method itself checks nothing: confirming a cancelled booking
      whose slot was since taken by another is refused by the database. */
  lemma ConfirmCancelledCanFail(rows: map<Id, BookingRow>, b: BookingRow, other: BookingRow, actor: User, now: int)
    requires b.status == Cancelled && b.isActive && b.start < b.end
    requires other.id in rows && other.id != b.id && rows[other.id] == other
    requires HoldsSlot(other) && other.room.id == b.room.id && other.start == b.start && other.end == b.end
    ensures !SaveAllowed(rows, ConfirmedRow(b, actor, now))
  {
    assert Clash(rows[other.id], ConfirmedRow(b, actor, now));
  }

  /** The stored `Booking` rows. */
  class BookingTable {
    var rows: map<Id, BookingRow>

    ghost predicate Valid()
      reads this
    {
      KeysMatch(rows) && RangesWellFormed(rows) && NoOverlap(rows)
    }

    constructor Empty()
      ensures Valid() && rows == map[]
    {
      rows := map[];
    }

    /** `save()`: inserts `r`, or replaces the row with its key, unless the
        constraint refuses it; a refusal leaves the table as it was. */
    method Save(r: BookingRow) returns (res: Outcome<SaveError>)
      requires Valid()
      modifies this`rows
      ensures Valid()
      ensures res == Pass <==> SaveAllowed(old(rows), r)
      ensures res == Pass ==> rows == old(rows)[r.id := r]
      ensures res.Fail? ==> rows == old(rows)
      ensures res == Fail(InvalidRange) ==> HoldsSlot(r) && r.start > r.end
      ensures res.Fail? && res.error.ExclusionViolation? ==>
                res.error.other in rows && res.error.other != r.id && Clash(rows[res.error.other], r)
    {
      if HoldsSlot(r) && r.start > r.end {
        return Fail(InvalidRange);
      }
      if exists id :: id in rows && id != r.id && Clash(rows[id], r) {
        var id :| id in rows && id != r.id && Clash(rows[id], r);
        return Fail(ExclusionViolation(id));
      }
      rows := rows[r.id := r];
      res := Pass;
    }
  }

  /** A `Booking` instance. Its life-cycle methods assign fields and then
      save; when the save is refused the instance keeps the new values while
      the table keeps the old row. */
  class Booking {
    var id: Id
    var manager: User
    var room: Room
    var dateBooking: int
    var start: int
    var end: int
    var hasCoffeeBreak: bool
    var coffeeBreakHeadcount: int
    var status: Status
    var confirmedBy: Option<User>
    var confirmedAt: Option<int>
    var cancelledBy: Option<User>
    var cancelledAt: Option<int>
    var cancellationReason: Option<string>
    var notes: Option<string>
    var isActive: bool

    /** The row this instance saves. */
    function Row(): BookingRow
      reads this
    {
      BookingRow(id, manager, room, dateBooking, start, end, hasCoffeeBreak, coffeeBreakHeadcount,
                 status, confirmedBy, confirmedAt, cancelledBy, cancelledAt, cancellationReason,
                 notes, isActive)
    }

    constructor Load(r: BookingRow)
      ensures Row() == r
    {
      id, manager, room, dateBooking, start, end := r.id, r.manager, r.room, r.dateBooking, r.start, r.end;
      hasCoffeeBreak, coffeeBreakHeadcount, status := r.hasCoffeeBreak, r.coffeeBreakHeadcount, r.status;
      confirmedBy, confirmedAt, cancelledBy, cancelledAt := r.confirmedBy, r.confirmedAt, r.cancelledBy, r.cancelledAt;
      cancellationReason, notes, isActive := r.cancellationReason, r.notes, r.isActive;
    }

    predicate IsConfirmed()
      reads this
    {
      status == Confirmed
    }

    predicate IsPending()
      reads this
    {
      status == Pending
    }

    predicate IsCancelled()
      reads this
    {
      status == Cancelled
    }

    /** The three status properties each name one status, so at most one of
        them holds, and none holds for a completed booking. */
    lemma AtMostOneStatus()
      ensures !(IsConfirmed() && IsPending()) && !(IsConfirmed() && IsCancelled())
      ensures !(IsPending() && IsCancelled())
      ensures status == Completed <==> !IsConfirmed() && !IsPending() && !IsCancelled()
    {
    }

    /** `confirm(user)`: no precondition of its own. */
    method Confirm(actor: User, now: int, t: BookingTable) returns (res: Outcome<SaveError>)
      requires t.Valid()
      modifies this`status, this`confirmedBy, this`confirmedAt, t`rows
      ensures Row() == ConfirmedRow(old(Row()), actor, now)
      ensures t.Valid()
      ensures res == Pass <==> SaveAllowed(old(t.rows), Row())
      ensures res == Pass ==> t.rows == old(t.rows)[id := Row()]
      ensures res.Fail? ==> t.rows == old(t.rows)
    {
      status, confirmedBy, confirmedAt := Confirmed, Some(actor), Some(now);
      res := t.Save(Row());
    }

    /** `cancel(user, reason)`: the result always releases the slot, so the
        save always succeeds. */
    method Cancel(actor: User, now: int, reason: Option<string>, t: BookingTable) returns (res: Outcome<SaveError>)
      requires t.Valid()
      modifies this`status, this`cancelledBy, this`cancelledAt, this`cancellationReason, t`rows
      ensures Row() == CancelledRow(old(Row()), actor, now, reason)
      ensures t.Valid()
      ensures res == Pass && t.rows == old(t.rows)[id := Row()]
    {
      status, cancelledBy, cancelledAt := Cancelled, Some(actor), Some(now);
      if Truthy(reason) {
        cancellationReason := reason;
      }
      ReleasedRowAlwaysSaves(t.rows, Row());
      res := t.Save(Row());
    }

    /** `complete()`: the result releases the slot, so the save always
        succeeds. */
    method Complete(t: BookingTable) returns (res: Outcome<SaveError>)
      requires t.Valid()
      modifies this`status, t`rows
      ensures Row() == CompletedRow(old(Row()))
      ensures t.Valid()
      ensures res == Pass && t.rows == old(t.rows)[id := Row()]
    {
      status := Completed;
      ReleasedRowAlwaysSaves(t.rows, Row());
      res := t.Save(Row());
    }
  }

  /** The state `Location.clean()` leaves: upper-cased when non-empty. */
  function CleanedState(s: string): (r: string)
    ensures |r| == |s|
    ensures s == "" ==> r == ""
    ensures forall k :: 0 <= k < |s| ==> r[k] == UpperChar(s[k])
    ensures forall k :: 0 <= k < |r| ==> !('a' <= r[k] <= 'z')
  {
    if s != "" then Upper(s) else s
  }

  /** Cleaning twice is cleaning once. */
  lemma {:induction false} CleanIdempotent(s: string)
    ensures CleanedState(CleanedState(s)) == CleanedState(s)
  {
    if s != "" {
      UpperIdempotent(s);
    }
  }

  /** A `Location` instance. */
  class Location {
    var id: Id
    var name: string
    var address: string
    var city: string
    var state: string
    var cep: string
    var description: string
    var isActive: bool

    function Row(): LocationRow
      reads this
    {
      LocationRow(id, name, address, city, state, cep, description, isActive)
    }

    constructor Load(r: LocationRow)
      ensures Row() == r
    {
      id, name, address, city, state := r.id, r.name, r.address, r.city, r.state;
      cep, description, isActive := r.cep, r.description, r.isActive;
    }

    /** `clean()`: normalises `state` and nothing else. */
    method Clean()
      modifies this`state
      ensures state == CleanedState(old(state))
      ensures Row() == old(Row()).(state := CleanedState(old(state)))
    {
      if state != "" {
        state := Upper(state);
      }
    }
  }
}

=== FILE: booking_permissions.dfy ===
/** booking/permissions.py: `IsManagerOrAdmin`. */
module BookingPermissions {
  import opened Results
  import opened CoreModels
  import opened Http

  /** `IsManagerOrAdmin.has_permission`. */
  predicate IsManagerOrAdmin(req: Requester)
  {
    if !req.Authenticated? then false
    else if req.user.isSuperuser || req.user.isStaff then true
    else req.user.role in [RoleManager, RoleAdmin]
  }

  /** The permission decided case by case: never for an anonymous request,
      always for a superuser or staff account whatever its role, and
      otherwise exactly for the manager and admin roles. */
  lemma ManagerOrAdminCases(req: Requester)
    ensures req.Anonymous? ==> !IsManagerOrAdmin(req)
    ensures req.Authenticated? && (req.user.isSuperuser || req.user.isStaff) ==> IsManagerOrAdmin(req)
    ensures req.Authenticated? && !req.user.isSuperuser && !req.user.isStaff ==>
              (IsManagerOrAdmin(req) <==> req.user.role == "manager" || req.user.role == "admin")
    ensures req.Authenticated? && req.user.role == RoleUser && !req.user.isSuperuser && !req.user.isStaff ==>
              !IsManagerOrAdmin(req)
  {
  }

  /** Every request `IsAdminUser` lets through, this permission lets
      through too. */
  lemma AdminUserIsManagerOrAdmin(req: Requester)
    ensures IsAdminUser(req) ==> IsManagerOrAdmin(req)
    ensures IsManagerOrAdmin(req) ==> IsAuthenticated(req)
  {
  }

  /** A fresh account (role `user`, no flags) is refused. */
  lemma NewUserRefused(id: Id, email: string, username: string, hash: string)
    ensures !IsManagerOrAdmin(Authenticated(NewUser(id, email, username, hash)))
  {
  }
}

=== FILE: booking_serializers.dfy ===
/** booking/serializers.py: the overlap check of `BookingSerializer.validate`,
    the query-string rules of `CheckAvailabilityInputSerializer`, and the
    computed fields of `BookingListSerializer` (duration and display
    names). `%H:%M` rendering of datetimes lives here too, beside the
    `HH:MM` pattern it must satisfy. */
module BookingSerializers {
  import opened Results
  import opened Lists
  import opened Text
  import opened Fields
  import opened CoreModels
  import opened BookingModels

  // ---------------------------------------------------------------------
  // Conflict detection

  /** A stored row the conflict query returns for `[start, end)` in room
      `roomId`: same room, active, neither cancelled nor completed, and
      `b.start < end && b.end > start`. */
  predicate IsConflict(b: BookingRow, roomId: Id, start: int, end: int)
  {
    b.room.id == roomId && HoldsSlot(b) && Overlaps(b.start, b.end, start, end)
  }

  predicate NotExcluded(b: BookingRow, exclude: Option<Id>)
  {
    exclude.None? || b.id != exclude.value
  }

  /** The conflicting rows of the (active-only) booking queryset `rows`, in
      its order, leaving out the instance being updated. */
  function Conflicts(rows: seq<BookingRow>, roomId: Id, start: int, end: int, exclude: Option<Id>): (r: seq<BookingRow>)
    ensures forall b :: b in r <==> b in rows && IsConflict(b, roomId, start, end) && NotExcluded(b, exclude)
    ensures |r| <= |rows|
  {
    Filter(rows, b => IsConflict(b, roomId, start, end) && NotExcluded(b, exclude))
  }

  /** Back-to-back bookings do not conflict: a row ending when the new one
      starts, or starting when it ends, is never reported. */
  lemma AdjacentNoConflict(b: BookingRow, roomId: Id, start: int, end: int)
    requires b.end <= start || end <= b.start
    ensures !IsConflict(b, roomId, start, end)
  {
  }

  /** The fields `validate` reads; a key the payload lacks is `None`. */
  datatype BookingAttrs = BookingAttrs(
    room: Option<Room>,
    manager: Option<User>,
    dateBooking: Option<int>,
    start: Option<int>,
    end: Option<int>)

  /** Why `validate` refuses: a time the payload lacks reaches the ORM as
      `None` in a `__lt`/`__gt` lookup, which raises; or a conflict, reported
      by the first conflicting row's id, times and manager username. */
  datatype BookingError =
    | NoneLookup
    | Conflict(id: Id, start: int, end: int, managerUsername: string)

  function ConflictOf(b: BookingRow): (e: BookingError)
    ensures e.Conflict? && e.id == b.id && e.start == b.start && e.end == b.end
    ensures e.managerUsername == b.manager.username
  {
    Conflict(b.id, b.start, b.end, b.manager.username)
  }

  /** `Booking.Meta.ordering` (`date_booking`, `start_datetime`, `room`)
      restricted to its first two keys: `a` sorts no later than `b`. The
      conflicts of one check all share one room, so the third key never
      separates them. */
  predicate MetaNoLater(a: BookingRow, b: BookingRow)
  {
    a.dateBooking < b.dateBooking || (a.dateBooking == b.dateBooking && a.start <= b.start)
  }

  /** What `.first()` returns from a non-empty booking queryset: a row
      that sorts no later than any other. Ties keep the earlier row. */
  function FirstInMetaOrder(cs: seq<BookingRow>): (b: BookingRow)
    requires cs != []
    ensures b in cs
    ensures forall c :: c in cs ==> MetaNoLater(b, c)
  {
    if |cs| == 1 then cs[0]
    else
      var m := FirstInMetaOrder(cs[1..]);
      assert forall c :: c in cs ==> c == cs[0] || c in cs[1..];
      if MetaNoLater(m, cs[0]) then m else cs[0]
  }

  /** `BookingSerializer.validate`. `room=None` filters on a NULL room, which
      no stored booking has, so a payload without a room finds no
      conflict. The row reported is the one `.first()` picks in the
      model's ordering, whatever order `rows` lists them in. */
  function ValidateBooking(attrs: BookingAttrs, rows: seq<BookingRow>, instance: Option<Id>): (r: Result<BookingAttrs, BookingError>)
    ensures attrs.start.None? || attrs.end.None? ==> r == Err(NoneLookup)
    ensures r.Ok? ==> r.value == attrs
    ensures attrs.start.Some? && attrs.end.Some? && attrs.room.Some? ==>
              (r.Ok? <==> Conflicts(rows, attrs.room.value.id, attrs.start.value, attrs.end.value, instance) == [])
    ensures attrs.start.Some? && attrs.end.Some? && attrs.room.None? ==> r.Ok?
    ensures r.Err? && r.error.Conflict? ==>
              attrs.room.Some? && attrs.start.Some? && attrs.end.Some?
              && var cs := Conflicts(rows, attrs.room.value.id, attrs.start.value, attrs.end.value, instance);
              cs != [] && var b := FirstInMetaOrder(cs);
              r.error == ConflictOf(b)
              && b in rows && IsConflict(b, attrs.room.value.id, attrs.start.value, attrs.end.value)
              && NotExcluded(b, instance)
              && forall c ::
                   (c in rows && IsConflict(c, attrs.room.value.id, attrs.start.value, attrs.end.value) && NotExcluded(c, instance))
                   ==> MetaNoLater(b, c)
  {
    if attrs.start.None? || attrs.end.None? then Err(NoneLookup)
    else if attrs.room.None? then Ok(attrs)
    else
      var cs := Conflicts(rows, attrs.room.value.id, attrs.start.value, attrs.end.value, instance);
      if cs != [] then
        Err(ConflictOf(FirstInMetaOrder(cs)))
      else Ok(attrs)
  }

  /** The application check never lets through a row the exclusion
      constraint would refuse for overlap: if no active row conflicts with
      the row about to be saved, and its range is well formed, the database
      accepts it. On an update the excluded instance is the row itself; on
      a create the row takes a key not yet stored. */
  lemma CheckedRowSaves(stored: map<Id, BookingRow>, rows: seq<BookingRow>, r: BookingRow, instance: Option<Id>)
    requires KeysMatch(stored)
    requires forall id :: id in stored && stored[id].isActive ==> stored[id] in rows
    requires instance.Some? ==> instance.value == r.id
    requires instance.None? ==> r.id !in stored
    requires Conflicts(rows, r.room.id, r.start, r.end, instance) == []
    requires HoldsSlot(r) ==> r.start <= r.end
    ensures SaveAllowed(stored, r)
  {
    forall id | id in stored && id != r.id
      ensures !Clash(stored[id], r)
    {
      var b := stored[id];
      if Clash(b, r) {
        assert b in rows && IsConflict(b, r.room.id, r.start, r.end) && NotExcluded(b, instance);
        assert false;
      }
    }
  }

  // ---------------------------------------------------------------------
  // Clock times: `^([0-1]?[0-9]|2[0-3]):[0-5][0-9]$`

  /** `[0-1]?[0-9]|2[0-3]`: an hour with or without a leading digit. */
  predicate HourField(h: string)
  {
    (|h| == 1 && IsDigit(h[0]))
    || (|h| == 2 && (('0' <= h[0] <= '1' && IsDigit(h[1])) || (h[0] == '2' && '0' <= h[1] <= '3')))
  }

  /** `[0-5][0-9]`. */
  predicate MinuteField(m: string)
  {
    |m| == 2 && '0' <= m[0] <= '5' && IsDigit(m[1])
  }

  /** The `HH:MM` pattern, anchored at both ends. */
  predicate ValidTime(s: string)
  {
    (|s| == 4 && HourField(s[..1]) && s[1] == ':' && MinuteField(s[2..]))
    || (|s| == 5 && HourField(s[..2]) && s[2] == ':' && MinuteField(s[3..]))
  }

  function DigitValue(c: char): (v: nat)
    requires IsDigit(c)
    ensures v <= 9
  {
    c as int - '0' as int
  }

  function DigitChar(v: nat): (c: char)
    requires v <= 9
    ensures IsDigit(c) && DigitValue(c) == v
  {
    ('0' as int + v) as char
  }

  /** `int(...)` of one or two digits. */
  function SmallNumber(s: string): (n: nat)
    requires 1 <= |s| <= 2 && forall k :: 0 <= k < |s| ==> IsDigit(s[k])
    ensures n < 100
  {
    if |s| == 1 then DigitValue(s[0]) else 10 * DigitValue(s[0]) + DigitValue(s[1])
  }

  /** `h * 60 + m` after `map(int, value.split(':'))`. */
  function TimeMinutes(s: string): (m: nat)
    requires ValidTime(s)
    ensures m < 24 * 60
  {
    var colon := if |s| == 4 then 1 else 2;
    SmallNumber(s[..colon]) * 60 + SmallNumber(s[colon + 1..])
  }

  /** The text of hour `h` and minute `m`: zero-padded `HH:MM`, or `H:MM`
      for a one-digit hour. */
  function RenderTime(h: nat, m: nat, padded: bool): (s: string)
    requires h < 24 && m < 60 && (padded || h < 10)
  {
    var mm := [DigitChar(m / 10), DigitChar(m % 10)];
    if padded then [DigitChar(h / 10), DigitChar(h % 10), ':'] + mm
    else [DigitChar(h), ':'] + mm
  }

  /** Every rendering of a clock time is accepted and parses back to it. */
  lemma RenderedTimeParses(h: nat, m: nat, padded: bool)
    requires h < 24 && m < 60 && (padded || h < 10)
    ensures ValidTime(RenderTime(h, m, padded))
    ensures TimeMinutes(RenderTime(h, m, padded)) == h * 60 + m
  {
    var s := RenderTime(h, m, padded);
    if padded {
      assert s[..2] == [DigitChar(h / 10), DigitChar(h % 10)];
      assert s[3..] == [DigitChar(m / 10), DigitChar(m % 10)];
    } else {
      assert s[..1] == [DigitChar(h)];
      assert s[2..] == [DigitChar(m / 10), DigitChar(m % 10)];
    }
  }

  /** Every accepted value is the rendering of some clock time, so the
      pattern accepts exactly hours 0-23 (a leading zero optional) and
      minutes 00-59. */
  lemma ValidTimeIsRendered(s: string) returns (h: nat, m: nat, padded: bool)
    requires ValidTime(s)
    ensures h < 24 && m < 60 && (padded || h < 10)
    ensures s == RenderTime(h, m, padded)
    ensures TimeMinutes(s) == h * 60 + m
  {
    padded := |s| == 5;
    var colon := if padded then 2 else 1;
    h := SmallNumber(s[..colon]);
    m := SmallNumber(s[colon + 1..]);
    var r := RenderTime(h, m, padded);
    assert |r| == |s|;
    forall k | 0 <= k < |s|
      ensures r[k] == s[k]
    {
    }
  }

  /** Values the pattern refuses or accepts, hour and minute bounds
      included. */
  lemma TimeExamples()
    ensures !ValidTime("24:00") && !ValidTime("12:60") && !ValidTime("9:5") && !ValidTime("123:00")
    ensures ValidTime("9:05") && TimeMinutes("9:05") == 545
    ensures ValidTime("23:59") && TimeMinutes("23:59") == 1439
    ensures ValidTime("00:00") && TimeMinutes("00:00") == 0
  {
    assert "9:05"[..1] == "9" && "9:05"[2..] == "05";
    assert "23:59"[..2] == "23" && "23:59"[3..] == "59";
    assert "00:00"[..2] == "00" && "00:00"[3..] == "00";
  }

  /** `strftime('%H:%M')` of the instant `t` (seconds): its time of day. */
  function FormatClock(t: int): (s: string)
    ensures |s| == 5 && ValidTime(s)
    ensures TimeMinutes(s) == (t % 86400) / 60
  {
    var x := t % 86400;
    var h := x / 3600;
    var m := (x % 3600) / 60;
    assert x / 60 == h * 60 + m;
    RenderedTimeParses(h, m, true);
    RenderTime(h, m, true)
  }

  // ---------------------------------------------------------------------
  // Calendar dates: `datetime.strptime(value, '%Y-%m-%d')`

  datatype Date = Date(year: nat, month: nat, day: nat)

  predicate AllDigits(s: string)
  {
    forall k :: 0 <= k < |s| ==> IsDigit(s[k])
  }

  /** `%Y`: four digits. */
  function YearValue(s: string): (y: nat)
    requires |s| == 4 && AllDigits(s)
    ensures y <= 9999
  {
    1000 * DigitValue(s[0]) + 100 * DigitValue(s[1]) + 10 * DigitValue(s[2]) + DigitValue(s[3])
  }

  /** `%m`: `1[0-2]|0[1-9]|[1-9]`. */
  predicate MonthField(m: string)
  {
    (|m| == 2 && ((m[0] == '1' && '0' <= m[1] <= '2') || (m[0] == '0' && '1' <= m[1] <= '9')))
    || (|m| == 1 && '1' <= m[0] <= '9')
  }

  /** `%d`: `3[01]|[12][0-9]|0[1-9]|[1-9]| [1-9]`. */
  predicate DayField(d: string)
  {
    (|d| == 2 && ((d[0] == '3' && '0' <= d[1] <= '1') || ('1' <= d[0] <= '2' && IsDigit(d[1]))
                  || (d[0] == '0' && '1' <= d[1] <= '9') || (d[0] == ' ' && '1' <= d[1] <= '9')))
    || (|d| == 1 && '1' <= d[0] <= '9')
  }

  function MonthValue(m: string): (v: nat)
    requires MonthField(m)
    ensures 1 <= v <= 12
  {
    SmallNumber(m)
  }

  function DayValue(d: string): (v: nat)
    requires DayField(d)
    ensures 1 <= v <= 31
  {
    if d[0] == ' ' then DigitValue(d[1]) else SmallNumber(d)
  }

  /** The fields the `%Y-%m-%d` pattern captures, when it matches the whole
      value; a month of two characters is tried first. */
  function ParseDate(s: string): (r: Option<Date>)
    ensures r.Some? ==> 1 <= r.value.month <= 12 && 1 <= r.value.day <= 31 && r.value.year <= 9999
  {
    if |s| < 7 || !AllDigits(s[..4]) || s[4] != '-' then None
    else if |s| >= 8 && MonthField(s[5..7]) && s[7] == '-' && DayField(s[8..]) then
      Some(Date(YearValue(s[..4]), MonthValue(s[5..7]), DayValue(s[8..])))
    else if MonthField(s[5..6]) && s[6] == '-' && DayField(s[7..]) then
      Some(Date(YearValue(s[..4]), MonthValue(s[5..6]), DayValue(s[7..])))
    else None
  }

  predicate IsLeapYear(y: nat)
  {
    y % 4 == 0 && (y % 100 != 0 || y % 400 == 0)
  }

  function DaysInMonth(y: nat, m: nat): (n: nat)
    requires 1 <= m <= 12
    ensures 28 <= n <= 31
  {
    if m == 2 then (if IsLeapYear(y) then 29 else 28)
    else if m == 4 || m == 6 || m == 9 || m == 11 then 30
    else 31
  }

  /** The days of year `y` in the months before month `m`. */
  function DaysBeforeMonth(y: nat, m: nat): (n: nat)
    requires 1 <= m <= 13
    ensures n <= 31 * (m - 1)
    decreases m
  {
    if m == 1 then 0 else DaysBeforeMonth(y, m - 1) + DaysInMonth(y, m - 1)
  }

  /** `date.toordinal()`: the proleptic Gregorian day number, 1 for
      0001-01-01. Bookings store their `date_booking` as this number. */
  function Ordinal(d: Date): (n: int)
    requires d.year >= 1 && 1 <= d.month <= 12 && d.day >= 1
    ensures n >= d.day
  {
    DaysBeforeYear(d.year) + DaysBeforeMonth(d.year, d.month) + d.day
  }

  /** The days of the years before `y`: 365 each, plus one per leap year. */
  function DaysBeforeYear(y: nat): (n: nat)
    requires y >= 1
  {
    var x := y - 1;
    365 * x + x / 4 - x / 100 + x / 400
  }

  /** Day numbers run on across the end of a month and of a year. */
  lemma OrdinalExamples()
    ensures Ordinal(Date(2024, 1, 1)) == 738886
    ensures Ordinal(Date(2024, 3, 1)) == Ordinal(Date(2024, 2, 29)) + 1
    ensures Ordinal(Date(2024, 1, 1)) == Ordinal(Date(2023, 12, 31)) + 1
  {
  }

  /** The calendar day after `d`. */
  function NextDay(d: Date): Date
    requires d.year >= 1 && 1 <= d.month <= 12 && 1 <= d.day <= DaysInMonth(d.year, d.month)
  {
    if d.day < DaysInMonth(d.year, d.month) then d.(day := d.day + 1)
    else if d.month < 12 then Date(d.year, d.month + 1, 1)
    else Date(d.year + 1, 1, 1)
  }

  /** A whole year holds 366 days when it is a leap year and 365 otherwise. */
  lemma DaysInYear(y: nat)
    ensures DaysBeforeMonth(y, 13) == if IsLeapYear(y) then 366 else 365
  {
    var l := if IsLeapYear(y) then 1 else 0;
    assert DaysBeforeMonth(y, 3) == 59 + l;
    assert DaysBeforeMonth(y, 5) == 120 + l;
    assert DaysBeforeMonth(y, 7) == 181 + l;
    assert DaysBeforeMonth(y, 9) == 243 + l;
    assert DaysBeforeMonth(y, 11) == 304 + l;
  }

  /** Year `y` adds 366 days to the count when it is a leap year and 365
      otherwise. */
  lemma LeapCountStep(y: nat)
    requires y >= 1
    ensures DaysBeforeYear(y + 1) == DaysBeforeYear(y) + if IsLeapYear(y) then 366 else 365
  {
    var x := y - 1;
    var a, b, c := y / 4 - x / 4, y / 100 - x / 100, y / 400 - x / 400;
    assert a == (if y % 4 == 0 then 1 else 0) by { MultiplesUpTo(y, 4); }
    assert b == (if y % 100 == 0 then 1 else 0) by { MultiplesUpTo(y, 100); }
    assert c == (if y % 400 == 0 then 1 else 0) by { MultiplesUpTo(y, 400); }
    assert y % 100 == 0 ==> y % 4 == 0 by { MultipleOfFactor(y, 4, 25); }
    assert y % 400 == 0 ==> y % 100 == 0 by { MultipleOfFactor(y, 100, 4); }
    assert DaysBeforeYear(y + 1) == DaysBeforeYear(y) + 365 + a - b + c;
  }

  /** Going from `y - 1` to `y` meets a new multiple of `k` exactly when
      `y` is one. */
  lemma MultiplesUpTo(y: nat, k: nat)
    requires y >= 1 && k in {4, 100, 400}
    ensures y / k - (y - 1) / k == if y % k == 0 then 1 else 0
  {
  }

  /** A multiple of `k * m` is a multiple of `k`. */
  lemma MultipleOfFactor(y: nat, k: nat, m: nat)
    requires (k, m) in {(4, 25), (100, 4)}
    ensures y % (k * m) == 0 ==> y % k == 0
  {
  }

  /** New Year's Day follows the last day of the year before. */
  lemma YearEndOrdinal(y: nat)
    requires y >= 1
    ensures Ordinal(Date(y + 1, 1, 1)) == Ordinal(Date(y, 12, 31)) + 1
  {
    DaysInYear(y);
    LeapCountStep(y);
    assert DaysBeforeMonth(y, 12) + 31 == DaysBeforeMonth(y, 13);
  }

  /** Day numbers count days: the day after any real date has the next
      number, across month ends, year ends and leap days alike. */
  lemma NextDayOrdinal(d: Date)
    requires d.year >= 1 && 1 <= d.month <= 12 && 1 <= d.day <= DaysInMonth(d.year, d.month)
    ensures Ordinal(NextDay(d)) == Ordinal(d) + 1
  {
    if d.day < DaysInMonth(d.year, d.month) {
      assert NextDay(d) == Date(d.year, d.month, d.day + 1);
    } else if d.month < 12 {
      assert NextDay(d) == Date(d.year, d.month + 1, 1);
      assert DaysBeforeMonth(d.year, d.month + 1) == DaysBeforeMonth(d.year, d.month) + d.day;
    } else {
      assert NextDay(d) == Date(d.year + 1, 1, 1) && d == Date(d.year, 12, 31);
      YearEndOrdinal(d.year);
    }
  }

  /** `strptime` succeeds: the pattern matches the whole value and the
      fields name a real day of a year from 1 on. */
  predicate ValidDate(s: string)
  {
    var d := ParseDate(s);
    d.Some? && d.value.year >= 1 && d.value.day <= DaysInMonth(d.value.year, d.value.month)
  }

  /** The day number of a date `strptime` accepts. */
  function DayOf(s: string): (n: int)
    requires ValidDate(s)
    ensures n >= 1
  {
    Ordinal(ParseDate(s).value)
  }

  lemma DateExamples()
    ensures ValidDate("2024-02-29") && !ValidDate("2023-02-29")
    ensures !ValidDate("2024-13-01") && !ValidDate("0000-01-01") && !ValidDate("24-01-01")
    ensures ValidDate("2024-1-5")
  {
    assert "2024-02-29"[..4] == "2024" && "2024-02-29"[5..7] == "02" && "2024-02-29"[8..] == "29";
    assert "2023-02-29"[..4] == "2023" && "2023-02-29"[5..7] == "02" && "2023-02-29"[8..] == "29";
    assert "2024-13-01"[5..7] == "13" && "2024-13-01"[5..6] == "1";
    assert "0000-01-01"[..4] == "0000" && "0000-01-01"[5..7] == "01" && "0000-01-01"[8..] == "01";
    assert "2024-1-5"[..4] == "2024" && "2024-1-5"[5..6] == "1" && "2024-1-5"[7..] == "5";
  }

  // ---------------------------------------------------------------------
  // CheckAvailabilityInputSerializer

  /** The `date` field: the char-field rules, then `validate_date`. */
  function CleanDate(raw: Option<string>): (r: Result<string, InputError>)
    ensures r.Ok? ==> ValidDate(r.value) && r == CleanCharField(raw)
    ensures CleanCharField(raw).Err? ==> r == CleanCharField(raw)
    ensures CleanCharField(raw).Ok? && ValidDate(CleanCharField(raw).value) ==> r == CleanCharField(raw)
    ensures CleanCharField(raw).Ok? && !ValidDate(CleanCharField(raw).value) ==> r == Err(BadFormat)
  {
    var c := CleanCharField(raw);
    if c.Ok? && !ValidDate(c.value) then Err(BadFormat) else c
  }

  /** The `start_time` and `end_time` fields: the char-field rules, then the
      `HH:MM` pattern. */
  function CleanTime(raw: Option<string>): (r: Result<string, InputError>)
    ensures r.Ok? ==> ValidTime(r.value) && r == CleanCharField(raw)
    ensures CleanCharField(raw).Err? ==> r == CleanCharField(raw)
    ensures CleanCharField(raw).Ok? && ValidTime(CleanCharField(raw).value) ==> r == CleanCharField(raw)
    ensures CleanCharField(raw).Ok? && !ValidTime(CleanCharField(raw).value) ==> r == Err(BadFormat)
  {
    var c := CleanCharField(raw);
    if c.Ok? && !ValidTime(c.value) then Err(BadFormat) else c
  }

  /** A validated availability query. */
  datatype AvailabilityQuery = AvailabilityQuery(
    date: string,
    startTime: string,
    endTime: string,
    startMinutes: nat,
    endMinutes: nat)

  function FieldErrors(d: Result<string, InputError>, s: Result<string, InputError>, e: Result<string, InputError>): (m: map<string, InputError>)
    ensures "date" in m <==> d.Err?
    ensures "start_time" in m <==> s.Err?
    ensures "end_time" in m <==> e.Err?
    ensures d.Err? ==> m["date"] == d.error
    ensures s.Err? ==> m["start_time"] == s.error
    ensures e.Err? ==> m["end_time"] == e.error
  {
    var m0: map<string, InputError> := if d.Err? then map["date" := d.error] else map[];
    var m1 := if s.Err? then m0["start_time" := s.error] else m0;
    if e.Err? then m1["end_time" := e.error] else m1
  }

  /** `is_valid()`: every field is checked and its errors collected; only
      when all three pass does `validate` compare the times, refusing an end
      not after the start under `end_time`. */
  function ValidateAvailabilityInput(date: Option<string>, start: Option<string>, end: Option<string>): (r: Result<AvailabilityQuery, map<string, InputError>>)
    ensures var d, s, e := CleanDate(date), CleanTime(start), CleanTime(end);
            (r.Ok? <==> d.Ok? && s.Ok? && e.Ok? && TimeMinutes(s.value) < TimeMinutes(e.value))
            && (r.Ok? ==> r.value == AvailabilityQuery(d.value, s.value, e.value, TimeMinutes(s.value), TimeMinutes(e.value)))
            && (r.Err? && d.Ok? && s.Ok? && e.Ok? ==> r.error == map["end_time" := EndNotAfterStart])
            && (r.Err? && !(d.Ok? && s.Ok? && e.Ok?) ==> r.error == FieldErrors(d, s, e))
    ensures r.Ok? ==> r.value.startMinutes < r.value.endMinutes
    ensures r.Err? ==> ("end_time" in r.error && r.error["end_time"] == EndNotAfterStart
                        <==> CleanDate(date).Ok? && CleanTime(start).Ok? && CleanTime(end).Ok?)
  {
    var d, s, e := CleanDate(date), CleanTime(start), CleanTime(end);
    if d.Ok? && s.Ok? && e.Ok? then
      var sm, em := TimeMinutes(s.value), TimeMinutes(e.value);
      if em <= sm then Err(map["end_time" := EndNotAfterStart])
      else Ok(AvailabilityQuery(d.value, s.value, e.value, sm, em))
    else Err(FieldErrors(d, s, e))
  }

  /** Once the date and the time are clean, an end equal to the start is
      refused under `end_time`, and nothing else is reported. */
  lemma EqualTimesRefused(date: Option<string>, time: Option<string>)
    requires CleanDate(date).Ok? && CleanTime(time).Ok?
    ensures ValidateAvailabilityInput(date, time, time) == Err(map["end_time" := EndNotAfterStart])
  {
  }

  /** Surrounding spaces are stripped before the pattern applies. */
  lemma StrippedTimeAccepted()
    ensures CleanTime(Some(" 9:00 ")) == Ok("9:00")
  {
    StripCore(" 9:00 ", 1, "9:00");
    assert "9:00"[..1] == "9" && "9:00"[2..] == "00";
  }

  /** A missing date and a blank end time are both reported. */
  lemma MissingAndBlankReported()
    ensures ValidateAvailabilityInput(None, Some("24:00"), Some("  ")).Err?
    ensures var r := ValidateAvailabilityInput(None, Some("24:00"), Some("  "));
            r.Err? && "date" in r.error && r.error["date"] == Required
            && "end_time" in r.error && r.error["end_time"] == Blank
  {
    assert Strip("  ") == "";
  }

  // ---------------------------------------------------------------------
  // BookingListSerializer computed fields

  /** `int((end - start).total_seconds() / 60)`: whole minutes, truncated
      toward zero (Python's `int()` of a float). */
  function DurationMinutes(start: int, end: int): (r: int)
    ensures end - start >= 0 ==> 0 <= r && r * 60 <= end - start < r * 60 + 60
    ensures end - start < 0 ==> r <= 0 && r * 60 - 60 < end - start <= r * 60
  {
    var d := end - start;
    if d >= 0 then d / 60 else -((-d) / 60)
  }

  /** Truncation is not flooring: a 90-second negative span is -1 minute,
      where Dafny's (Euclidean) division would give -2. */
  lemma DurationTruncates()
    ensures DurationMinutes(90, 0) == -1 && (0 - 90) / 60 == -2
    ensures DurationMinutes(0, 3599) == 59
  {
  }

  /** `get_manager_name` and its siblings: the stripped full name, else the
      username; nothing without a user. */
  function DisplayName(u: Option<User>): (r: Option<string>)
    ensures u.None? <==> r.None?
    ensures u.Some? && Strip(u.value.firstName + " " + u.value.lastName) == "" ==> r == Some(u.value.username)
    ensures u.Some? && Strip(u.value.firstName + " " + u.value.lastName) != "" ==>
              r == Some(Strip(u.value.firstName + " " + u.value.lastName))
    ensures u.Some? && r.value != u.value.username ==> Trimmed(r.value)
  {
    if u.None? then None
    else
      var full := Strip(u.value.firstName + " " + u.value.lastName);
      Some(if full != "" then full else u.value.username)
  }

  /** Both names present: "first last". */
  lemma DisplayNameFull(u: User)
    requires Trimmed(u.firstName) && Trimmed(u.lastName)
    ensures DisplayName(Some(u)) == Some(u.firstName + " " + u.lastName)
  {
    var s := u.firstName + " " + u.lastName;
    assert s[0] == u.firstName[0] && s[|s| - 1] == u.lastName[|u.lastName| - 1];
    StripCore(s, 0, s);
  }

  /** Only a first name: that name, without the joining space. */
  lemma DisplayNameFirstOnly(u: User)
    requires Trimmed(u.firstName) && u.lastName == ""
    ensures DisplayName(Some(u)) == Some(u.firstName)
  {
    var s := u.firstName + " " + u.lastName;
    assert s[..|u.firstName|] == u.firstName;
    StripCore(s, 0, u.firstName);
  }

  /** Only a last name: that name, without the joining space. */
  lemma DisplayNameLastOnly(u: User)
    requires u.firstName == "" && Trimmed(u.lastName)
    ensures DisplayName(Some(u)) == Some(u.lastName)
  {
    var s := u.firstName + " " + u.lastName;
    assert s[1..1 + |u.lastName|] == u.lastName;
    StripCore(s, 1, u.lastName);
  }

  /** No name at all, or only whitespace: the username. */
  lemma DisplayNameFallback(u: User)
    requires forall k :: 0 <= k < |u.firstName| ==> IsSpace(u.firstName[k])
    requires forall k :: 0 <= k < |u.lastName| ==> IsSpace(u.lastName[k])
    ensures DisplayName(Some(u)) == Some(u.username)
  {
    var s := u.firstName + " " + u.lastName;
    assert forall k :: 0 <= k < |s| ==> IsSpace(s[k]) by {
      forall k | 0 <= k < |s|
        ensures IsSpace(s[k])
      {
        if k < |u.firstName| {
          assert s[k] == u.firstName[k];
        } else if k > |u.firstName| {
          assert s[k] == u.lastName[k - |u.firstName| - 1];
        }
      }
    }
  }
}

=== FILE: booking_validators.dfy ===
/** booking/validators.py: the CEP (Brazilian postal code) pattern and the
    Brazilian state code check. Each only accepts or raises; neither
    rewrites the value it checks. */
module BookingValidators {
  import opened Results
  import opened Text

  /** A Django `ValidationError`: its code and its rendered message. */
  datatype ValidationError = ValidationError(code: string, message: string)

  /** One position of an anchored pattern: `\d`, or a literal character. */
  datatype Atom = Digit | Lit(c: char)

  predicate AtomMatches(a: Atom, c: char)
  {
    match a
    case Digit => IsDigit(c)
    case Lit(l) => c == l
  }

  /** `^p$` for a pattern made of single-character atoms, matched left to
      right. */
  predicate FullMatch(p: seq<Atom>, s: string)
    decreases |p|
  {
    if p == [] then s == []
    else s != [] && AtomMatches(p[0], s[0]) && FullMatch(p[1..], s[1..])
  }

  /** A pattern of single-character atoms matches exactly the strings of
      its length whose characters match position by position. */
  lemma {:induction false} FullMatchPositions(p: seq<Atom>, s: string)
    ensures FullMatch(p, s) <==> |s| == |p| && forall k :: 0 <= k < |p| ==> AtomMatches(p[k], s[k])
    decreases |p|
  {
    if p != [] && s != [] {
      FullMatchPositions(p[1..], s[1..]);
      if |s| == |p| && forall k :: 0 <= k < |p| ==> AtomMatches(p[k], s[k]) {
        assert forall k :: 0 <= k < |p| - 1 ==> p[1..][k] == p[k + 1] && s[1..][k] == s[k + 1];
      }
      if FullMatch(p, s) {
        forall k | 0 <= k < |p|
          ensures AtomMatches(p[k], s[k])
        {
          if k > 0 {
            assert p[1..][k - 1] == p[k] && s[1..][k - 1] == s[k];
          }
        }
      }
    }
  }

  /** `^\d{5}-\d{3}$`. */
  const CepPattern: seq<Atom> := [Digit, Digit, Digit, Digit, Digit, Lit('-'), Digit, Digit, Digit]

  const CepMessage: string := "CEP deve estar no formato: XXXXX-XXX (ex: 17607-140)"

  /** `cep_validator`: five digits, a hyphen, three digits, and nothing
      else. */
  function CepValidator(value: string): (r: Outcome<ValidationError>)
    ensures r == Pass <==> |value| == 9 && value[5] == '-'
                           && forall k :: 0 <= k < 9 && k != 5 ==> IsDigit(value[k])
    ensures r.Fail? ==> r.error == ValidationError("invalid_cep", CepMessage)
  {
    FullMatchPositions(CepPattern, value);
    if FullMatch(CepPattern, value) then Pass
    else Fail(ValidationError("invalid_cep", CepMessage))
  }

  /** The codes of the 26 states and the Federal District, in the order the
      validator lists them. */
  const BrazilianStates: seq<string> := [
    "AC", "AL", "AP", "AM", "BA", "CE", "DF", "ES", "GO", "MA",
    "MT", "MS", "MG", "PA", "PB", "PR", "PE", "PI", "RJ", "RN",
    "RS", "RO", "RR", "SC", "SP", "SE", "TO"]

  /** 27 codes, each two upper-case ASCII letters, none repeated. */
  lemma StatesShape()
    ensures |BrazilianStates| == 27
    ensures forall k :: 0 <= k < |BrazilianStates| ==>
              |BrazilianStates[k]| == 2
              && 'A' <= BrazilianStates[k][0] <= 'Z' && 'A' <= BrazilianStates[k][1] <= 'Z'
    ensures forall i, j :: 0 <= i < j < |BrazilianStates| ==> BrazilianStates[i] != BrazilianStates[j]
  {
  }

  /** The `invalid_state` message, with the offending value at its head. */
  function StateMessage(value: string): (m: string)
    ensures IsPrefix(value, m)
  {
    value + " n\U{E3}o \U{E9} uma sigla v\U{E1}lida de estado brasileiro. Use siglas como: SP, RJ, MG, etc."
  }

  /** `validate_brazilian_state`: the upper-cased value must be one of the
      listed codes. */
  function ValidateBrazilianState(value: string): (r: Outcome<ValidationError>)
    ensures r == Pass ==> |value| == 2 && !IsSpace(value[0]) && !IsSpace(value[1])
    ensures r == Pass <==> Upper(value) in BrazilianStates
    ensures r.Fail? ==> r.error.code == "invalid_state" && Contains(r.error.message, value)
  {
    StatesShape();
    if Upper(value) in BrazilianStates then Pass
    else
      ContainsAt(StateMessage(value), value, 0);
      Fail(ValidationError("invalid_state", StateMessage(value)))
  }

  /** The check ignores the case of ASCII letters: a value and its
      upper-cased or lower-cased form are accepted alike. */
  lemma {:induction false} StateCaseInsensitive(value: string)
    ensures ValidateBrazilianState(Upper(value)).Pass? <==> ValidateBrazilianState(value).Pass?
    ensures ValidateBrazilianState(Lower(value)).Pass? <==> ValidateBrazilianState(value).Pass?
  {
    UpperIdempotent(value);
    assert Upper(Lower(value)) == Upper(value) by {
      forall k | 0 <= k < |value|
        ensures Upper(Lower(value))[k] == Upper(value)[k]
      {
      }
    }
  }

  /** Cases from the validator's own tests: accepted postal codes. */
  lemma AcceptedCeps()
    ensures CepValidator("12345-678") == Pass && CepValidator("00000-000") == Pass
  {
    var a, b := "12345-678", "00000-000";
    assert a[5] == '-' && b[5] == '-';
    forall k | 0 <= k < 9 && k != 5
      ensures IsDigit(a[k]) && IsDigit(b[k])
    {
    }
  }

  /** Cases from the validator's own tests: refused postal codes. */
  lemma RefusedCeps()
    ensures CepValidator("12345678").Fail? && CepValidator("1234-678").Fail?
    ensures CepValidator("12345 678").Fail? && CepValidator("12.345-678").Fail? && CepValidator("").Fail?
  {
    assert !IsDigit(' ') && !IsDigit('.');
  }

  /** Cases from the validator's own tests: lower-case codes are accepted. */
  lemma AcceptedStates()
    ensures ValidateBrazilianState("SP") == Pass && ValidateBrazilianState("sp") == Pass
  {
    assert Upper("sp") == "SP" == Upper("SP");
    assert BrazilianStates[24] == "SP";
  }

  /** Cases from the validator's own tests: surrounding spaces and other
      lengths are refused. */
  lemma RefusedStates()
    ensures ValidateBrazilianState("SP ").Fail? && ValidateBrazilianState(" SP").Fail?
    ensures ValidateBrazilianState("ABC").Fail? && ValidateBrazilianState("").Fail?
  {
  }

  /** An unknown code is refused with `invalid_state` and a message that
      names it. */
  lemma UnknownStateMessage()
    ensures ValidateBrazilianState("XX") == Fail(ValidationError("invalid_state", StateMessage("XX")))
  {
    assert Upper("XX") == "XX";
    StatesShape();
    assert forall k :: 0 <= k < |BrazilianStates| ==> BrazilianStates[k][0] != 'X';
  }
}

=== FILE: booking_views.dfy ===
/** booking/views.py: the room availability check with its alternative-slot
    suggester, the booking querysets each user may see, the confirm and
    cancel actions, and the room occupancy statistics. "Now" and the
    requesting principal are parameters; times are integer seconds and a
    day is its day number. */
module BookingViews {
  import opened Results
  import opened Lists
  import opened Text
  import opened Fields
  import opened CoreModels
  import opened CoreManagers
  import opened Http
  import opened BookingModels
  import opened BookingPermissions
  import opened BookingFilters
  import opened BookingSerializers

  const Hour := 3600
  const Day := 86400

  /** The datetime at `minutes` past midnight of day `day`. */
  function At(day: int, minutes: int): int
  {
    day * Day + minutes * 60
  }

  /** Business hours: 08:00 to 18:00 of the day. */
  function DayStart(day: int): int
  {
    day * Day + 8 * Hour
  }

  function DayEnd(day: int): int
  {
    day * Day + 18 * Hour
  }

  function Max(a: int, b: int): int
  {
    if a < b then b else a
  }

  function StartOf(b: BookingRow): int
  {
    b.start
  }

  // ---------------------------------------------------------------------
  // `_get_alternative_times`

  /** A suggested slot `[start, end)`. */
  datatype Slot = Slot(start: int, end: int)

  /** The slots the cursor walk proposes from cursor `c` over the bookings
      `bs`: before each booking, the slot of length `d` at the cursor if it
      ends by that booking's start, the cursor then moving to the later of
      itself and the booking's end; after the last booking, the slot at the
      cursor if it ends by `dayEnd`. */
  function Candidates(c: int, bs: seq<BookingRow>, d: int, dayEnd: int): seq<Slot>
    decreases |bs|
  {
    if bs == [] then (if c + d <= dayEnd then [Slot(c, c + d)] else [])
    else (if c + d <= bs[0].start then [Slot(c, c + d)] else [])
         + Candidates(Max(c, bs[0].end), bs[1..], d, dayEnd)
  }

  /** At most one slot per booking plus the trailing one; every slot lasts
      `d` and starts at or after the cursor. */
  lemma {:induction false} CandidatesShape(c: int, bs: seq<BookingRow>, d: int, dayEnd: int)
    ensures |Candidates(c, bs, d, dayEnd)| <= |bs| + 1
    ensures forall s :: s in Candidates(c, bs, d, dayEnd) ==> s.end == s.start + d && s.start >= c
    decreases |bs|
  {
    if bs != [] {
      CandidatesShape(Max(c, bs[0].end), bs[1..], d, dayEnd);
    }
  }

  /** Each slot ends by the start of every later one. */
  predicate InOrder(cs: seq<Slot>)
  {
    forall i, j :: 0 <= i < j < |cs| ==> cs[i].end <= cs[j].start
  }

  /** A slot that ends by the start of every slot of an ordered list can be
      put in front of it. */
  lemma PrependInOrder(x: Slot, rest: seq<Slot>)
    requires InOrder(rest)
    requires forall s :: s in rest ==> x.end <= s.start
    ensures InOrder([x] + rest)
  {
    var cs := [x] + rest;
    forall i, j | 0 <= i < j < |cs| ensures cs[i].end <= cs[j].start {
      assert cs[j] == rest[j - 1];
      if i > 0 {
        assert cs[i] == rest[i - 1];
      } else {
        assert rest[j - 1] in rest;
      }
    }
  }

  /** With bookings that do not end before they start, the slots come out
      in order, each ending by the start of the next. */
  lemma {:induction false} CandidatesOrdered(c: int, bs: seq<BookingRow>, d: int, dayEnd: int)
    requires forall k :: 0 <= k < |bs| ==> bs[k].start <= bs[k].end
    ensures InOrder(Candidates(c, bs, d, dayEnd))
    decreases |bs|
  {
    if bs != [] {
      var c' := Max(c, bs[0].end);
      var rest := Candidates(c', bs[1..], d, dayEnd);
      assert forall k :: 0 <= k < |bs[1..]| ==> bs[1..][k].start <= bs[1..][k].end by {
        forall k | 0 <= k < |bs[1..]| ensures bs[1..][k].start <= bs[1..][k].end {
          assert bs[1..][k] == bs[k + 1];
        }
      }
      CandidatesOrdered(c', bs[1..], d, dayEnd);
      CandidatesShape(c', bs[1..], d, dayEnd);
      if c + d <= bs[0].start {
        PrependInOrder(Slot(c, c + d), rest);
        assert Candidates(c, bs, d, dayEnd) == [Slot(c, c + d)] + rest;
      } else {
        assert Candidates(c, bs, d, dayEnd) == rest;
      }
    }
  }

  /** Over bookings sorted by start, no slot overlaps any booking: a slot
      before a booking ends by its start, hence by every later start, and
      the cursor has passed the end of every booking already walked. */
  lemma {:induction false} CandidatesAvoidBookings(c: int, bs: seq<BookingRow>, d: int, dayEnd: int)
    requires SortedBy(bs, StartOf)
    ensures forall s, k :: s in Candidates(c, bs, d, dayEnd) && 0 <= k < |bs| ==>
              !Overlaps(s.start, s.end, bs[k].start, bs[k].end)
    decreases |bs|
  {
    if bs != [] {
      var c' := Max(c, bs[0].end);
      var tail := bs[1..];
      assert SortedBy(tail, StartOf) by {
        forall i, j | 0 <= i < j < |tail| ensures StartOf(tail[i]) <= StartOf(tail[j]) {
          assert tail[i] == bs[i + 1] && tail[j] == bs[j + 1];
        }
      }
      CandidatesAvoidBookings(c', tail, d, dayEnd);
      CandidatesShape(c', tail, d, dayEnd);
      forall s, k | s in Candidates(c, bs, d, dayEnd) && 0 <= k < |bs|
        ensures !Overlaps(s.start, s.end, bs[k].start, bs[k].end)
      {
        if s !in Candidates(c', tail, d, dayEnd) {
          assert s == Slot(c, c + d) && c + d <= bs[0].start;
          assert StartOf(bs[0]) <= StartOf(bs[k]);
        } else if k > 0 {
          assert bs[k] == tail[k - 1];
        }
      }
    }
  }

  /** When every booking starts by `dayEnd`, no slot runs past it. */
  lemma {:induction false} CandidatesWithinDay(c: int, bs: seq<BookingRow>, d: int, dayEnd: int)
    requires forall k :: 0 <= k < |bs| ==> bs[k].start <= dayEnd
    ensures forall s :: s in Candidates(c, bs, d, dayEnd) ==> s.end <= dayEnd
    decreases |bs|
  {
    if bs != [] {
      CandidatesWithinDay(Max(c, bs[0].end), bs[1..], d, dayEnd);
    }
  }

  /** The slots proposed inside the walk are not checked against 18:00: a
      booking of the same day that starts after business hours lets a slot
      run past the end of the day. */
  lemma LateBookingLetsSlotPassDayEnd(a: BookingRow, b: BookingRow, day: int)
    requires a.start == At(day, 8 * 60) && a.end == At(day, 17 * 60 + 30)
    requires b.start == At(day, 20 * 60) && b.end == At(day, 21 * 60)
    ensures Candidates(DayStart(day), [a, b], Hour, DayEnd(day)) == [Slot(At(day, 17 * 60 + 30), At(day, 18 * 60 + 30))]
    ensures At(day, 18 * 60 + 30) > DayEnd(day)
  {
    var ds := DayStart(day);
    assert Max(ds, a.end) == a.end;
    assert [a, b][1..] == [b];
    assert Candidates(ds, [a, b], Hour, DayEnd(day)) == Candidates(a.end, [b], Hour, DayEnd(day));
    assert Candidates(a.end, [b], Hour, DayEnd(day)) == [Slot(a.end, a.end + Hour)] + Candidates(b.end, [], Hour, DayEnd(day));
  }

  /** One booking from 10:00 to 11:00 and a one-hour request: exactly the
      slots 08:00-09:00 and 11:00-12:00. */
  lemma OneBookingExample(b: BookingRow, day: int)
    requires b.start == At(day, 10 * 60) && b.end == At(day, 11 * 60)
    ensures Candidates(DayStart(day), [b], Hour, DayEnd(day))
            == [Slot(At(day, 8 * 60), At(day, 9 * 60)), Slot(At(day, 11 * 60), At(day, 12 * 60))]
  {
  }

  /** The day's bookings of a room that hold their slot, ordered by start. */
  function DayBookings(rows: seq<BookingRow>, roomId: Id, day: int): (r: seq<BookingRow>)
    ensures SortedBy(r, StartOf)
    ensures forall b :: b in r <==> b in rows && b.room.id == roomId && b.dateBooking == day && HoldsSlot(b)
  {
    var sameDay := Filter(rows, (b: BookingRow) => b.room.id == roomId && b.dateBooking == day && HoldsSlot(b));
    SortByMembers(sameDay, StartOf);
    SortBy(sameDay, StartOf)
  }

  /** The loop of `_get_alternative_times`: the cursor starts at `start`;
      per booking, the slot at the cursor is kept if it ends by the
      booking's start, and the cursor moves to the later of itself and the
      booking's end; finally the slot at the cursor is kept if it ends by
      `dayEnd`. */
  method Walk(bs: seq<BookingRow>, start: int, d: int, dayEnd: int) returns (all: seq<Slot>)
    ensures all == Candidates(start, bs, d, dayEnd)
  {
    all := [];
    var cursor := start;
    var i := 0;
    while i < |bs|
      invariant 0 <= i <= |bs|
      invariant all + Candidates(cursor, bs[i..], d, dayEnd) == Candidates(start, bs, d, dayEnd)
    {
      assert bs[i..][0] == bs[i] && bs[i..][1..] == bs[i + 1..];
      if cursor + d <= bs[i].start {
        all := all + [Slot(cursor, cursor + d)];
      }
      cursor := Max(cursor, bs[i].end);
      i := i + 1;
    }
    if cursor + d <= dayEnd {
      all := all + [Slot(cursor, cursor + d)];
    }
  }

  /** The suggestions for a request of `[s, e)` on day `day`: the first
      three slots of the walk from 08:00, with the requested duration, over
      the room's bookings of that day. */
  function Suggested(rows: seq<BookingRow>, roomId: Id, day: int, s: int, e: int): seq<Slot>
  {
    Take(Candidates(DayStart(day), DayBookings(rows, roomId, day), e - s, DayEnd(day)), 3)
  }

  /** `_get_alternative_times`: walks the room's bookings of the day in
      start order from 08:00 with the requested duration, and keeps the
      first three slots. */
  method AlternativeTimes(rows: seq<BookingRow>, roomId: Id, day: int, requestedStart: int, requestedEnd: int)
    returns (slots: seq<Slot>)
    ensures slots == Suggested(rows, roomId, day, requestedStart, requestedEnd)
  {
    var bs := DayBookings(rows, roomId, day);
    var all := Walk(bs, DayStart(day), requestedEnd - requestedStart, DayEnd(day));
    slots := Take(all, 3);
    WalkSuggests(rows, roomId, day, requestedStart, requestedEnd, all);
  }

  /** The first three slots of the walk over the day's bookings are the
      suggestions. */
  lemma WalkSuggests(rows: seq<BookingRow>, roomId: Id, day: int, s: int, e: int, all: seq<Slot>)
    requires all == Candidates(DayStart(day), DayBookings(rows, roomId, day), e - s, DayEnd(day))
    ensures Take(all, 3) == Suggested(rows, roomId, day, s, e)
  {
  }

  /** The first three slots of the walk over sorted bookings keep the
      shape and the avoidance of every slot of the walk. */
  lemma FirstThreeCandidates(c: int, bs: seq<BookingRow>, d: int, dayEnd: int)
    requires SortedBy(bs, StartOf)
    ensures var slots := Take(Candidates(c, bs, d, dayEnd), 3);
            && |slots| <= 3
            && (forall s :: s in slots ==> s.end - s.start == d && s.start >= c)
            && (forall s, k :: s in slots && 0 <= k < |bs| ==> !Overlaps(s.start, s.end, bs[k].start, bs[k].end))
  {
    var all := Candidates(c, bs, d, dayEnd);
    CandidatesShape(c, bs, d, dayEnd);
    CandidatesAvoidBookings(c, bs, d, dayEnd);
    assert forall s :: s in Take(all, 3) ==> s in all;
  }

  // ---------------------------------------------------------------------
  // `check_availability`

  /** One entry of `conflicting_bookings`. */
  datatype ConflictItem = ConflictItem(id: Id, start: int, end: int, manager: string, status: string)

  /** One entry of `suggestions`, as `HH:MM` strings. */
  datatype Suggestion = Suggestion(startTime: string, endTime: string)

  /** The availability report; conflicts and suggestions are present only
      when the room is taken, the message only when it is free. */
  datatype Report = Report(
    available: bool,
    roomId: Id,
    roomName: string,
    date: string,
    startTime: string,
    endTime: string,
    conflicts: seq<ConflictItem>,
    suggestions: seq<Suggestion>,
    message: Option<string>)

  datatype CheckResult =
    | Refused(response: Response)
    | BadInput(errors: map<string, InputError>)
    | Checked(report: Report)

  const AvailableMessage := "Sala dispon\U{ED}vel no hor\U{E1}rio solicitado!"

  function ConflictItems(cs: seq<BookingRow>): (r: seq<ConflictItem>)
    ensures |r| == |cs|
    ensures forall k :: 0 <= k < |cs| ==>
              r[k].id == cs[k].id && r[k].start == cs[k].start && r[k].end == cs[k].end
              && r[k].manager == cs[k].manager.username && r[k].status == StatusCode(cs[k].status)
  {
    seq(|cs|, k requires 0 <= k < |cs| => ConflictItem(cs[k].id, cs[k].start, cs[k].end, cs[k].manager.username, StatusCode(cs[k].status)))
  }

  /** `strftime('%H:%M')` of each slot's ends. */
  function Render(slots: seq<Slot>): (r: seq<Suggestion>)
    ensures |r| == |slots|
    ensures forall k :: 0 <= k < |r| ==>
              ValidTime(r[k].startTime) && TimeMinutes(r[k].startTime) == (slots[k].start % Day) / 60
              && ValidTime(r[k].endTime) && TimeMinutes(r[k].endTime) == (slots[k].end % Day) / 60
  {
    seq(|slots|, k requires 0 <= k < |slots| => Suggestion(FormatClock(slots[k].start), FormatClock(slots[k].end)))
  }

  /** `self.get_object()` on the active rooms. */
  function FindRoom(rooms: seq<Room>, pk: int): (r: Option<Room>)
    ensures r.Some? ==> r.value in rooms && r.value.id == pk && r.value.isActive
    ensures r.None? <==> forall k :: 0 <= k < |rooms| ==> !(rooms[k].id == pk && rooms[k].isActive)
  {
    Find(rooms, (x: Room) => x.id == pk && x.isActive)
  }

  /** The report for a found room and a validated query: the room is taken
      when some stored booking conflicts with the requested period of that
      day; then the conflicts and up to three suggestions are listed. */
  function AvailabilityReport(room: Room, q: AvailabilityQuery, rows: seq<BookingRow>): Report
    requires ValidDate(q.date)
  {
    var day := DayOf(q.date);
    var s, e := At(day, q.startMinutes), At(day, q.endMinutes);
    var cs := Conflicts(rows, room.id, s, e, None);
    if cs != [] then
      Report(false, room.id, room.name, q.date, q.startTime, q.endTime, ConflictItems(cs),
             Render(Suggested(rows, room.id, day, s, e)), None)
    else
      Report(true, room.id, room.name, q.date, q.startTime, q.endTime, [], [], Some(AvailableMessage))
  }

  /** The report says "available" exactly when no stored booking of the
      room that holds its slot overlaps the requested period; otherwise it
      lists every such booking, and at most three suggestions, each of the
      requested length, starting from 08:00 and overlapping none of the
      day's bookings of the room. */
  lemma AvailabilityReportMeaning(room: Room, q: AvailabilityQuery, rows: seq<BookingRow>)
    requires ValidDate(q.date)
    ensures var r := AvailabilityReport(room, q, rows);
            var day := DayOf(q.date);
            var s, e := At(day, q.startMinutes), At(day, q.endMinutes);
            && (r.available <==> forall b :: b in rows ==> !IsConflict(b, room.id, s, e))
            && (r.available <==> r.message.Some?)
            && r.roomId == room.id && r.date == q.date && r.startTime == q.startTime && r.endTime == q.endTime
            && |r.conflicts| == |Conflicts(rows, room.id, s, e, None)|
            && (forall k :: 0 <= k < |r.conflicts| ==> exists b :: b in rows && IsConflict(b, room.id, s, e) && b.id == r.conflicts[k].id)
            && |r.suggestions| <= 3
  {
    var day := DayOf(q.date);
    var s, e := At(day, q.startMinutes), At(day, q.endMinutes);
    ConflictsOfNewBooking(rows, room.id, s, e);
  }

  /** With nothing excluded, the conflicts are empty exactly when no row
      conflicts, and each one listed is a conflicting row. */
  lemma ConflictsOfNewBooking(rows: seq<BookingRow>, roomId: Id, s: int, e: int)
    ensures var cs := Conflicts(rows, roomId, s, e, None);
            && (cs == [] <==> forall b :: b in rows ==> !IsConflict(b, roomId, s, e))
            && (forall k :: 0 <= k < |cs| ==> cs[k] in rows && IsConflict(cs[k], roomId, s, e))
  {
    var cs := Conflicts(rows, roomId, s, e, None);
    if cs == [] {
      forall b | b in rows ensures !IsConflict(b, roomId, s, e) {
        assert NotExcluded(b, None);
      }
    } else {
      assert cs[0] in cs;
    }
    forall k | 0 <= k < |cs| ensures cs[k] in rows && IsConflict(cs[k], roomId, s, e) {
      assert cs[k] in cs;
    }
  }

  /** `check_availability`. The view's `get_permissions` gives every action
      other than `list`, `retrieve` and `stats` the `IsAdminUser`
      permission, so the `IsAuthenticated` of the decorator does not apply.
      The room is looked up first (404), then the query is validated (400),
      then the report is built. */
  method CheckAvailability(req: Requester, rooms: seq<Room>, pk: int, rows: seq<BookingRow>,
                           date: Option<string>, startTime: Option<string>, endTime: Option<string>)
    returns (r: CheckResult)
    ensures !IsAdminUser(req) ==> r == Refused(Deny(req))
    ensures IsAdminUser(req) && FindRoom(rooms, pk).None? ==> r == Refused(NotFound404)
    ensures IsAdminUser(req) && FindRoom(rooms, pk).Some? ==>
              var v := ValidateAvailabilityInput(date, startTime, endTime);
              (v.Err? ==> r == BadInput(v.error))
              && (v.Ok? ==> r == Checked(AvailabilityReport(FindRoom(rooms, pk).value, v.value, rows)))
  {
    if !IsAdminUser(req) {
      return Refused(Deny(req));
    }
    var found := FindRoom(rooms, pk);
    if found.None? {
      return Refused(NotFound404);
    }
    var room := found.value;
    var v := ValidateAvailabilityInput(date, startTime, endTime);
    if v.Err? {
      return BadInput(v.error);
    }
    var rep := BuildReport(room, v.value, rows);
    r := Checked(rep);
  }

  /** The report of `check_availability` once the room is found and the
      query is valid, with the suggestions computed by the cursor walk. */
  method BuildReport(room: Room, q: AvailabilityQuery, rows: seq<BookingRow>) returns (rep: Report)
    requires ValidDate(q.date)
    ensures rep == AvailabilityReport(room, q, rows)
  {
    var day := DayOf(q.date);
    var s, e := At(day, q.startMinutes), At(day, q.endMinutes);
    var cs := Conflicts(rows, room.id, s, e, None);
    if cs != [] {
      var slots := AlternativeTimes(rows, room.id, day, s, e);
      return Report(false, room.id, room.name, q.date, q.startTime, q.endTime,
                    ConflictItems(cs), Render(slots), None);
    }
    return Report(true, room.id, room.name, q.date, q.startTime, q.endTime, [], [], Some(AvailableMessage));
  }

  /** The availability check and the booking validation agree: a period is
      reported free exactly when a new booking of it passes `validate`. */
  lemma AvailabilityAgreesWithValidate(rows: seq<BookingRow>, room: Room, manager: User, day: int, s: int, e: int)
    ensures ValidateBooking(BookingAttrs(Some(room), Some(manager), Some(day), Some(s), Some(e)), rows, None).Ok?
            <==> Conflicts(rows, room.id, s, e, None) == []
  {
  }

  // ---------------------------------------------------------------------
  // Querysets of `BookingViewSet`

  /** `get_queryset`: the active bookings; all of them for staff and
      superusers, otherwise those the user manages. */
  function VisibleBookings(user: User, rows: seq<BookingRow>): (r: seq<BookingRow>)
    ensures forall b :: b in r <==> b in rows && b.isActive
                                    && (user.isSuperuser || user.isStaff || b.manager.id == user.id)
  {
    var active := ActiveOnly(rows, (b: BookingRow) => b.isActive);
    if user.isSuperuser || user.isStaff then active
    else Filter(active, (b: BookingRow) => b.manager.id == user.id)
  }

  /** `list`: authenticated users only, then the filter set over the
      visible bookings. */
  function ListBookings(req: Requester, rows: seq<BookingRow>, p: FilterParams): (r: Result<seq<BookingRow>, Response>)
    ensures req.Anonymous? <==> r == Err(Unauthorized401)
    ensures r.Ok? ==> r.value == ApplyFilters(VisibleBookings(req.user, rows), p)
  {
    if req.Anonymous? then Err(Deny(req))
    else Ok(ApplyFilters(VisibleBookings(req.user, rows), p))
  }

  /** Whatever the query parameters, a user without staff or superuser
      rights lists only active bookings they manage. */
  lemma ListShowsOnlyOwn(req: Requester, rows: seq<BookingRow>, p: FilterParams)
    requires req.Authenticated? && !req.user.isStaff && !req.user.isSuperuser
    ensures forall b :: b in ListBookings(req, rows, p).value ==> b.manager.id == req.user.id && b.isActive
  {
  }

  /** Staff see every active booking, and with no parameters the list is
      exactly the active bookings in stored order. */
  lemma StaffListAll(req: Requester, rows: seq<BookingRow>)
    requires req.Authenticated? && req.user.isStaff
    ensures ListBookings(req, rows, NoParams) == Ok(ActiveOnly(rows, (b: BookingRow) => b.isActive))
  {
    NoParamsKeepsAll(VisibleBookings(req.user, rows));
  }

  /** `pending`: the pending bookings of the visible queryset; the filter
      set is not applied. */
  function PendingBookings(req: Requester, rows: seq<BookingRow>): (r: Result<seq<BookingRow>, Response>)
    ensures req.Anonymous? <==> r == Err(Unauthorized401)
    ensures r.Ok? ==> forall b :: b in r.value <==> b in VisibleBookings(req.user, rows) && b.status == Pending
  {
    if req.Anonymous? then Err(Deny(req))
    else Ok(Filter(VisibleBookings(req.user, rows), (b: BookingRow) => b.status == Pending))
  }

  /** The pending list of a user without staff or superuser rights holds
      exactly their active pending bookings. */
  lemma PendingOfOwnScope(req: Requester, rows: seq<BookingRow>, b: BookingRow)
    requires req.Authenticated? && !req.user.isStaff && !req.user.isSuperuser
    requires b in rows
    ensures b in PendingBookings(req, rows).value <==> b.isActive && b.status == Pending && b.manager.id == req.user.id
  {
  }

  // ---------------------------------------------------------------------
  // `confirm` and `cancel`

  const ConfirmRefusal := "Apenas reservas pendentes podem ser confirmadas."
  const CancelRefusal := "Esta reserva j\U{E1} est\U{E1} cancelada."

  /** `confirm`: staff only; the active booking must exist and be pending. */
  method ConfirmAction(req: Requester, t: BookingTable, pk: Id, now: int) returns (resp: Response)
    requires t.Valid()
    modifies t`rows
    ensures t.Valid()
    ensures !IsAdminUser(req) ==> resp == Deny(req) && t.rows == old(t.rows)
    ensures IsAdminUser(req) && !(pk in old(t.rows) && old(t.rows)[pk].isActive) ==>
              resp == NotFound404 && t.rows == old(t.rows)
    ensures IsAdminUser(req) && pk in old(t.rows) && old(t.rows)[pk].isActive && old(t.rows)[pk].status != Pending ==>
              resp == BadRequest400(ConfirmRefusal) && t.rows == old(t.rows)
    ensures IsAdminUser(req) && pk in old(t.rows) && old(t.rows)[pk].isActive && old(t.rows)[pk].status == Pending ==>
              resp == Ok200 && t.rows == old(t.rows)[pk := ConfirmedRow(old(t.rows)[pk], req.user, now)]
  {
    if !IsAdminUser(req) {
      return Deny(req);
    }
    if !(pk in t.rows && t.rows[pk].isActive) {
      return NotFound404;
    }
    if t.rows[pk].status != Pending {
      return BadRequest400(ConfirmRefusal);
    }
    var booking := new Booking.Load(t.rows[pk]);
    ConfirmPendingSaves(t.rows, t.rows[pk], req.user, now);
    var saved := booking.Confirm(req.user, now, t);
    resp := Ok200;
  }

  /** `BookingCancelSerializer`: `reason` is optional, but when present it
      may be neither null nor blank, and it is stripped. */
  function CleanReason(x: Raw): (r: Result<Option<string>, InputError>)
    ensures x.Missing? <==> r == Ok(None)
    ensures x.Null? ==> r == Err(NullValue)
    ensures x.Given? ==> (r.Ok? <==> Strip(x.text) != "")
    ensures x.Given? && r.Ok? ==> r.value == Some(Strip(x.text)) && Truthy(r.value)
  {
    if x.Missing? then Ok(None)
    else
      var c := CleanChar(x, 0);
      if c.Ok? then Ok(Some(c.value)) else Err(c.error)
  }

  /** `cancel`: staff only; the active booking must exist and not be
      cancelled already (a completed one may be cancelled); then the payload
      is validated and the booking cancelled. */
  method CancelAction(req: Requester, t: BookingTable, pk: Id, reason: Raw, now: int) returns (resp: Response)
    requires t.Valid()
    modifies t`rows
    ensures t.Valid()
    ensures !IsAdminUser(req) ==> resp == Deny(req) && t.rows == old(t.rows)
    ensures IsAdminUser(req) && !(pk in old(t.rows) && old(t.rows)[pk].isActive) ==>
              resp == NotFound404 && t.rows == old(t.rows)
    ensures IsAdminUser(req) && pk in old(t.rows) && old(t.rows)[pk].isActive && old(t.rows)[pk].status == Cancelled ==>
              resp == BadRequest400(CancelRefusal) && t.rows == old(t.rows)
    ensures IsAdminUser(req) && pk in old(t.rows) && old(t.rows)[pk].isActive && old(t.rows)[pk].status != Cancelled ==>
              (CleanReason(reason).Err? ==> resp == Invalid400({"reason"}) && t.rows == old(t.rows))
              && (CleanReason(reason).Ok? ==>
                    resp == Ok200
                    && t.rows == old(t.rows)[pk := CancelledRow(old(t.rows)[pk], req.user, now, CleanReason(reason).value)])
  {
    if !IsAdminUser(req) {
      return Deny(req);
    }
    if !(pk in t.rows && t.rows[pk].isActive) {
      return NotFound404;
    }
    if t.rows[pk].status == Cancelled {
      return BadRequest400(CancelRefusal);
    }
    var cleaned := CleanReason(reason);
    if cleaned.Err? {
      return Invalid400({"reason"});
    }
    var booking := new Booking.Load(t.rows[pk]);
    var saved := booking.Cancel(req.user, now, cleaned.value, t);
    resp := Ok200;
  }

  // ---------------------------------------------------------------------
  // Room statistics

  /** A confirmed booking of the room whose closed interval `[start, end]`
      contains `now`; the booking's own `is_active` is not consulted. */
  predicate Occupies(b: BookingRow, roomId: Id, now: int)
  {
    b.room.id == roomId && b.status == Confirmed && b.start <= now <= b.end
  }

  predicate RoomOccupied(r: Room, bookings: seq<BookingRow>, now: int)
  {
    exists k :: 0 <= k < |bookings| && Occupies(bookings[k], r.id, now)
  }

  datatype RoomCounts = RoomCounts(total: int, available: int, occupied: int)

  /** Counts over the active rooms of `rooms`: all of them, the occupied
      ones, and the difference. */
  function CountRooms(rooms: seq<Room>, bookings: seq<BookingRow>, now: int): (c: RoomCounts)
    ensures c.total == |ActiveOnly(rooms, (r: Room) => r.isActive)|
    ensures 0 <= c.occupied <= c.total && c.available == c.total - c.occupied
  {
    var active := ActiveOnly(rooms, (r: Room) => r.isActive);
    var occupied := Filter(active, (r: Room) => RoomOccupied(r, bookings, now));
    RoomCounts(|active|, |active| - |occupied|, |occupied|)
  }

  /** `available_rooms` counts exactly the active rooms no confirmed booking
      occupies now. */
  lemma AvailableAreUnoccupied(rooms: seq<Room>, bookings: seq<BookingRow>, now: int)
    ensures var active := ActiveOnly(rooms, (r: Room) => r.isActive);
            CountRooms(rooms, bookings, now).available == |Filter(active, (r: Room) => !RoomOccupied(r, bookings, now))|
  {
    var active := ActiveOnly(rooms, (r: Room) => r.isActive);
    FilterSplit(active, (r: Room) => RoomOccupied(r, bookings, now), (r: Room) => !RoomOccupied(r, bookings, now));
  }

  /** Occupancy tests a closed interval: a confirmed booking occupies its
      room at its end instant too, even when the booking is inactive; a
      pending one never does. */
  lemma OccupancyCases(b: BookingRow, now: int)
    ensures b.status == Confirmed && b.start <= now && b.end == now ==> RoomOccupied(b.room, [b], now)
    ensures b.status == Confirmed && !b.isActive && b.start <= now <= b.end ==> RoomOccupied(b.room, [b], now)
    ensures b.status != Confirmed ==> !RoomOccupied(b.room, [b], now)
  {
    if b.status == Confirmed && b.start <= now <= b.end {
      assert Occupies([b][0], b.room.id, now);
    }
  }

  /** The rooms of a location (`location.rooms`); `CountRooms` keeps the
      active ones. */
  function RoomsAt(rooms: seq<Room>, loc: Id): (r: seq<Room>)
    ensures forall x :: x in r <==> x in rooms && x.location.id == loc
  {
    Filter(rooms, (x: Room) => x.location.id == loc)
  }

  datatype LocationStats = LocationStats(locationId: Id, locationName: string, counts: RoomCounts)

  function LocationStatsOf(loc: LocationRow, rooms: seq<Room>, bookings: seq<BookingRow>, now: int): (s: LocationStats)
    ensures s.locationId == loc.id && s.locationName == loc.name
    ensures s.counts == CountRooms(RoomsAt(rooms, loc.id), bookings, now)
  {
    LocationStats(loc.id, loc.name, CountRooms(RoomsAt(rooms, loc.id), bookings, now))
  }

  /** The `by_location` loop of `stats`: one entry per active location, in
      order. */
  method ByLocation(locations: seq<LocationRow>, rooms: seq<Room>, bookings: seq<BookingRow>, now: int)
    returns (stats: seq<LocationStats>)
    ensures var active := ActiveOnly(locations, (l: LocationRow) => l.isActive);
            |stats| == |active| && forall k :: 0 <= k < |stats| ==> stats[k] == LocationStatsOf(active[k], rooms, bookings, now)
  {
    var active := ActiveOnly(locations, (l: LocationRow) => l.isActive);
    stats := [];
    var i := 0;
    while i < |active|
      invariant 0 <= i <= |active| && |stats| == i
      invariant forall k :: 0 <= k < i ==> stats[k] == LocationStatsOf(active[k], rooms, bookings, now)
    {
      stats := stats + [LocationStatsOf(active[i], rooms, bookings, now)];
      i := i + 1;
    }
  }

  datatype GlobalStats = GlobalStats(counts: RoomCounts, byLocation: seq<LocationStats>)

  /** `stats`: for `IsManagerOrAdmin` (the view's `get_permissions` names it
      for this action). */
  method RoomStats(req: Requester, locations: seq<LocationRow>, rooms: seq<Room>, bookings: seq<BookingRow>, now: int)
    returns (r: Result<GlobalStats, Response>)
    ensures !IsManagerOrAdmin(req) <==> r == Err(Deny(req))
    ensures r.Ok? ==> r.value.counts == CountRooms(rooms, bookings, now)
    ensures r.Ok? ==> var active := ActiveOnly(locations, (l: LocationRow) => l.isActive);
                      |r.value.byLocation| == |active|
                      && forall k :: 0 <= k < |active| ==> r.value.byLocation[k] == LocationStatsOf(active[k], rooms, bookings, now)
  {
    if !IsManagerOrAdmin(req) {
      return Err(Deny(req));
    }
    var byLocation := ByLocation(locations, rooms, bookings, now);
    r := Ok(GlobalStats(CountRooms(rooms, bookings, now), byLocation));
  }

  /** `rooms_stats`: the view's `get_permissions` gives this action
      `IsAdminUser`, so the `IsManagerOrAdmin` of the decorator does not
      apply; the location must be active (404 otherwise). */
  function LocationRoomStats(req: Requester, locations: seq<LocationRow>, pk: int, rooms: seq<Room>,
                             bookings: seq<BookingRow>, now: int): (r: Result<LocationStats, Response>)
    ensures !IsAdminUser(req) ==> r == Err(Deny(req))
    ensures IsAdminUser(req) ==>
              (r == Err(NotFound404) <==> forall k :: 0 <= k < |locations| ==> !(locations[k].id == pk && locations[k].isActive))
    ensures r.Ok? ==> r.value.locationId == pk
                      && r.value.counts.available + r.value.counts.occupied == r.value.counts.total
  {
    if !IsAdminUser(req) then Err(Deny(req))
    else
      var found := Find(locations, (l: LocationRow) => l.id == pk && l.isActive);
      if found.None? then Err(NotFound404)
      else Ok(LocationStatsOf(found.value, rooms, bookings, now))
  }

  /** A manager without staff rights may read the global statistics but not
      a location's. */
  lemma ManagerStatsAccess(u: User, locations: seq<LocationRow>, pk: int, rooms: seq<Room>, bookings: seq<BookingRow>, now: int)
    requires u.role == RoleManager && !u.isStaff
    ensures IsManagerOrAdmin(Authenticated(u))
    ensures LocationRoomStats(Authenticated(u), locations, pk, rooms, bookings, now) == Err(Forbidden403)
  {
  }

  /** For a location whose id is unique, `rooms_stats` reports the same
      numbers as that location's entry of `stats`. */
  lemma LocationStatsAgree(req: Requester, locations: seq<LocationRow>, loc: LocationRow, rooms: seq<Room>,
                           bookings: seq<BookingRow>, now: int)
    requires IsAdminUser(req) && loc in locations && loc.isActive
    requires forall k :: 0 <= k < |locations| && locations[k].id == loc.id ==> locations[k] == loc
    ensures LocationRoomStats(req, locations, loc.id, rooms, bookings, now) == Ok(LocationStatsOf(loc, rooms, bookings, now))
  {
  }
}

=== FILE: core_admin.dfy ===
/** core/admin.py: the `UserSessionAdmin` action that revokes the selected
    sessions one by one, counting them, and the two permissions that keep
    sessions read-only in the admin. */
module CoreAdmin {
  import opened Results
  import opened Lists
  import opened CoreModels
  import opened Http

  /** A selected session the action revokes: one not revoked yet. */
  predicate RevokeTarget(s: SessionRow, selected: set<Id>)
  {
    s.id in selected && !s.isRevoked
  }

  /** The rows after `revoke_sessions`: every selected session revoked,
      every other one as it was. */
  function RevokeAll(rows: seq<SessionRow>, selected: set<Id>): (r: seq<SessionRow>)
    ensures |r| == |rows|
  {
    RevokedUpTo(rows, selected, |rows|)
  }

  /** What the action leaves behind: every selected session is revoked,
      sessions outside the selection are untouched, and a session changes
      only in `is_revoked`; running it again changes nothing. */
  lemma RevokeAllMeaning(rows: seq<SessionRow>, selected: set<Id>)
    ensures var r := RevokeAll(rows, selected);
            && (forall k :: 0 <= k < |rows| && rows[k].id in selected ==> r[k].isRevoked)
            && (forall k :: 0 <= k < |rows| && rows[k].id !in selected ==> r[k] == rows[k])
            && (forall k :: 0 <= k < |rows| ==> r[k].(isRevoked := rows[k].isRevoked) == rows[k])
            && RevokeAll(r, selected) == r
  {
  }

  /** The number of sessions the action revokes: none exactly when the
      action leaves the rows as they were. */
  function TargetCount(rows: seq<SessionRow>, selected: set<Id>): (n: nat)
    ensures n <= |rows|
    ensures n == 0 <==> RevokeAll(rows, selected) == rows
  {
    NoTargetsNoChange(rows, selected);
    |Filter(rows, (s: SessionRow) => RevokeTarget(s, selected))|
  }

  /** The action changes nothing exactly when no selected session is still
      unrevoked. */
  lemma NoTargetsNoChange(rows: seq<SessionRow>, selected: set<Id>)
    ensures Filter(rows, (s: SessionRow) => RevokeTarget(s, selected)) == [] <==> RevokeAll(rows, selected) == rows
  {
    var targets := Filter(rows, (s: SessionRow) => RevokeTarget(s, selected));
    var r := RevokeAll(rows, selected);
    if targets != [] {
      assert targets[0] in targets;
      var k :| 0 <= k < |rows| && rows[k] == targets[0];
      assert r[k].isRevoked != rows[k].isRevoked;
    } else {
      forall k | 0 <= k < |rows| ensures r[k] == rows[k] {
        assert rows[k] in rows;
      }
    }
  }

  /** `has_add_permission` and `has_change_permission`: sessions are
      neither created nor edited from the admin, whoever asks. */
  predicate HasAddPermission(req: Requester)
  {
    false
  }

  predicate HasChangePermission(req: Requester, obj: Option<SessionRow>)
  {
    false
  }

  /** No account, staff or superuser, may add or edit a session there. */
  lemma AdminSessionsReadOnly(req: Requester, obj: Option<SessionRow>)
    ensures !HasAddPermission(req) && !HasChangePermission(req, obj)
  {
  }

  /** The rows once the action has walked the first `i` of them. */
  function RevokedUpTo(rows: seq<SessionRow>, selected: set<Id>, i: int): (r: seq<SessionRow>)
    ensures |r| == |rows|
  {
    seq(|rows|, k requires 0 <= k < |rows| => if k < i && RevokeTarget(rows[k], selected) then Revoked(rows[k]) else rows[k])
  }

  /** One more step of the walk revokes row `i` when it is a target and
      keeps the keys and the refresh tokens unique. */
  lemma RevokedUpToStep(rows: seq<SessionRow>, selected: set<Id>, i: int)
    requires 0 <= i < |rows|
    ensures RevokedUpTo(rows, selected, i)[i] == rows[i]
    ensures RevokedUpTo(rows, selected, i + 1)
            == if RevokeTarget(rows[i], selected) then RevokedUpTo(rows, selected, i)[i := Revoked(rows[i])]
               else RevokedUpTo(rows, selected, i)
    ensures UniqueJtis(rows) && UniqueSessionIds(rows) ==>
              UniqueJtis(RevokedUpTo(rows, selected, i + 1)) && UniqueSessionIds(RevokedUpTo(rows, selected, i + 1))
  {
    var r := RevokedUpTo(rows, selected, i + 1);
    assert forall k :: 0 <= k < |r| ==> r[k].id == rows[k].id && r[k].refreshJti == rows[k].refreshJti;
  }

  /** The count of targets among the first `i + 1` rows. */
  lemma TargetCountStep(rows: seq<SessionRow>, selected: set<Id>, i: int)
    requires 0 <= i < |rows|
    ensures |Filter(rows[..i + 1], (s: SessionRow) => RevokeTarget(s, selected))|
            == |Filter(rows[..i], (s: SessionRow) => RevokeTarget(s, selected))| + (if RevokeTarget(rows[i], selected) then 1 else 0)
  {
    assert rows[..i + 1] == rows[..i] + [rows[i]];
    FilterConcat(rows[..i], [rows[i]], (s: SessionRow) => RevokeTarget(s, selected));
  }

  /** `revoke_sessions`: walks the selected sessions not yet revoked,
      revoking each and counting it. The table ends as `RevokeAll` of the
      selection and the count is the number of sessions that were not
      revoked before. */
  method RevokeSessions(t: SessionTable, selected: set<Id>) returns (revokedCount: nat)
    requires t.Valid()
    modifies t`rows
    ensures t.Valid()
    ensures t.rows == RevokeAll(old(t.rows), selected)
    ensures revokedCount == TargetCount(old(t.rows), selected)
  {
    ghost var rows0 := t.rows;
    revokedCount := 0;
    var i := 0;
    while i < |t.rows|
      invariant 0 <= i <= |rows0|
      invariant t.rows == RevokedUpTo(rows0, selected, i)
      invariant revokedCount == |Filter(rows0[..i], (s: SessionRow) => RevokeTarget(s, selected))|
      invariant t.Valid()
    {
      RevokedUpToStep(rows0, selected, i);
      TargetCountStep(rows0, selected, i);
      if RevokeTarget(t.rows[i], selected) {
        var session := new UserSession.Load(t.rows[i]);
        session.Revoke();
        t.rows := t.rows[i := session.Row()];
        revokedCount := revokedCount + 1;
      }
      i := i + 1;
    }
    assert rows0[..i] == rows0;
  }
}

=== FILE: core_managers.dfy ===
/** core/managers.py: the manager that hides deactivated records, and the
    user factory methods with their `setdefault` rules and checks. Email
    normalisation and password hashing are library code and come in as
    function parameters. */
module CoreManagers {
  import opened Results
  import opened Lists
  import opened CoreModels

  /** `ActiveManager.get_queryset()`: the records whose `is_active` is set,
      in their order. */
  function ActiveOnly<T(!new)>(rows: seq<T>, isActive: T -> bool): (r: seq<T>)
    ensures forall x :: x in r <==> x in rows && isActive(x)
    ensures forall k :: 0 <= k < |r| ==> isActive(r[k])
    ensures |r| <= |rows|
  {
    Filter(rows, isActive)
  }

  /** Filtering an active-only queryset on `is_active=True` again changes
      nothing, as the views that do so rely on. */
  lemma ActiveOnlyIdempotent<T(!new)>(rows: seq<T>, isActive: T -> bool)
    ensures ActiveOnly(ActiveOnly(rows, isActive), isActive) == ActiveOnly(rows, isActive)
  {
    FilterAll(ActiveOnly(rows, isActive), isActive);
  }

  /** The keyword arguments the factories look at; an absent key is
      `None`. */
  datatype ExtraFields = ExtraFields(
    role: Option<string>,
    isStaff: Option<bool>,
    isSuperuser: Option<bool>,
    isActive: Option<bool>)

  const NoExtra := ExtraFields(None, None, None, None)

  /** `dict.setdefault`: keeps a value the caller gave. */
  function SetDefault<T>(o: Option<T>, d: T): (r: Option<T>)
    ensures r.Some?
    ensures o.Some? ==> r == o
    ensures o.None? ==> r == Some(d)
  {
    if o.Some? then o else Some(d)
  }

  function OrDefault<T>(o: Option<T>, d: T): T
  {
    if o.Some? then o.value else d
  }

  datatype CreateError =
    | EmailRequired     // `ValueError` for a missing or empty email
    | NullUsername      // saving a user without a username breaks NOT NULL
    | UniqueViolation   // the email or the username is already stored
    | RoleNotAllowed    // `create_superuser` with a role outside the choices
    | NotSuperuser      // `create_superuser` with `is_superuser` not True

  /** A stored user already has this email or this username, so the
      unique indexes on those columns refuse the insert. */
  predicate Taken(users: seq<User>, email: string, username: string)
  {
    exists k :: 0 <= k < |users| && (users[k].email == email || users[k].username == username)
  }

  /** `_create_user`: refuses a falsy email; otherwise builds the user from
      the normalised email, the username and the extra fields over the
      model defaults, with the hashed password, and saves it next to the
      stored `users`. */
  function CreateUserCore(id: Id, email: Option<string>, password: Option<string>, username: Option<string>,
                          extra: ExtraFields, users: seq<User>, normalize: string -> string,
                          hash: Option<string> -> string): (r: Result<User, CreateError>)
    ensures email.None? || email.value == "" <==> r == Err(EmailRequired)
    ensures email.Some? && email.value != "" && username.None? ==> r == Err(NullUsername)
    ensures email.Some? && email.value != "" && username.Some? ==>
              (r == Err(UniqueViolation) <==> Taken(users, normalize(email.value), username.value))
    ensures email.Some? && email.value != "" && username.Some? ==>
              (r.Ok? <==> !Taken(users, normalize(email.value), username.value))
    ensures r.Ok? ==> email.Some? && username.Some?
                      && r.value.email == normalize(email.value) && r.value.username == username.value
                      && r.value.passwordHash == hash(password)
    ensures r.Ok? ==> r.value.role == OrDefault(extra.role, RoleUser)
                      && r.value.isStaff == OrDefault(extra.isStaff, false)
                      && r.value.isSuperuser == OrDefault(extra.isSuperuser, false)
                      && r.value.isActive == OrDefault(extra.isActive, true)
  {
    if email.None? || email.value == "" then Err(EmailRequired)
    else if username.None? then Err(NullUsername)
    else if Taken(users, normalize(email.value), username.value) then Err(UniqueViolation)
    else
      var u := NewUser(id, normalize(email.value), username.value, hash(password));
      Ok(u.(role := OrDefault(extra.role, u.role), isStaff := OrDefault(extra.isStaff, u.isStaff),
            isSuperuser := OrDefault(extra.isSuperuser, u.isSuperuser), isActive := OrDefault(extra.isActive, u.isActive)))
  }

  /** `create_user`: role `user` and both flags off unless the caller says
      otherwise. */
  function CreateUser(id: Id, email: Option<string>, password: Option<string>, username: Option<string>,
                      extra: ExtraFields, users: seq<User>, normalize: string -> string,
                      hash: Option<string> -> string): (r: Result<User, CreateError>)
    ensures r == CreateUserCore(id, email, password, username,
                                extra.(role := SetDefault(extra.role, RoleUser),
                                       isStaff := SetDefault(extra.isStaff, false),
                                       isSuperuser := SetDefault(extra.isSuperuser, false)),
                                users, normalize, hash)
  {
    var e := extra.(role := SetDefault(extra.role, RoleUser),
                    isStaff := SetDefault(extra.isStaff, false),
                    isSuperuser := SetDefault(extra.isSuperuser, false));
    CreateUserCore(id, email, password, username, e, users, normalize, hash)
  }

  /** With no extra fields, `create_user` yields an ordinary active account;
      caller-supplied values win over the defaults. */
  lemma CreateUserDefaults(id: Id, email: string, password: Option<string>, username: string, extra: ExtraFields,
                           users: seq<User>, normalize: string -> string, hash: Option<string> -> string)
    requires email != "" && !Taken(users, normalize(email), username)
    ensures var r := CreateUser(id, Some(email), password, Some(username), NoExtra, users, normalize, hash);
            r.Ok? && r.value.role == RoleUser && !r.value.isStaff && !r.value.isSuperuser && r.value.isActive
    ensures var r := CreateUser(id, Some(email), password, Some(username), extra, users, normalize, hash);
            r.Ok? && (extra.role.Some? ==> r.value.role == extra.role.value)
            && (extra.isStaff.Some? ==> r.value.isStaff == extra.isStaff.value)
            && (extra.isSuperuser.Some? ==> r.value.isSuperuser == extra.isSuperuser.value)
  {
  }

  /** `create_superuser`: defaults role `admin` and all three flags on, then
      checks the role and `is_superuser` before creating. */
  function CreateSuperuser(id: Id, email: Option<string>, password: Option<string>, username: Option<string>,
                           extra: ExtraFields, users: seq<User>, normalize: string -> string,
                           hash: Option<string> -> string): (r: Result<User, CreateError>)
    ensures OrDefault(extra.role, RoleAdmin) !in Roles ==> r == Err(RoleNotAllowed)
    ensures OrDefault(extra.role, RoleAdmin) in Roles && extra.isSuperuser == Some(false) ==> r == Err(NotSuperuser)
    ensures r.Ok? ==> r.value.isSuperuser && r.value.role in Roles
    ensures r.Ok? ==> r.value.isStaff == OrDefault(extra.isStaff, true) && r.value.isActive == OrDefault(extra.isActive, true)
  {
    var e := extra.(role := SetDefault(extra.role, RoleAdmin),
                    isStaff := SetDefault(extra.isStaff, true),
                    isSuperuser := SetDefault(extra.isSuperuser, true),
                    isActive := SetDefault(extra.isActive, true));
    if e.role.value !in [RoleAdmin, RoleManager, RoleUser] then Err(RoleNotAllowed)
    else if e.isSuperuser != Some(true) then Err(NotSuperuser)
    else CreateUserCore(id, email, password, username, e, users, normalize, hash)
  }

  /** With no extra fields, `create_superuser` yields an active staff
      superuser with role `admin`. */
  lemma SuperuserDefaults(id: Id, email: string, password: Option<string>, username: string,
                          users: seq<User>, normalize: string -> string, hash: Option<string> -> string)
    requires email != "" && !Taken(users, normalize(email), username)
    ensures var r := CreateSuperuser(id, Some(email), password, Some(username), NoExtra, users, normalize, hash);
            r.Ok? && r.value.role == RoleAdmin && r.value.isStaff && r.value.isSuperuser && r.value.isActive
  {
  }

  /** The role and superuser checks come before the email check: an empty
      email with a bad role reports the role. */
  lemma SuperuserCheckOrder(id: Id, password: Option<string>, username: Option<string>,
                            users: seq<User>, normalize: string -> string, hash: Option<string> -> string)
    ensures CreateSuperuser(id, Some(""), password, username, NoExtra.(role := Some("guest")), users, normalize, hash)
            == Err(RoleNotAllowed)
    ensures CreateSuperuser(id, Some(""), password, username, NoExtra, users, normalize, hash) == Err(EmailRequired)
  {
  }

  /** `is_staff` is never checked: a superuser can be created without staff
      rights. */
  lemma SuperuserWithoutStaff(id: Id, email: string, password: Option<string>, username: string,
                              users: seq<User>, normalize: string -> string, hash: Option<string> -> string)
    requires email != "" && !Taken(users, normalize(email), username)
    ensures var r := CreateSuperuser(id, Some(email), password, Some(username),
                                     NoExtra.(isStaff := Some(false)), users, normalize, hash);
            r.Ok? && r.value.isSuperuser && !r.value.isStaff
  {
  }
}

=== FILE: core_models.dfy ===
/** core/models.py: the user record with its field defaults, and the login
    session (`UserSession`) whose `revoke()` flips `is_revoked` in place. */
module CoreModels {
  import opened Results

  const RoleAdmin: string := "admin"
  const RoleManager: string := "manager"
  const RoleUser: string := "user"

  /** The role choices of core/choices.py. The column itself is a plain
      string: nothing below the serializers stops another value. */
  const Roles: set<string> := {RoleAdmin, RoleManager, RoleUser}

  /** A stored user (`User`, with the `is_active` flag of `BaseModel`). The
      password is kept as whatever the hashing library produced. */
  datatype User = User(
    id: Id,
    email: string,
    username: string,
    firstName: string,
    lastName: string,
    phone: string,
    role: string,
    isStaff: bool,
    isSuperuser: bool,
    isActive: bool,
    passwordHash: string)

  /** A user built from an email and a username, every other column at its
      declared default. */
  function NewUser(id: Id, email: string, username: string, passwordHash: string): (u: User)
    ensures u.id == id && u.email == email && u.username == username
    ensures u.passwordHash == passwordHash
    ensures u.role == RoleUser && u.role in Roles
    ensures !u.isStaff && !u.isSuperuser
    ensures u.isActive
    ensures u.firstName == "" && u.lastName == "" && u.phone == ""
  {
    User(id, email, username, "", "", "", RoleUser, false, false, true, passwordHash)
  }

  /** A stored login session. Times are seconds. */
  datatype SessionRow = SessionRow(
    id: Id,
    userId: Id,
    refreshJti: string,
    ipAddress: Option<string>,
    userAgent: string,
    deviceName: string,
    location: string,
    isCurrent: bool,
    createdAt: int,
    expiresAt: int,
    isRevoked: bool)

  /** `UserSession.is_active`: not revoked and not yet expired at `now`. */
  predicate SessionActive(s: SessionRow, now: int)
  {
    !s.isRevoked && s.expiresAt > now
  }

  /** A session as `UserSession.objects.create(...)` stores it when the
      caller does not pass `is_current` or `is_revoked`. */
  function NewSession(id: Id, userId: Id, jti: string, ip: Option<string>, userAgent: string,
                      deviceName: string, location: string, createdAt: int, expiresAt: int): (s: SessionRow)
    ensures !s.isCurrent && !s.isRevoked
    ensures s.id == id && s.userId == userId && s.refreshJti == jti
    ensures s.createdAt == createdAt && s.expiresAt == expiresAt
    ensures SessionActive(s, createdAt) <==> expiresAt > createdAt
  {
    SessionRow(id, userId, jti, ip, userAgent, deviceName, location, false, createdAt, expiresAt, false)
  }

  /** The row `revoke()` saves: revoked, so never active again, and
      otherwise the same session. */
  function Revoked(s: SessionRow): (r: SessionRow)
    ensures r.isRevoked
    ensures forall now :: !SessionActive(r, now)
    ensures r.(isRevoked := s.isRevoked) == s
  {
    s.(isRevoked := true)
  }

  /** Revoking twice saves the same row as revoking once, and revoking a
      session already revoked changes nothing. */
  lemma RevokeIdempotent(s: SessionRow)
    ensures Revoked(Revoked(s)) == Revoked(s)
    ensures s.isRevoked ==> Revoked(s) == s
  {
  }

  /** A session instance, loaded from its row. */
  class UserSession {
    var id: Id
    var userId: Id
    var refreshJti: string
    var ipAddress: Option<string>
    var userAgent: string
    var deviceName: string
    var location: string
    var isCurrent: bool
    var createdAt: int
    var expiresAt: int
    var isRevoked: bool

    /** The row this instance saves. */
    function Row(): SessionRow
      reads this
    {
      SessionRow(id, userId, refreshJti, ipAddress, userAgent, deviceName, location,
                 isCurrent, createdAt, expiresAt, isRevoked)
    }

    constructor Load(r: SessionRow)
      ensures Row() == r
    {
      id, userId, refreshJti, ipAddress := r.id, r.userId, r.refreshJti, r.ipAddress;
      userAgent, deviceName, location := r.userAgent, r.deviceName, r.location;
      isCurrent, createdAt, expiresAt, isRevoked := r.isCurrent, r.createdAt, r.expiresAt, r.isRevoked;
    }

    /** The `is_active` property. */
    predicate IsActive(now: int)
      reads this
    {
      SessionActive(Row(), now)
    }

    /** `revoke()`: sets `is_revoked` and saves; nothing else changes. */
    method Revoke()
      modifies this`isRevoked
      ensures Row() == Revoked(old(Row()))
      ensures forall now :: !IsActive(now)
    {
      isRevoked := true;
    }
  }

  /** Two stored sessions never share a refresh-token identifier (the
      `unique=True` on `refresh_token_jti`). */
  ghost predicate UniqueJtis(rows: seq<SessionRow>)
  {
    forall i, j :: 0 <= i < j < |rows| ==> rows[i].refreshJti != rows[j].refreshJti
  }

  /** Two stored sessions never share a primary key. */
  ghost predicate UniqueSessionIds(rows: seq<SessionRow>)
  {
    forall i, j :: 0 <= i < j < |rows| ==> rows[i].id != rows[j].id
  }

  /** Some stored session already carries `jti`. */
  predicate JtiTaken(rows: seq<SessionRow>, jti: string)
  {
    exists k :: 0 <= k < |rows| && rows[k].refreshJti == jti
  }

  /** The stored `UserSession` rows. */
  class SessionTable {
    var rows: seq<SessionRow>

    ghost predicate Valid()
      reads this
    {
      UniqueJtis(rows) && UniqueSessionIds(rows)
    }

    constructor Empty()
      ensures Valid() && rows == []
    {
      rows := [];
    }
  }
}

=== FILE: core_serializers.dfy ===
/** core/serializers.py: public registration, the password change, and the
    fields each user serializer lets a request write. A payload is cleaned
    field by field, every failing field reporting its error, and only a
    payload whose fields are all clean reaches the cross-field check.
    Password hashing and `check_password` are library code and come in as
    function parameters, and so does the email syntax check of
    `EmailField`. */
module CoreSerializers {
  import opened Results
  import opened Text
  import opened Fields
  import opened CoreModels

  // ---------------------------------------------------------------------
  // UserRegistrationSerializer

  /** The registration body. Keys outside the serializer's field list, such
      as `role` or `is_staff`, are dropped before validation and so have no
      place here. */
  datatype RegistrationPayload = RegistrationPayload(
    email: Raw,
    username: Raw,
    firstName: Raw,
    lastName: Raw,
    phone: Raw,
    password: Raw,
    passwordConfirm: Raw)

  /** The validated data: every field cleaned. */
  datatype Registration = Registration(
    email: string,
    username: string,
    firstName: string,
    lastName: string,
    phone: string,
    password: string,
    passwordConfirm: string)

  /** `min_length` of `password` and of `new_password`. */
  const PasswordMinLength: nat := 8

  /** `User.objects.filter(email=value).exists()`: exact comparison, as the
      model's own unique validator makes too. */
  predicate EmailExists(users: seq<User>, v: string)
  {
    exists k :: 0 <= k < |users| && users[k].email == v
  }

  /** `User.objects.filter(email__iexact=value).exists()`. */
  predicate EmailExistsIgnoringCase(users: seq<User>, v: string)
  {
    exists k :: 0 <= k < |users| && Upper(users[k].email) == Upper(v)
  }

  /** `User.objects.filter(username=value).exists()`. */
  predicate UsernameExists(users: seq<User>, v: string)
  {
    exists k :: 0 <= k < |users| && users[k].username == v
  }

  /** The `email` field as written: the char-field rules, the syntax check,
      then `validate_email`, which looks the value up exactly and returns it
      lower-cased. */
  function CleanEmailAsWritten(x: Raw, users: seq<User>, isEmail: string -> bool): (r: Result<string, InputError>)
    ensures var c := CleanChar(x, 0);
            && (c.Err? ==> r == c)
            && (c.Ok? ==> (r == Err(BadFormat) <==> !isEmail(c.value)))
            && (c.Ok? && isEmail(c.value) ==> (r == Err(Taken) <==> EmailExists(users, c.value)))
            && (r.Ok? ==> c.Ok? && r.value == Lower(c.value))
  {
    var c := CleanChar(x, 0);
    if c.Err? then c
    else if !isEmail(c.value) then Err(BadFormat)
    else if EmailExists(users, c.value) then Err(Taken)
    else Ok(Lower(c.value))
  }

  /** The check looks up the value before lower-casing it, so an email that
      is not stored as typed but whose lower-cased form is stored passes,
      and the value it hands on is that stored email: the insert then
      breaks the unique constraint instead of answering 400. */
  lemma EmailCaseSlipsThrough(users: seq<User>, v: string, isEmail: string -> bool)
    requires v != [] && forall k :: 0 <= k < |v| ==> !IsSpace(v[k])
    requires isEmail(v) && !EmailExists(users, v) && EmailExists(users, Lower(v))
    ensures CleanEmailAsWritten(Given(v), users, isEmail) == Ok(Lower(v))
    ensures EmailExists(users, CleanEmailAsWritten(Given(v), users, isEmail).value)
  {
    StripNoSpace(v);
  }

  /** Such an email: "Ana@x.com" while "ana@x.com" is stored. */
  lemma EmailCaseExample(u: User)
    requires u.email == "ana@x.com"
    ensures var v := "Ana@x.com";
            && (forall k :: 0 <= k < |v| ==> !IsSpace(v[k]))
            && !EmailExists([u], v) && EmailExists([u], Lower(v))
  {
    var v := "Ana@x.com";
    forall k | 0 <= k < |v| ensures !IsSpace(v[k]) {
      assert '.' <= v[k] <= 'x';
    }
    assert v[0] != u.email[0];
    assert Lower(v) == u.email;
    assert [u][0].email == Lower(v);
  }

  /** The `email` field, corrected: the existence check ignores case, so the
      lower-cased value handed on is never an email already stored. */
  function CleanEmail(x: Raw, users: seq<User>, isEmail: string -> bool): (r: Result<string, InputError>)
    ensures var c := CleanChar(x, 0);
            && (c.Err? ==> r == c)
            && (c.Ok? ==> (r == Err(BadFormat) <==> !isEmail(c.value)))
            && (c.Ok? && isEmail(c.value) ==> (r == Err(Taken) <==> EmailExistsIgnoringCase(users, c.value)))
            && (r.Ok? ==> c.Ok? && r.value == Lower(c.value))
  {
    var c := CleanChar(x, 0);
    if c.Err? then c
    else if !isEmail(c.value) then Err(BadFormat)
    else if EmailExistsIgnoringCase(users, c.value) then Err(Taken)
    else Ok(Lower(c.value))
  }

  /** What the corrected field hands on is never an email already stored,
      so the insert cannot break the unique constraint on `email`. */
  lemma CleanEmailNeverTaken(x: Raw, users: seq<User>, isEmail: string -> bool)
    ensures var r := CleanEmail(x, users, isEmail);
            r.Ok? ==> forall k :: 0 <= k < |users| ==> users[k].email != r.value
  {
    var r := CleanEmail(x, users, isEmail);
    if r.Ok? {
      UpperOfLower(CleanChar(x, 0).value);
    }
  }

  /** The correction only refuses more: whatever it accepts, the field as
      written accepts with the same value, and it refuses exactly the
      additional emails that match a stored one up to case. */
  lemma EmailCorrectionRefinesAsWritten(x: Raw, users: seq<User>, isEmail: string -> bool)
    ensures CleanEmail(x, users, isEmail).Ok? ==> CleanEmailAsWritten(x, users, isEmail) == CleanEmail(x, users, isEmail)
    ensures CleanEmail(x, users, isEmail) != CleanEmailAsWritten(x, users, isEmail) ==>
              CleanEmail(x, users, isEmail) == Err(Taken)
              && EmailExistsIgnoringCase(users, CleanChar(x, 0).value) && !EmailExists(users, CleanChar(x, 0).value)
  {
    var c := CleanChar(x, 0);
    if c.Ok? && EmailExists(users, c.value) {
      var k :| 0 <= k < |users| && users[k].email == c.value;
      assert Upper(users[k].email) == Upper(c.value);
    }
  }

  /** The `username` field: the char-field rules, then `validate_username`. */
  function CleanUsername(x: Raw, users: seq<User>): (r: Result<string, InputError>)
    ensures r.Ok? <==> CleanChar(x, 0).Ok? && !UsernameExists(users, CleanChar(x, 0).value)
    ensures r.Ok? ==> r == CleanChar(x, 0)
    ensures CleanChar(x, 0).Err? ==> r == CleanChar(x, 0)
    ensures CleanChar(x, 0).Ok? && UsernameExists(users, CleanChar(x, 0).value) ==> r == Err(Taken)
  {
    var c := CleanChar(x, 0);
    if c.Ok? && UsernameExists(users, c.value) then Err(Taken) else c
  }

  /** The field names registration reports errors under. */
  const RegistrationKeys: set<string> :=
    {"email", "username", "first_name", "last_name", "phone", "password", "password_confirm"}

  /** The errors of the fields that fail, each under its own name. */
  function RegistrationErrors(e: Result<string, InputError>, n: Result<string, InputError>,
                              f: Result<string, InputError>, l: Result<string, InputError>,
                              ph: Result<string, InputError>, pw: Result<string, InputError>,
                              pc: Result<string, InputError>): (m: map<string, InputError>)
    ensures Reports(m, "email", e) && Reports(m, "username", n) && Reports(m, "first_name", f)
    ensures Reports(m, "last_name", l) && Reports(m, "phone", ph) && Reports(m, "password", pw)
    ensures Reports(m, "password_confirm", pc)
    ensures m.Keys <= RegistrationKeys
  {
    var m0 := WithError(map[], "email", e);
    var m1 := WithError(m0, "username", n);
    var m2 := WithError(m1, "first_name", f);
    var m3 := WithError(m2, "last_name", l);
    var m4 := WithError(m3, "phone", ph);
    var m5 := WithError(m4, "password", pw);
    WithError(m5, "password_confirm", pc)
  }

  /** `is_valid()` on a registration, given what the `email` field made of
      its value: every other field is cleaned too; only when all are clean
      does `validate` compare the two passwords, refusing a difference under
      `password_confirm`. */
  function ValidateFields(e: Result<string, InputError>, p: RegistrationPayload, users: seq<User>)
    : (r: Result<Registration, map<string, InputError>>)
    ensures var n := CleanUsername(p.username, users);
            var f, l, ph := CleanOptionalChar(p.firstName), CleanOptionalChar(p.lastName), CleanOptionalChar(p.phone);
            var pw, pc := CleanChar(p.password, PasswordMinLength), CleanChar(p.passwordConfirm, 0);
            var clean := e.Ok? && n.Ok? && f.Ok? && l.Ok? && ph.Ok? && pw.Ok? && pc.Ok?;
            && (r.Ok? <==> clean && pw.value == pc.value)
            && (r.Ok? ==> r.value == Registration(e.value, n.value, f.value, l.value, ph.value, pw.value, pc.value))
            && (clean && pw.value != pc.value ==> r == Err(map["password_confirm" := Mismatch]))
            && (!clean ==> r == Err(RegistrationErrors(e, n, f, l, ph, pw, pc)))
  {
    var n := CleanUsername(p.username, users);
    var f, l, ph := CleanOptionalChar(p.firstName), CleanOptionalChar(p.lastName), CleanOptionalChar(p.phone);
    var pw, pc := CleanChar(p.password, PasswordMinLength), CleanChar(p.passwordConfirm, 0);
    if e.Ok? && n.Ok? && f.Ok? && l.Ok? && ph.Ok? && pw.Ok? && pc.Ok? then
      if pw.value != pc.value then Err(map["password_confirm" := Mismatch])
      else Ok(Registration(e.value, n.value, f.value, l.value, ph.value, pw.value, pc.value))
    else Err(RegistrationErrors(e, n, f, l, ph, pw, pc))
  }

  /** `is_valid()` on a registration, with `validate_email` as written. */
  function ValidateRegistration(p: RegistrationPayload, users: seq<User>, isEmail: string -> bool)
    : Result<Registration, map<string, InputError>>
  {
    ValidateFields(CleanEmailAsWritten(p.email, users, isEmail), p, users)
  }

  /** `is_valid()` on a registration, with the corrected email check. */
  function ValidateRegistrationCorrected(p: RegistrationPayload, users: seq<User>, isEmail: string -> bool)
    : Result<Registration, map<string, InputError>>
  {
    ValidateFields(CleanEmail(p.email, users, isEmail), p, users)
  }

  /** `create`: drops the confirmation, forces role `user` without staff or
      superuser rights, and stores the hashed password. */
  function CreateRegistered(id: Id, d: Registration, hash: Option<string> -> string): (u: User)
    ensures u.role == RoleUser && !u.isStaff && !u.isSuperuser && u.isActive
    ensures u.id == id && u.email == d.email && u.username == d.username && u.passwordHash == hash(Some(d.password))
    ensures u.firstName == d.firstName && u.lastName == d.lastName && u.phone == d.phone
  {
    NewUser(id, d.email, d.username, hash(Some(d.password)))
      .(firstName := d.firstName, lastName := d.lastName, phone := d.phone,
        role := RoleUser, isStaff := false, isSuperuser := false)
  }

  /** The outcome of the `register` action: 201 with the new account, 400
      with the field errors, or the insert refused by the unique index on
      `email` (an `IntegrityError`, answered with 500). */
  datatype Registered =
    | Created(user: User)
    | Invalid(errors: map<string, InputError>)
    | EmailIntegrityError

  /** `serializer.save()` after `is_valid()`: the row of `create` is
      inserted unless the case-sensitive unique index on `email` already
      holds its (lower-cased) email. */
  function SaveRegistration(id: Id, v: Result<Registration, map<string, InputError>>, users: seq<User>,
                            hash: Option<string> -> string): (r: Registered)
    ensures v.Err? <==> r.Invalid?
    ensures v.Err? ==> r == Invalid(v.error)
    ensures r.EmailIntegrityError? <==> v.Ok? && EmailExists(users, v.value.email)
    ensures r.Created? ==> r.user == CreateRegistered(id, v.value, hash) && !EmailExists(users, r.user.email)
  {
    if v.Err? then Invalid(v.error)
    else if EmailExists(users, v.value.email) then EmailIntegrityError
    else Created(CreateRegistered(id, v.value, hash))
  }

  /** The `register` action as written: validation, then the insert. */
  function Register(id: Id, p: RegistrationPayload, users: seq<User>, isEmail: string -> bool,
                    hash: Option<string> -> string): Registered
  {
    SaveRegistration(id, ValidateRegistration(p, users, isEmail), users, hash)
  }

  /** The `register` action with the corrected email check. */
  function RegisterCorrected(id: Id, p: RegistrationPayload, users: seq<User>, isEmail: string -> bool,
                             hash: Option<string> -> string): Registered
  {
    SaveRegistration(id, ValidateRegistrationCorrected(p, users, isEmail), users, hash)
  }

  /** A registered account is an ordinary, active `user` with no staff or
      superuser rights, whose email (stripped and lower-cased) and username
      no stored user has, and whose password has at least eight characters
      once stripped and equals its confirmation. */
  lemma RegisterMeaning(id: Id, p: RegistrationPayload, users: seq<User>, isEmail: string -> bool,
                        hash: Option<string> -> string)
    ensures var r := Register(id, p, users, isEmail, hash);
            r.Created? ==>
              && r.user.role == RoleUser && !r.user.isStaff && !r.user.isSuperuser && r.user.isActive
              && p.email.Given? && r.user.email == Lower(Strip(p.email.text)) && isEmail(Strip(p.email.text))
              && !EmailExists(users, Strip(p.email.text))
              && (forall k :: 0 <= k < |users| ==> users[k].email != r.user.email)
              && p.username.Given? && r.user.username == Strip(p.username.text)
              && !UsernameExists(users, r.user.username)
              && p.password.Given? && p.passwordConfirm.Given?
              && |Strip(p.password.text)| >= PasswordMinLength
              && Strip(p.password.text) == Strip(p.passwordConfirm.text)
              && r.user.passwordHash == hash(Some(Strip(p.password.text)))
  {
    var r := Register(id, p, users, isEmail, hash);
    if r.Created? {
      forall k | 0 <= k < |users| ensures users[k].email != r.user.email {
        assert !EmailExists(users, r.user.email);
      }
    }
  }

  /** As written, a payload whose fields are all valid and whose email is
      stored only in lower case passes validation, and the insert is then
      refused by the unique index instead of answering 400. */
  lemma RegisterCaseVariantFails(id: Id, p: RegistrationPayload, users: seq<User>, isEmail: string -> bool,
                                 hash: Option<string> -> string)
    requires p.email.Given? && p.email.text != [] && forall k :: 0 <= k < |p.email.text| ==> !IsSpace(p.email.text[k])
    requires isEmail(p.email.text) && !EmailExists(users, p.email.text) && EmailExists(users, Lower(p.email.text))
    requires ValidateFields(Ok(Lower(p.email.text)), p, users).Ok?
    ensures Register(id, p, users, isEmail, hash) == EmailIntegrityError
    ensures RegisterCorrected(id, p, users, isEmail, hash).Invalid?
  {
    EmailCaseSlipsThrough(users, p.email.text, isEmail);
    var k :| 0 <= k < |users| && users[k].email == Lower(p.email.text);
    UpperOfLower(p.email.text);
    assert Upper(users[k].email) == Upper(p.email.text);
  }

  /** With the corrected email check the insert is never refused: every
      registration either creates the account or answers 400. */
  lemma RegisterCorrectedNeverFails(id: Id, p: RegistrationPayload, users: seq<User>, isEmail: string -> bool,
                                    hash: Option<string> -> string)
    ensures !RegisterCorrected(id, p, users, isEmail, hash).EmailIntegrityError?
  {
    CleanEmailNeverTaken(p.email, users, isEmail);
  }

  /** A password shorter than eight characters once stripped is refused
      under `password`, whatever the other fields hold. */
  lemma ShortPasswordRefused(id: Id, p: RegistrationPayload, users: seq<User>, isEmail: string -> bool,
                             hash: Option<string> -> string)
    requires p.password.Given? && Strip(p.password.text) != "" && |Strip(p.password.text)| < PasswordMinLength
    ensures var r := Register(id, p, users, isEmail, hash);
            r.Invalid? && "password" in r.errors && r.errors["password"] == TooShort
  {
  }

  /** Two clean passwords that differ are refused under `password_confirm`
      alone. */
  lemma MismatchUnderConfirm(id: Id, p: RegistrationPayload, users: seq<User>, isEmail: string -> bool,
                             hash: Option<string> -> string)
    requires ValidateRegistration(p.(passwordConfirm := p.password), users, isEmail).Ok?
    requires p.passwordConfirm.Given? && Strip(p.passwordConfirm.text) != ""
    requires Strip(p.passwordConfirm.text) != Strip(p.password.text)
    ensures Register(id, p, users, isEmail, hash) == Invalid(map["password_confirm" := Mismatch])
  {
  }

  // ---------------------------------------------------------------------
  // ChangePasswordSerializer

  datatype PasswordChange = PasswordChange(oldPassword: Raw, newPassword: Raw, newPasswordConfirm: Raw)

  /** The `old_password` field: the char-field rules, then
      `validate_old_password`, which asks `check_password` of the requesting
      user. */
  function CleanOldPassword(x: Raw, check: string -> bool): (r: Result<string, InputError>)
    ensures r.Ok? <==> CleanChar(x, 0).Ok? && check(CleanChar(x, 0).value)
    ensures CleanChar(x, 0).Err? ==> r == CleanChar(x, 0)
    ensures CleanChar(x, 0).Ok? && !check(CleanChar(x, 0).value) ==> r == Err(Incorrect)
  {
    var c := CleanChar(x, 0);
    if c.Ok? && !check(c.value) then Err(Incorrect) else c
  }

  /** `is_valid()` on a password change; the result is the new password. */
  function ValidatePasswordChange(c: PasswordChange, check: string -> bool): (r: Result<string, map<string, InputError>>)
    ensures var o, n, nc := CleanOldPassword(c.oldPassword, check), CleanChar(c.newPassword, PasswordMinLength),
                            CleanChar(c.newPasswordConfirm, 0);
            && (r.Ok? <==> o.Ok? && n.Ok? && nc.Ok? && n.value == nc.value)
            && (r.Ok? ==> r.value == n.value)
            && (o.Ok? && n.Ok? && nc.Ok? && n.value != nc.value ==> r == Err(map["new_password_confirm" := Mismatch]))
            && (!(o.Ok? && n.Ok? && nc.Ok?) ==>
                  r.Err? && Reports(r.error, "old_password", o) && Reports(r.error, "new_password", n)
                  && Reports(r.error, "new_password_confirm", nc)
                  && r.error.Keys <= {"old_password", "new_password", "new_password_confirm"})
  {
    var o, n, nc := CleanOldPassword(c.oldPassword, check), CleanChar(c.newPassword, PasswordMinLength),
                    CleanChar(c.newPasswordConfirm, 0);
    if o.Ok? && n.Ok? && nc.Ok? then
      if n.value != nc.value then Err(map["new_password_confirm" := Mismatch]) else Ok(n.value)
    else
      Err(WithError(WithError(WithError(map[], "old_password", o), "new_password", n), "new_password_confirm", nc))
  }

  /** `is_valid()` then `save()`: the user with the new password hashed. */
  function ChangePassword(u: User, c: PasswordChange, check: string -> bool, hash: Option<string> -> string)
    : (r: Result<User, map<string, InputError>>)
    ensures var v := ValidatePasswordChange(c, check);
            && (v.Err? ==> r == Err(v.error))
            && (v.Ok? ==> r == Ok(u.(passwordHash := hash(Some(v.value)))))
  {
    var v := ValidatePasswordChange(c, check);
    if v.Err? then Err(v.error) else Ok(u.(passwordHash := hash(Some(v.value))))
  }

  /** A password change succeeds only with the right current password and a
      new one of at least eight characters typed twice alike; it changes the
      stored hash and nothing else. */
  lemma ChangePasswordMeaning(u: User, c: PasswordChange, check: string -> bool, hash: Option<string> -> string)
    ensures var r := ChangePassword(u, c, check, hash);
            r.Ok? ==>
              && c.oldPassword.Given? && check(Strip(c.oldPassword.text))
              && c.newPassword.Given? && c.newPasswordConfirm.Given?
              && |Strip(c.newPassword.text)| >= PasswordMinLength
              && Strip(c.newPassword.text) == Strip(c.newPasswordConfirm.text)
              && r.value.passwordHash == hash(Some(Strip(c.newPassword.text)))
              && r.value.(passwordHash := u.passwordHash) == u
    ensures c.oldPassword.Given? && Strip(c.oldPassword.text) != "" && !check(Strip(c.oldPassword.text)) ==>
              var r := ChangePassword(u, c, check, hash);
              r.Err? && "old_password" in r.error && r.error["old_password"] == Incorrect
  {
  }

  // ---------------------------------------------------------------------
  // Writable fields

  /** `UserSerializer.Meta.fields`. */
  const UserSerializerFields: set<string> :=
    {"id", "email", "username", "first_name", "last_name", "phone", "role", "role_display",
     "is_active", "date_joined", "created_at", "updated_at"}

  /** `UserSerializer.Meta.read_only_fields`. */
  const UserSerializerReadOnly: set<string> :=
    {"id", "role", "is_active", "date_joined", "created_at", "updated_at"}

  /** The fields `UserSerializer` accepts from a request: its fields less the
      read-only ones and the declared read-only `role_display`. */
  const UserSerializerWritable: set<string> := UserSerializerFields - UserSerializerReadOnly - {"role_display"}

  /** `UserUpdateSerializer.Meta.fields`, all writable. */
  const UserUpdateFields: set<string> := {"first_name", "last_name", "phone"}

  /** One column after a write: the validated value when the serializer
      accepts that field and the request gave it, else the stored one. */
  function Written(data: map<string, string>, writable: set<string>, key: string, current: string): (v: string)
    ensures key in data && key in writable ==> v == data[key]
    ensures !(key in data && key in writable) ==> v == current
  {
    if key in data && key in writable then data[key] else current
  }

  /** The user after a serializer with the given writable fields saves the
      validated `data`; a key it does not accept is ignored. */
  function ApplyWrites(u: User, data: map<string, string>, writable: set<string>): User
  {
    u.(email := Written(data, writable, "email", u.email),
       username := Written(data, writable, "username", u.username),
       firstName := Written(data, writable, "first_name", u.firstName),
       lastName := Written(data, writable, "last_name", u.lastName),
       phone := Written(data, writable, "phone", u.phone),
       role := Written(data, writable, "role", u.role))
  }

  /** Through `UserSerializer` a request may change email, username, names
      and phone, never the role, the flags or the password. */
  lemma UserSerializerKeepsRole(u: User, data: map<string, string>)
    ensures UserSerializerWritable == {"email", "username", "first_name", "last_name", "phone"}
    ensures var r := ApplyWrites(u, data, UserSerializerWritable);
            && r.role == u.role && r.isActive == u.isActive && r.isStaff == u.isStaff
            && r.isSuperuser == u.isSuperuser && r.passwordHash == u.passwordHash && r.id == u.id
            && ("email" in data ==> r.email == data["email"])
            && ("role" in data ==> r.role == u.role)
  {
    assert "role" !in UserSerializerWritable;
    assert "email" in UserSerializerWritable;
  }

  /** The profile update (`me`, `update`, `partial_update`): a partial
      payload whose given fields among `first_name`, `last_name` and `phone`
      are cleaned; `null` is refused and other keys are ignored. */
  function UpdateProfile(u: User, patch: map<string, Raw>): (r: Result<User, map<string, InputError>>)
    ensures r.Err? <==> exists k :: k in patch && k in UserUpdateFields && patch[k].Null?
    ensures r.Err? ==> forall k :: k in r.error <==> k in patch && k in UserUpdateFields && patch[k].Null?
  {
    if exists k :: k in patch && k in UserUpdateFields && patch[k].Null? then
      Err(map k | k in patch && k in UserUpdateFields && patch[k].Null? :: NullValue)
    else Ok(ApplyWrites(u, map k | k in patch && k in UserUpdateFields && patch[k].Given? :: Strip(patch[k].text),
                        UserUpdateFields))
  }

  /** A profile update changes at most first name, last name and phone,
      each to the stripped value given, and a name the payload leaves out
      keeps its value; email, username, role, flags and password stay as
      they were even when the payload names them. */
  lemma ProfileUpdateOnlyNames(u: User, patch: map<string, Raw>)
    ensures var r := UpdateProfile(u, patch);
            r.Ok? ==>
              && r.value.(firstName := u.firstName, lastName := u.lastName, phone := u.phone) == u
              && ("first_name" in patch && patch["first_name"].Given? ==> r.value.firstName == Strip(patch["first_name"].text))
              && ("last_name" in patch && patch["last_name"].Given? ==> r.value.lastName == Strip(patch["last_name"].text))
              && ("phone" in patch && patch["phone"].Given? ==> r.value.phone == Strip(patch["phone"].text))
              && (!("first_name" in patch && patch["first_name"].Given?) ==> r.value.firstName == u.firstName)
              && (!("last_name" in patch && patch["last_name"].Given?) ==> r.value.lastName == u.lastName)
              && (!("phone" in patch && patch["phone"].Given?) ==> r.value.phone == u.phone)
  {
    assert "email" !in UserUpdateFields && "username" !in UserUpdateFields && "role" !in UserUpdateFields;
  }
}

=== FILE: core_utils.dfy ===
/** core/utils.py: the client address behind a proxy, the device summary of
    a login, and the (stub) location lookup. The user-agent parser is a
    library; its answers (browser and OS families and versions, and the
    mobile, tablet and PC flags) come in as a value. */
module CoreUtils {
  import opened Results
  import opened Text

  /** The request headers the helpers read; an absent header is `None`. */
  datatype Meta = Meta(forwardedFor: Option<string>, remoteAddr: Option<string>, userAgent: Option<string>)

  /** `get_client_ip`: the first hop of a non-empty `X-Forwarded-For`,
      stripped, or else `REMOTE_ADDR` as it is. */
  function ClientIp(m: Meta): (ip: Option<string>)
    ensures m.forwardedFor.Some? && m.forwardedFor.value != "" ==>
              ip.Some? && ',' !in ip.value
              && exists n :: 0 <= n <= |m.forwardedFor.value| && ip.value == Strip(m.forwardedFor.value[..n])
                             && (n == |m.forwardedFor.value| || m.forwardedFor.value[n] == ',')
                             && ',' !in m.forwardedFor.value[..n]
    ensures !(m.forwardedFor.Some? && m.forwardedFor.value != "") ==> ip == m.remoteAddr
  {
    if m.forwardedFor.Some? && m.forwardedFor.value != "" then
      var hop := FirstField(m.forwardedFor.value, ',');
      Some(Strip(hop))
    else m.remoteAddr
  }

  /** The first hop wins: a header such as "203.0.113.5,10.0.0.1" gives
      "203.0.113.5", whatever follows the first comma and whatever the
      socket address; a lone hop is taken as it is. */
  lemma ClientIpFirstHop(hop: string, rest: string, remote: Option<string>, ua: Option<string>)
    requires hop != []
    requires forall k :: 0 <= k < |hop| ==> hop[k] != ',' && !IsSpace(hop[k])
    ensures ClientIp(Meta(Some(hop + [','] + rest), remote, ua)) == Some(hop)
    ensures ClientIp(Meta(Some(hop), remote, ua)) == Some(hop)
  {
    FirstFieldOf(hop, ',', rest);
    assert FirstField(hop, ',') == hop by {
      var f := FirstField(hop, ',');
      if |f| < |hop| {
        assert false;
      }
    }
    StripNoSpace(hop);
  }

  /** The parts of a parsed user agent the helpers use. */
  datatype AgentFacts = AgentFacts(
    browser: string,
    browserVersion: string,
    os: string,
    osVersion: string,
    isMobile: bool,
    isTablet: bool,
    isPc: bool)

  /** The device type: the first of mobile, tablet and PC that holds. */
  function DeviceType(a: AgentFacts): (t: string)
    ensures t in ["Mobile", "Tablet", "PC", "Unknown"]
    ensures t == "Mobile" <==> a.isMobile
    ensures t == "Tablet" <==> !a.isMobile && a.isTablet
    ensures t == "PC" <==> !a.isMobile && !a.isTablet && a.isPc
    ensures t == "Unknown" <==> !a.isMobile && !a.isTablet && !a.isPc
  {
    if a.isMobile then "Mobile"
    else if a.isTablet then "Tablet"
    else if a.isPc then "PC"
    else "Unknown"
  }

  /** The friendly name: "<browser> no <os>", with the device type in
      parentheses for a phone or a tablet only. */
  function DeviceName(a: AgentFacts): (n: string)
  {
    var base := a.browser + " no " + a.os;
    if DeviceType(a) in ["Mobile", "Tablet"] then base + " (" + DeviceType(a) + ")" else base
  }

  /** The name always starts with "<browser> no <os>"; a phone adds
      " (Mobile)", a tablet " (Tablet)", anything else nothing. */
  lemma DeviceNameShape(a: AgentFacts)
    ensures IsPrefix(a.browser + " no " + a.os, DeviceName(a))
    ensures var rest := DeviceName(a)[|a.browser + " no " + a.os|..];
            && (a.isMobile ==> rest == " (Mobile)")
            && (!a.isMobile && a.isTablet ==> rest == " (Tablet)")
            && (!a.isMobile && !a.isTablet ==> rest == "")
  {
    var base := a.browser + " no " + a.os;
    assert DeviceName(a)[..|base|] == base;
  }

  /** `parse_user_agent`. */
  datatype AgentSummary = AgentSummary(
    deviceName: string,
    browser: string,
    browserVersion: string,
    os: string,
    osVersion: string,
    deviceType: string)

  function ParseUserAgent(a: AgentFacts): (s: AgentSummary)
    ensures s.deviceType == DeviceType(a) && s.deviceName == DeviceName(a)
    ensures s.browser == a.browser && s.browserVersion == a.browserVersion
    ensures s.os == a.os && s.osVersion == a.osVersion
  {
    AgentSummary(DeviceName(a), a.browser, a.browserVersion, a.os, a.osVersion, DeviceType(a))
  }

  /** `get_device_info`. */
  datatype DeviceInfo = DeviceInfo(
    ipAddress: Option<string>,
    userAgent: string,
    deviceName: string,
    browser: string,
    browserVersion: string,
    os: string,
    osVersion: string,
    deviceType: string)

  /** The client address and the raw user agent (empty when the header is
      absent) next to the parser's summary of that same string. */
  function GetDeviceInfo(m: Meta, parse: string -> AgentFacts): (d: DeviceInfo)
    ensures d.ipAddress == ClientIp(m)
    ensures m.userAgent.None? ==> d.userAgent == ""
    ensures m.userAgent.Some? ==> d.userAgent == m.userAgent.value
    ensures var s := ParseUserAgent(parse(d.userAgent));
            && d.deviceName == s.deviceName && d.browser == s.browser && d.browserVersion == s.browserVersion
            && d.os == s.os && d.osVersion == s.osVersion && d.deviceType == s.deviceType
  {
    var ua := if m.userAgent.Some? then m.userAgent.value else "";
    var s := ParseUserAgent(parse(ua));
    DeviceInfo(ClientIp(m), ua, s.deviceName, s.browser, s.browserVersion, s.os, s.osVersion, s.deviceType)
  }

  /** `get_location_from_ip`: a missing, empty or loopback address is
      "Local"; no lookup is made for any other, which is "Unknown". */
  function LocationFromIp(ip: Option<string>): (loc: string)
    ensures loc == "Local" <==> ip.None? || ip.value in ["", "127.0.0.1", "localhost"]
    ensures loc == "Unknown" <==> ip.Some? && ip.value !in ["", "127.0.0.1", "localhost"]
  {
    if ip.None? || ip.value == "" || ip.value in ["127.0.0.1", "localhost"] then "Local" else "Unknown"
  }

  /** A proxy header whose first hop is blank yields an empty address, which
      counts as local. */
  lemma BlankFirstHopIsLocal(rest: string, remote: Option<string>)
    ensures LocationFromIp(ClientIp(Meta(Some(" ," + rest), remote, None))) == "Local"
  {
    assert " ," + rest == " " + [','] + rest;
    FirstFieldOf(" ", ',', rest);
    assert Strip(" ") == "";
  }
}

=== FILE: core_views.dfy ===
/** core/views.py: the session bookkeeping after a login, the users each
    account may list, the session list with its `active`, `current` and
    `revoke` actions, and the logout guard. Token issuing and blacklisting
    belong to the JWT library: a login arrives with its token identifier and
    expiry, and the blacklist call is a function parameter. */
module CoreViews {
  import opened Results
  import opened Lists
  import opened Fields
  import opened CoreModels
  import opened CoreUtils
  import opened Http
  import Text

  // ---------------------------------------------------------------------
  // CustomTokenObtainPairView.post

  /** The primary key the database gives the next session: one past every
      key in use. */
  function NextSessionId(rows: seq<SessionRow>): (id: Id)
    ensures forall k :: 0 <= k < |rows| ==> rows[k].id < id
    decreases |rows|
  {
    if rows == [] then 1
    else
      var rest := NextSessionId(rows[1..]);
      if rows[0].id >= rest then rows[0].id + 1 else rest
  }

  /** What the `ip_address` column receives for the request's address:
      Django hands PostgreSQL an empty address as NULL. */
  function StoredIp(ip: Option<string>): (r: Option<string>)
    ensures r.None? <==> ip.None? || ip.value == ""
    ensures r.Some? ==> r == ip
  {
    if ip.Some? && ip.value == "" then None else ip
  }

  /** PostgreSQL's `inet` column takes NULL, and text only when it parses
      as an address (`isIp`); anything else makes the insert raise. */
  predicate InetAccepts(ip: Option<string>, isIp: string -> bool)
  {
    ip.None? || isIp(ip.value)
  }

  /** A forwarded-for header that starts with a comma names a blank first
      hop: the session stores no address, whatever follows. */
  lemma BlankFirstHopStoredAsNull(rest: string, remote: Option<string>, ua: Option<string>)
    ensures StoredIp(ClientIp(Meta(Some([','] + rest), remote, ua))) == None
  {
    Text.FirstFieldOf([], ',', rest);
    assert [] + [','] + rest == [','] + rest;
  }

  /** The session a successful login creates: current, not revoked, with
      the device details of the request and the location of its address
      (the location is looked up from the address before the empty one
      becomes NULL). */
  function LoginSession(id: Id, userId: Id, jti: string, info: DeviceInfo, now: int, expiresAt: int): (s: SessionRow)
    ensures s.id == id && s.userId == userId && s.refreshJti == jti
    ensures s.isCurrent && !s.isRevoked
    ensures s.ipAddress == StoredIp(info.ipAddress) && s.userAgent == info.userAgent && s.deviceName == info.deviceName
    ensures s.location == LocationFromIp(info.ipAddress)
    ensures s.createdAt == now && s.expiresAt == expiresAt
  {
    NewSession(id, userId, jti, StoredIp(info.ipAddress), info.userAgent, info.deviceName,
               LocationFromIp(info.ipAddress), now, expiresAt).(isCurrent := true)
  }

  /** `filter(user=user).exclude(refresh_token_jti=jti).update(is_current=False)`:
      only `is_current` changes, and only on the user's sessions with
      another token. */
  function NotCurrentExcept(rows: seq<SessionRow>, userId: Id, jti: string): (r: seq<SessionRow>)
    ensures |r| == |rows|
    ensures forall k :: 0 <= k < |rows| ==> r[k].(isCurrent := rows[k].isCurrent) == rows[k]
    ensures forall k :: 0 <= k < |rows| && rows[k].userId == userId && rows[k].refreshJti != jti ==> !r[k].isCurrent
    ensures forall k :: 0 <= k < |rows| && !(rows[k].userId == userId && rows[k].refreshJti != jti) ==> r[k] == rows[k]
  {
    seq(|rows|, k requires 0 <= k < |rows| =>
      if rows[k].userId == userId && rows[k].refreshJti != jti then rows[k].(isCurrent := false) else rows[k])
  }

  /** After a login the new session is the user's only current one; other
      users' sessions are untouched, and no key or token is shared. */
  lemma LoginLeavesOneCurrent(rows: seq<SessionRow>, s: SessionRow)
    requires UniqueJtis(rows) && UniqueSessionIds(rows)
    requires !JtiTaken(rows, s.refreshJti) && forall k :: 0 <= k < |rows| ==> rows[k].id != s.id
    requires s.isCurrent
    ensures var r := NotCurrentExcept(rows + [s], s.userId, s.refreshJti);
            && |r| == |rows| + 1 && r[|rows|] == s
            && (forall k :: 0 <= k < |r| && r[k].userId == s.userId ==> (r[k].isCurrent <==> k == |rows|))
            && (forall k :: 0 <= k < |rows| && rows[k].userId != s.userId ==> r[k] == rows[k])
            && UniqueJtis(r) && UniqueSessionIds(r)
  {
    var all := rows + [s];
    var r := NotCurrentExcept(all, s.userId, s.refreshJti);
    assert forall k :: 0 <= k < |rows| ==> all[k] == rows[k] && rows[k].refreshJti != s.refreshJti;
    assert forall k :: 0 <= k < |r| ==> r[k].refreshJti == all[k].refreshJti && r[k].id == all[k].id;
  }

  /** The bookkeeping of a successful login: the new session is stored as
      current, then every other session of the user stops being current.
      A token identifier already stored breaks the unique constraint, and
      an address the `inet` column cannot parse is refused by the
      database; either way nothing is saved and the view fails with 500
      after the tokens were issued. */
  method RecordLogin(t: SessionTable, userId: Id, jti: string, info: DeviceInfo, isIp: string -> bool, now: int, expiresAt: int)
    returns (saved: bool)
    requires t.Valid()
    modifies t`rows
    ensures t.Valid()
    ensures saved <==> !JtiTaken(old(t.rows), jti) && InetAccepts(StoredIp(info.ipAddress), isIp)
    ensures !saved ==> t.rows == old(t.rows)
    ensures saved ==> t.rows == NotCurrentExcept(old(t.rows) + [LoginSession(NextSessionId(old(t.rows)), userId, jti, info, now, expiresAt)],
                                                 userId, jti)
  {
    if JtiTaken(t.rows, jti) || !InetAccepts(StoredIp(info.ipAddress), isIp) {
      return false;
    }
    var s := LoginSession(NextSessionId(t.rows), userId, jti, info, now, expiresAt);
    LoginLeavesOneCurrent(t.rows, s);
    t.rows := t.rows + [s];
    t.rows := NotCurrentExcept(t.rows, userId, jti);
    saved := true;
  }

  // ---------------------------------------------------------------------
  // UserViewSet.get_queryset

  /** The users a request may list: staff and superusers every account but
      their own, anyone else only their own. `User.objects` does not hide
      deactivated accounts. */
  function ListUsers(req: Requester, users: seq<User>): (r: Result<seq<User>, Response>)
    ensures req.Anonymous? <==> r == Err(Unauthorized401)
    ensures req.Authenticated? && (req.user.isStaff || req.user.isSuperuser) ==>
              r.Ok? && forall u :: u in r.value <==> u in users && u.id != req.user.id
    ensures req.Authenticated? && !req.user.isStaff && !req.user.isSuperuser ==>
              r.Ok? && forall u :: u in r.value <==> u in users && u.id == req.user.id
  {
    if req.Anonymous? then Err(Unauthorized401)
    else if req.user.isSuperuser || req.user.isStaff then Ok(Filter(users, (u: User) => u.id != req.user.id))
    else Ok(Filter(users, (u: User) => u.id == req.user.id))
  }

  // ---------------------------------------------------------------------
  // UserSessionViewSet

  /** `get_queryset`: the user's own sessions, newest first. */
  function OwnSessions(rows: seq<SessionRow>, userId: Id): (r: seq<SessionRow>)
    ensures forall x :: x in r <==> x in rows && x.userId == userId
    ensures forall i, j :: 0 <= i < j < |r| ==> r[i].createdAt >= r[j].createdAt
  {
    var own := Filter(rows, (s: SessionRow) => s.userId == userId);
    SortByMembers(own, (s: SessionRow) => -s.createdAt);
    SortBy(own, (s: SessionRow) => -s.createdAt)
  }

  /** `active`: the own sessions neither revoked nor expired at `now`. */
  function ActiveSessions(rows: seq<SessionRow>, userId: Id, now: int): (r: seq<SessionRow>)
    ensures forall x :: x in r <==> x in rows && x.userId == userId && SessionActive(x, now)
  {
    Filter(OwnSessions(rows, userId), (s: SessionRow) => !s.isRevoked && s.expiresAt > now)
  }

  /** `.first()` over sessions listed newest first returns the newest one
      the filter accepts. */
  lemma {:induction false} FindNewest(s: seq<SessionRow>, p: SessionRow -> bool)
    requires forall i, j :: 0 <= i < j < |s| ==> s[i].createdAt >= s[j].createdAt
    ensures Find(s, p).Some? ==> forall x :: x in s && p(x) ==> x.createdAt <= Find(s, p).value.createdAt
  {
    if s != [] && !p(s[0]) {
      FindNewest(s[1..], p);
      assert forall x :: x in s && p(x) ==> x in s[1..];
    }
  }

  /** `current`: the newest own session marked current. */
  function CurrentSession(rows: seq<SessionRow>, userId: Id): (r: Option<SessionRow>)
    ensures r.Some? ==> r.value in rows && r.value.userId == userId && r.value.isCurrent
    ensures r.Some? ==> forall x :: x in rows && x.userId == userId && x.isCurrent ==> x.createdAt <= r.value.createdAt
    ensures r.None? <==> forall x :: x in rows && x.userId == userId ==> !x.isCurrent
  {
    var own := OwnSessions(rows, userId);
    var current := (s: SessionRow) => s.isCurrent;
    var r := Find(own, current);
    FindNewest(own, current);
    assert r.None? ==> forall x :: x in own ==> !x.isCurrent;
    r
  }

  /** The `current` action: 401 without credentials, 404 when no own
      session is current. */
  function CurrentAction(req: Requester, rows: seq<SessionRow>): (r: Result<SessionRow, Response>)
    ensures req.Anonymous? ==> r == Err(Unauthorized401)
    ensures req.Authenticated? && CurrentSession(rows, req.user.id).None? ==> r == Err(NotFound404)
    ensures req.Authenticated? && CurrentSession(rows, req.user.id).Some? ==> r == Ok(CurrentSession(rows, req.user.id).value)
  {
    if req.Anonymous? then Err(Unauthorized401)
    else
      var c := CurrentSession(rows, req.user.id);
      if c.None? then Err(NotFound404) else Ok(c.value)
  }

  /** Right after a login, `current` answers with the session it created. */
  lemma CurrentAfterLogin(rows: seq<SessionRow>, s: SessionRow)
    requires UniqueJtis(rows) && UniqueSessionIds(rows)
    requires !JtiTaken(rows, s.refreshJti) && forall k :: 0 <= k < |rows| ==> rows[k].id != s.id
    requires s.isCurrent
    ensures CurrentSession(NotCurrentExcept(rows + [s], s.userId, s.refreshJti), s.userId) == Some(s)
  {
    var r := NotCurrentExcept(rows + [s], s.userId, s.refreshJti);
    LoginLeavesOneCurrent(rows, s);
    assert r[|rows|] in r;
    var c := CurrentSession(r, s.userId);
    var k :| 0 <= k < |r| && r[k] == c.value;
  }

  /** The position of session `pk` among the rows, when it is one of the
      user's own (what `get_object` can see). */
  function OwnSessionIndex(rows: seq<SessionRow>, userId: Id, pk: int): (r: Option<nat>)
    ensures r.Some? ==> r.value < |rows| && rows[r.value].id == pk && rows[r.value].userId == userId
    ensures r.None? <==> forall k :: 0 <= k < |rows| ==> !(rows[k].id == pk && rows[k].userId == userId)
    decreases |rows|
  {
    if rows == [] then None
    else if rows[|rows| - 1].id == pk && rows[|rows| - 1].userId == userId then Some(|rows| - 1)
    else OwnSessionIndex(rows[..|rows| - 1], userId, pk)
  }

  const AlreadyRevoked: string := "Esta sess\U{E3}o j\U{E1} foi revogada."

  /** The `revoke` action: 401 without credentials; 404 for a session that
      is not the caller's own; 400 for one already revoked; otherwise the
      session is revoked and nothing else changes. */
  method RevokeAction(req: Requester, t: SessionTable, pk: int) returns (resp: Response)
    requires t.Valid()
    modifies t`rows
    ensures t.Valid()
    ensures req.Anonymous? ==> resp == Unauthorized401 && t.rows == old(t.rows)
    ensures req.Authenticated? && OwnSessionIndex(old(t.rows), req.user.id, pk).None? ==>
              resp == NotFound404 && t.rows == old(t.rows)
    ensures req.Authenticated? && OwnSessionIndex(old(t.rows), req.user.id, pk).Some? ==>
              var i := OwnSessionIndex(old(t.rows), req.user.id, pk).value;
              && (old(t.rows)[i].isRevoked ==> resp == BadRequest400(AlreadyRevoked) && t.rows == old(t.rows))
              && (!old(t.rows)[i].isRevoked ==> resp == Ok200 && t.rows == old(t.rows)[i := Revoked(old(t.rows)[i])])
  {
    if req.Anonymous? {
      return Unauthorized401;
    }
    var found := OwnSessionIndex(t.rows, req.user.id, pk);
    if found.None? {
      return NotFound404;
    }
    var i := found.value;
    if t.rows[i].isRevoked {
      return BadRequest400(AlreadyRevoked);
    }
    var session := new UserSession.Load(t.rows[i]);
    session.Revoke();
    t.rows := t.rows[i := session.Row()];
    resp := Ok200;
  }

  /** Once revoked, a session drops out of `active` and every other session
      keeps its place in it. */
  lemma RevokedLeavesActive(rows: seq<SessionRow>, i: nat, userId: Id, now: int)
    requires i < |rows| && UniqueSessionIds(rows)
    ensures var after := rows[i := Revoked(rows[i])];
            && (forall x :: x in ActiveSessions(after, userId, now) ==> x.id != rows[i].id)
            && (forall x :: x in ActiveSessions(rows, userId, now) && x.id != rows[i].id ==> x in ActiveSessions(after, userId, now))
  {
    var after := rows[i := Revoked(rows[i])];
    forall x | x in ActiveSessions(after, userId, now)
      ensures x.id != rows[i].id
    {
      var k :| 0 <= k < |after| && after[k] == x;
      if k != i {
        assert x == rows[k];
      }
    }
    forall x | x in ActiveSessions(rows, userId, now) && x.id != rows[i].id
      ensures x in ActiveSessions(after, userId, now)
    {
      var k :| 0 <= k < |rows| && rows[k] == x;
      assert after[k] == x;
    }
  }

  // ---------------------------------------------------------------------
  // LogoutView

  const RefreshRequired: string := "Refresh token \U{E9} obrigat\U{F3}rio."

  /** `LogoutView.post`: 401 without credentials; a missing, `null` or empty
      `refresh` is refused before any token is touched; otherwise the
      blacklist call decides (205, or 400 with its error). */
  function Logout(req: Requester, refresh: Raw, blacklist: string -> Outcome<string>): (r: Response)
    ensures req.Anonymous? ==> r == Unauthorized401
    ensures req.Authenticated? && (refresh.Missing? || refresh.Null? || refresh == Given("")) ==>
              r == BadRequest400(RefreshRequired)
    ensures r == ResetContent205 ==> req.Authenticated? && refresh.Given? && refresh.text != ""
                                     && blacklist(refresh.text).Pass?
  {
    if req.Anonymous? then Unauthorized401
    else if !refresh.Given? || refresh.text == "" then BadRequest400(RefreshRequired)
    else
      match blacklist(refresh.text)
      case Pass => ResetContent205
      case Fail(e) => BadRequest400(e)
  }
}

=== FILE: fields.dfy ===
/** How the serializers clean one text field: `CharField` in its default
    form strips surrounding whitespace, refuses a missing value when the
    field is required, refuses `null` and a value left blank, and then runs
    its `min_length` validator on what is left. */
module Fields {
  import opened Results
  import opened Text

  /** A field as it arrives in a request body: absent, JSON `null`, or a
      string. */
  datatype Raw = Missing | Null | Given(text: string)

  /** The reason a field, or a pair of fields, is refused. */
  datatype InputError =
    | Required          // the field is absent
    | NullValue         // the field is `null`
    | Blank             // nothing but whitespace
    | TooShort          // shorter than `min_length` once stripped
    | BadFormat         // the pattern or date check fails
    | Taken             // another user already has the value
    | Incorrect         // the current password does not match
    | Mismatch          // a confirmation differs from its password
    | EndNotAfterStart  // an end time not after the start time

  /** A required `CharField(min_length=minLength)`. */
  function CleanChar(x: Raw, minLength: nat): (r: Result<string, InputError>)
    ensures x.Missing? <==> r == Err(Required)
    ensures x.Null? <==> r == Err(NullValue)
    ensures r == Err(Blank) <==> x.Given? && Strip(x.text) == ""
    ensures r == Err(TooShort) <==> x.Given? && Strip(x.text) != "" && |Strip(x.text)| < minLength
    ensures r.Ok? <==> x.Given? && Strip(x.text) != "" && |Strip(x.text)| >= minLength
    ensures r.Ok? ==> r.value == Strip(x.text) && Trimmed(r.value)
  {
    match x
    case Missing => Err(Required)
    case Null => Err(NullValue)
    case Given(s) =>
      if Strip(s) == "" then Err(Blank)
      else if |Strip(s)| < minLength then Err(TooShort)
      else Ok(Strip(s))
  }

  /** An optional `CharField(allow_blank=True)` of a model column with
      default `""`: an absent field keeps the default, `null` is refused,
      anything else is stripped. */
  function CleanOptionalChar(x: Raw): (r: Result<string, InputError>)
    ensures x.Missing? ==> r == Ok("")
    ensures r.Err? <==> x.Null?
    ensures r.Err? ==> r.error == NullValue
    ensures x.Given? ==> r == Ok(Strip(x.text))
  {
    match x
    case Missing => Ok("")
    case Null => Err(NullValue)
    case Given(s) => Ok(Strip(s))
  }

  /** The field reports its own error under `key`, and nothing when it is
      clean. */
  predicate Reports(m: map<string, InputError>, key: string, c: Result<string, InputError>)
  {
    (key in m <==> c.Err?) && (c.Err? ==> m[key] == c.error)
  }

  /** Adds a field's error, if it has one, under `key`. */
  function WithError(m: map<string, InputError>, key: string, c: Result<string, InputError>): (r: map<string, InputError>)
    ensures key !in m ==> Reports(r, key, c)
    ensures forall k :: k != key ==> (k in r <==> k in m) && (k in m ==> r[k] == m[k])
  {
    if c.Err? then m[key := c.error] else m
  }

  /** Surrounding whitespace never decides anything: a value and its
      stripped form are cleaned alike. */
  lemma CleanIgnoresPadding(s: string, minLength: nat)
    ensures CleanChar(Given(s), minLength) == CleanChar(Given(Strip(s)), minLength)
  {
    StripIdempotent(s);
  }

  /** A query-string `CharField(required=True)`: a parameter cannot be
      `null`, so only absence and blankness are refused. */
  function CleanCharField(raw: Option<string>): (r: Result<string, InputError>)
    ensures raw.None? ==> r == Err(Required)
    ensures r.Ok? ==> raw.Some? && r.value == Strip(raw.value) && r.value != ""
    ensures raw.Some? && r.Err? ==> r.error == Blank && Strip(raw.value) == ""
  {
    CleanChar(if raw.Some? then Given(raw.value) else Missing, 0)
  }
}

=== FILE: http.dfy ===
/** The request principal and the responses views produce, with the two
    framework permissions the views use (`IsAuthenticated`, `IsAdminUser`). */
module Http {
  import opened CoreModels

  /** `request.user`: the anonymous user, or an authenticated account. */
  datatype Requester = Anonymous | Authenticated(user: User)

  /** The responses the modelled views return; bodies are left out except
      for the message of a refusal and the names of the fields a payload
      got wrong. */
  datatype Response =
    | Ok200
    | ResetContent205
    | BadRequest400(detail: string)
    | Invalid400(fields: set<string>)
    | Unauthorized401
    | Forbidden403
    | NotFound404

  /** `IsAuthenticated`. */
  predicate IsAuthenticated(req: Requester)
  {
    req.Authenticated?
  }

  /** `IsAdminUser`: an authenticated staff account. */
  predicate IsAdminUser(req: Requester)
  {
    req.Authenticated? && req.user.isStaff
  }

  /** The refusal when a permission check fails: 401 without credentials,
      403 with them. */
  function Deny(req: Requester): (r: Response)
    ensures req.Anonymous? <==> r == Unauthorized401
    ensures req.Authenticated? <==> r == Forbidden403
  {
    if req.Anonymous? then Unauthorized401 else Forbidden403
  }
}

=== FILE: lists.dfy ===
/** Sequence operations that stand for the ORM's queryset operations:
    `filter(...)` keeps the rows a predicate accepts, in order; `order_by(...)`
    sorts rows by a key; `[:n]` keeps a prefix. */
module Lists {
  import opened Results

  /** `queryset.filter(p)`: the rows of `s` that satisfy `p`, in their order. */
  function Filter<T(!new)>(s: seq<T>, p: T -> bool): (r: seq<T>)
    ensures |r| <= |s|
    ensures forall x :: x in r <==> x in s && p(x)
    ensures forall k :: 0 <= k < |r| ==> p(r[k])
    decreases |s|
  {
    if s == [] then []
    else (if p(s[0]) then [s[0]] else []) + Filter(s[1..], p)
  }

  /** Filtering distributes over concatenation, so a loop may count the rows
      that pass a test one at a time. */
  lemma {:induction false} FilterConcat<T(!new)>(a: seq<T>, b: seq<T>, p: T -> bool)
    ensures Filter(a + b, p) == Filter(a, p) + Filter(b, p)
    decreases |a|
  {
    if a == [] {
      assert a + b == b;
    } else {
      assert (a + b)[0] == a[0];
      assert (a + b)[1..] == a[1..] + b;
      FilterConcat(a[1..], b, p);
    }
  }

  /** A stronger test keeps no more rows than a weaker one. */
  lemma {:induction false} FilterStronger<T(!new)>(s: seq<T>, p: T -> bool, q: T -> bool)
    requires forall x :: p(x) ==> q(x)
    ensures |Filter(s, p)| <= |Filter(s, q)|
    decreases |s|
  {
    if s != [] {
      FilterStronger(s[1..], p, q);
    }
  }

  /** Filtering with a test every row passes changes nothing. */
  lemma {:induction false} FilterAll<T(!new)>(s: seq<T>, p: T -> bool)
    requires forall k :: 0 <= k < |s| ==> p(s[k])
    ensures Filter(s, p) == s
    decreases |s|
  {
    if s != [] {
      FilterAll(s[1..], p);
      assert [s[0]] + s[1..] == s;
    }
  }

  /** Filtering with a test no row passes leaves nothing. */
  lemma {:induction false} FilterNone<T(!new)>(s: seq<T>, p: T -> bool)
    requires forall k :: 0 <= k < |s| ==> !p(s[k])
    ensures Filter(s, p) == []
    decreases |s|
  {
    if s != [] {
      FilterNone(s[1..], p);
    }
  }

  /** Two tests that agree on every row keep the same rows. */
  lemma {:induction false} FilterSame<T(!new)>(s: seq<T>, p: T -> bool, q: T -> bool)
    requires forall k :: 0 <= k < |s| ==> (p(s[k]) <==> q(s[k]))
    ensures Filter(s, p) == Filter(s, q)
    decreases |s|
  {
    if s != [] {
      FilterSame(s[1..], p, q);
    }
  }

  /** Chained `filter` calls keep the rows that pass both tests, as one
      `filter` with the conjunction `r` would. */
  lemma {:induction false} FilterChain<T(!new)>(s: seq<T>, p: T -> bool, q: T -> bool, r: T -> bool)
    requires forall x :: r(x) == (p(x) && q(x))
    ensures Filter(Filter(s, p), q) == Filter(s, r)
    decreases |s|
  {
    if s != [] {
      FilterChain(s[1..], p, q, r);
      if p(s[0]) {
        assert Filter(s, p) == [s[0]] + Filter(s[1..], p);
        assert Filter(s, p)[1..] == Filter(s[1..], p);
      } else {
        assert Filter(s, p) == Filter(s[1..], p);
      }
    }
  }

  /** A test and its negation split the rows between them. */
  lemma {:induction false} FilterSplit<T(!new)>(s: seq<T>, p: T -> bool, q: T -> bool)
    requires forall x :: q(x) == !p(x)
    ensures |Filter(s, p)| + |Filter(s, q)| == |s|
    decreases |s|
  {
    if s != [] {
      FilterSplit(s[1..], p, q);
    }
  }

  /** `queryset.filter(p).first()`, or `get()` when at most one row can
      pass: the first row `p` accepts. */
  function Find<T(!new)>(s: seq<T>, p: T -> bool): (r: Option<T>)
    ensures r.Some? ==> r.value in s && p(r.value)
    ensures r.None? <==> forall k :: 0 <= k < |s| ==> !p(s[k])
    decreases |s|
  {
    if s == [] then None
    else if p(s[0]) then Some(s[0])
    else Find(s[1..], p)
  }

  /** The queryset slice `[:n]`. */
  function Take<T(!new)>(s: seq<T>, n: nat): (r: seq<T>)
    ensures |r| <= n && |r| <= |s|
    ensures r == s[..|r|]
    ensures |s| <= n ==> r == s
  {
    if |s| <= n then s else s[..n]
  }

  /** Rows are in non-decreasing order of `key`. */
  ghost predicate SortedBy<T(!new)>(s: seq<T>, key: T -> int)
  {
    forall i, j :: 0 <= i < j < |s| ==> key(s[i]) <= key(s[j])
  }

  /** A row whose key is at most the first key of a sorted list can go in
      front of it. */
  lemma SortedPrepend<T(!new)>(x: T, s: seq<T>, key: T -> int)
    requires SortedBy(s, key) && (s == [] || key(x) <= key(s[0]))
    ensures SortedBy([x] + s, key)
  {
    var r := [x] + s;
    forall i, j | 0 <= i < j < |r| ensures key(r[i]) <= key(r[j]) {
      assert r[j] == s[j - 1];
      if i > 0 {
        assert r[i] == s[i - 1];
      } else {
        assert key(s[0]) <= key(s[j - 1]);
      }
    }
  }

  /** Inserts `x` before the first row whose key is not smaller. */
  function InsertBy<T(!new)>(x: T, s: seq<T>, key: T -> int): (r: seq<T>)
    ensures |r| == |s| + 1
    ensures multiset(r) == multiset(s) + multiset{x}
    ensures r[0] == x || (|s| > 0 && r[0] == s[0])
    decreases |s|
  {
    if s == [] || key(x) <= key(s[0]) then [x] + s
    else
      assert s == [s[0]] + s[1..];
      [s[0]] + InsertBy(x, s[1..], key)
  }

  /** Inserting into a sorted list keeps it sorted. */
  lemma {:induction false} InsertBySorted<T(!new)>(x: T, s: seq<T>, key: T -> int)
    requires SortedBy(s, key)
    ensures SortedBy(InsertBy(x, s, key), key)
    decreases |s|
  {
    if s == [] || key(x) <= key(s[0]) {
      SortedPrepend(x, s, key);
    } else {
      var tail := InsertBy(x, s[1..], key);
      assert SortedBy(s[1..], key);
      InsertBySorted(x, s[1..], key);
      assert key(s[0]) <= key(tail[0]) by {
        if tail[0] != x {
          assert tail[0] == s[1];
        }
      }
      SortedPrepend(s[0], tail, key);
    }
  }

  /** `order_by(key)`: a stable insertion sort; the result is a sorted
      permutation of the rows. */
  function SortBy<T(!new)>(s: seq<T>, key: T -> int): (r: seq<T>)
    ensures |r| == |s|
    ensures multiset(r) == multiset(s)
    ensures SortedBy(r, key)
    decreases |s|
  {
    if s == [] then []
    else
      var r := InsertBy(s[0], SortBy(s[1..], key), key);
      InsertBySorted(s[0], SortBy(s[1..], key), key);
      assert s == [s[0]] + s[1..];
      r
  }

  /** Sorting keeps exactly the rows it was given. */
  lemma SortByMembers<T(!new)>(s: seq<T>, key: T -> int)
    ensures forall x :: x in SortBy(s, key) <==> x in s
  {
    var r := SortBy(s, key);
    forall x ensures x in r <==> x in s {
      assert x in r <==> x in multiset(r);
      assert x in s <==> x in multiset(s);
    }
  }
}

=== FILE: results.dfy ===
/** Failure-compatible wrappers shared by every module: a missing value, a
    value-or-error, and a pass-or-error outcome. */
module Results {

  datatype Option<+T> = None | Some(value: T)

  datatype Result<+T, +E> = Ok(value: T) | Err(error: E)

  datatype Outcome<+E> = Pass | Fail(error: E)

  /** The identifier of a stored row: database primary keys start at 1, so
      an identifier is always truthy where the source tests `if id:`. */
  type Id = x: int | x > 0 witness 1
}

=== FILE: text.dfy ===
/** The string primitives the source relies on: Python's `str.strip()`,
    `upper()`/`lower()` restricted to ASCII letters, substring search
    (`icontains`) and `split(sep)[0]`. */
module Text {

  /** The characters for which Python's `str.isspace()` holds. */
  predicate IsSpace(c: char)
  {
    ('\t' <= c <= '\r') || ('\U{1C}' <= c <= '\U{1F}') || c == ' '
    || c == '\U{85}' || c == '\U{A0}' || c == '\U{1680}'
    || ('\U{2000}' <= c <= '\U{200A}') || c == '\U{2028}' || c == '\U{2029}'
    || c == '\U{202F}' || c == '\U{205F}' || c == '\U{3000}'
  }

  predicate IsDigit(c: char)
  {
    '0' <= c <= '9'
  }

  /** The number of whitespace characters `s.lstrip()` removes. */
  function LeadingSpaces(s: string): (n: nat)
    ensures n <= |s|
    ensures forall k :: 0 <= k < n ==> IsSpace(s[k])
    ensures n == |s| || !IsSpace(s[n])
    decreases |s|
  {
    if s != [] && IsSpace(s[0]) then 1 + LeadingSpaces(s[1..]) else 0
  }

  /** `s.rstrip()`: drops the trailing whitespace and nothing else. */
  function TrimEnd(s: string): (r: string)
    ensures |r| <= |s| && r == s[..|r|]
    ensures forall k :: |r| <= k < |s| ==> IsSpace(s[k])
    ensures r == [] || !IsSpace(r[|r| - 1])
    decreases |s|
  {
    if s != [] && IsSpace(s[|s| - 1]) then TrimEnd(s[..|s| - 1]) else s
  }

  /** `s.strip()`: the infix of `s` left once the leading and the trailing
      whitespace are removed; it neither starts nor ends with whitespace. */
  function Strip(s: string): (r: string)
    ensures LeadingSpaces(s) + |r| <= |s|
    ensures r == s[LeadingSpaces(s)..LeadingSpaces(s) + |r|]
    ensures forall k :: LeadingSpaces(s) + |r| <= k < |s| ==> IsSpace(s[k])
    ensures r == [] || (!IsSpace(r[0]) && !IsSpace(r[|r| - 1]))
    ensures r == [] <==> forall k :: 0 <= k < |s| ==> IsSpace(s[k])
  {
    var lo := LeadingSpaces(s);
    var r := TrimEnd(s[lo..]);
    assert forall k :: lo + |r| <= k < |s| ==> s[k] == s[lo..][k - lo];
    assert r != [] ==> r[0] == s[lo];
    r
  }

  /** A string made only of non-space characters is left as it is. */
  lemma StripNoSpace(s: string)
    requires forall k :: 0 <= k < |s| ==> !IsSpace(s[k])
    ensures Strip(s) == s
  {
    assert LeadingSpaces(s) == 0;
  }

  /** Non-empty, and neither starts nor ends with whitespace. */
  predicate Trimmed(s: string)
  {
    s != [] && !IsSpace(s[0]) && !IsSpace(s[|s| - 1])
  }

  /** `strip()` finds exactly the non-space core between a run of leading
      and a run of trailing whitespace. */
  lemma StripCore(s: string, lo: nat, r: string)
    requires Trimmed(r)
    requires lo + |r| <= |s| && s[lo..lo + |r|] == r
    requires forall k :: 0 <= k < lo ==> IsSpace(s[k])
    requires forall k :: lo + |r| <= k < |s| ==> IsSpace(s[k])
    ensures Strip(s) == r
  {
    var n := LeadingSpaces(s);
    assert s[lo] == r[0];
    assert n == lo;
    var t := Strip(s);
    assert s[lo + |r| - 1] == r[|r| - 1];
    assert |t| == |r|;
  }

  /** Stripping twice is stripping once. */
  lemma StripIdempotent(s: string)
    ensures Strip(Strip(s)) == Strip(s)
  {
    var r := Strip(s);
    if r != [] {
      StripCore(r, 0, r);
    }
  }

  function UpperChar(c: char): (u: char)
  {
    if 'a' <= c <= 'z' then (c as int - 32) as char else c
  }

  function LowerChar(c: char): (l: char)
  {
    if 'A' <= c <= 'Z' then (c as int + 32) as char else c
  }

  /** `s.upper()` for ASCII letters. */
  function Upper(s: string): (r: string)
    ensures |r| == |s|
    ensures forall k :: 0 <= k < |s| ==> r[k] == UpperChar(s[k])
    ensures forall k :: 0 <= k < |r| ==> !('a' <= r[k] <= 'z')
  {
    seq(|s|, k requires 0 <= k < |s| => UpperChar(s[k]))
  }

  /** `s.lower()` for ASCII letters. */
  function Lower(s: string): (r: string)
    ensures |r| == |s|
    ensures forall k :: 0 <= k < |s| ==> r[k] == LowerChar(s[k])
    ensures forall k :: 0 <= k < |r| ==> !('A' <= r[k] <= 'Z')
  {
    seq(|s|, k requires 0 <= k < |s| => LowerChar(s[k]))
  }

  /** Upper-casing twice is upper-casing once. */
  lemma UpperIdempotent(s: string)
    ensures Upper(Upper(s)) == Upper(s)
  {
  }

  /** Upper-casing a lower-cased string gives the upper-cased original. */
  lemma UpperOfLower(s: string)
    ensures Upper(Lower(s)) == Upper(s)
  {
    forall k | 0 <= k < |s| ensures UpperChar(LowerChar(s[k])) == UpperChar(s[k]) {
    }
  }

  /** `needle` occurs in `hay` starting at its first character. */
  predicate IsPrefix(needle: string, hay: string)
  {
    |needle| <= |hay| && hay[..|needle|] == needle
  }

  /** `needle in hay` (SQL `LIKE '%needle%'`), by scanning every start. */
  predicate Contains(hay: string, needle: string)
    decreases |hay|
  {
    IsPrefix(needle, hay) || (hay != [] && Contains(hay[1..], needle))
  }

  /** An occurrence at any offset is found by the scan. */
  lemma {:induction false} ContainsAt(hay: string, needle: string, i: nat)
    requires i + |needle| <= |hay| && hay[i..i + |needle|] == needle
    ensures Contains(hay, needle)
    decreases i
  {
    if i > 0 {
      assert hay[1..][i - 1..i - 1 + |needle|] == needle;
      ContainsAt(hay[1..], needle, i - 1);
    }
  }

  /** Whatever the scan finds is an occurrence at some offset. */
  lemma {:induction false} ContainsWitness(hay: string, needle: string) returns (i: nat)
    requires Contains(hay, needle)
    ensures i + |needle| <= |hay| && hay[i..i + |needle|] == needle
    decreases |hay|
  {
    if IsPrefix(needle, hay) {
      i := 0;
    } else {
      var j := ContainsWitness(hay[1..], needle);
      assert hay[1..][j..j + |needle|] == hay[j + 1..j + 1 + |needle|];
      i := j + 1;
    }
  }

  /** Case-insensitive containment, as the ORM's `icontains` compares
      `UPPER(field) LIKE UPPER('%value%')`. */
  predicate IContains(hay: string, needle: string)
  {
    Contains(Upper(hay), Upper(needle))
  }

  /** `s.split(sep)[0]`: everything before the first `sep`, or all of `s`. */
  function FirstField(s: string, sep: char): (r: string)
    ensures |r| <= |s| && r == s[..|r|]
    ensures sep !in r
    ensures |r| < |s| ==> s[|r|] == sep
    decreases |s|
  {
    if s == [] then []
    else if s[0] == sep then []
    else [s[0]] + FirstField(s[1..], sep)
  }

  /** The first field of `a`, a separator and anything after is `a`, when
      `a` holds no separator. */
  lemma {:induction false} FirstFieldOf(a: string, sep: char, b: string)
    requires sep !in a
    ensures FirstField(a + [sep] + b, sep) == a
    decreases |a|
  {
    if a != [] {
      assert (a + [sep] + b)[1..] == a[1..] + [sep] + b;
      FirstFieldOf(a[1..], sep, b);
    }
  }
}
